=== FILE: README.md ===
# RasterTools in Dafny

A model of the deterministic core of RasterTools, a Python package. The package:
- clips population rasters to administrative shapes;
- subdivides shapes into sub-shapes of roughly 100 km²;
- downloads raster and shape resources from a CKAN data exchange.

The model covers these parts:

- **Shape loading** (`rastertools/shape.py`). A `ShapeView` object per shapefile record. Its part loop slices the flat point list into rings, appends each ring and its spherical area, and accumulates the planar-area-weighted centre. A record with parts but no points raises on its first part, which is not an (N, 2) array. A record with no parts raises when the centre divides the Python float `0.0` by `0.0`. The first such record ends `from_file`, and so `raster_clip`, before any shape is validated. Also modelled: `validate`, the bounding box, the shoelace `centroid_area`, and serialising polygons as "exterior, then its holes".
- **Raster clipping** (`rastertools/raster.py`):
  - the affine sanity checks;
  - the sparse grid of positive cells at pixel centres;
  - the strict bounding-box pre-filter;
  - the sequential ring-by-ring OR / AND-NOT containment fold;
  - the per-shape summary (default: rounded sum; optional latitude/longitude means);
  - the result map keyed by shape name.
- **Subdivision** (`shape_subdivide` in `rastertools/shape.py`):
  - the output field list and name index;
  - the number of boxes and the lattice size (integer ceiling square root);
  - the row-major lattice and its longitude stretch;
  - Voronoi region filtering and loop closing;
  - the count check that skips a shape;
  - sub-shape naming `dotname:Annnn` and record copying;
  - the emitted rings, and the centre points with their records.
- **The stand-alone subdivision script** (`examples/shape_subdivide/make03_shapedivide.py`):
  - field copying (DOTNAME gets 10 more characters);
  - grouping rings into polygons by area sign;
  - the grouped containment rule;
  - the fatal aborts;
  - the emission of each Voronoi piece.

  A lemma shows that this grouped rule and the sequential rule of `raster.py` agree, under two conditions: holes lie inside their own outer ring, and outer rings are disjoint.
- **Download planning** (`rastertools/data.py`):
  - the file name and path rule with the prefix/suffix filter;
  - the cache path;
  - the choice of resource ids;
  - the download decision;
  - the files list, with zip archives contributing their extracted files;
  - returning a single file bare.
- **Comparison** (`examples/worldpop/compare.py`). The relative-difference map over the union of names, and the report of the entries above 20%.

Heavy geometry and I/O are function-valued parameters, which the model treats as oracles:
- spherical ring area, `polygon_area_km2` and `long_mult`;
- `Path.contains_points`;
- shapely validity, `buffer(0)` and intersection;
- k-means and Voronoi;
- the CKAN service, the file system, hashing and zip extraction.

Numbers are exact reals. `Numeric.Float.NonFinite` stands for NaN and the infinities. numpy's `round` is round-half-to-even.

The model follows the code where the package's own description says otherwise:
- **Latitude/longitude.** With `include_latlon`, they are the means of the interior sample coordinates, not the shape centroid (`Raster.LocatedWithinBox`).
- **Sign convention.** The doc-comment of `centroid_area` says clockwise rings have positive area. The shoelace formula as written gives the clockwise unit square area −1 (`Geometry.ClockwiseUnitSquare`).
- **`shape_subdivide`'s name index.** `shape_subdivide` computes `dotname_index` over the *output* field list, where the name attribute is always first, so it is always 0. That index is then used on the *input* record, and the model keeps this (`Subdivide.DotnameIndexIsZero`, `Subdivide.SubRecord`).
- **Null shapes in `raster_clip`.** The comment at `raster.py` line 64 expects `validate` to catch null shapes. A record without points or parts already raises in `from_file`, so on a loaded shape `validate` can fail only for want of a name (`Shape.ParsedValidates`, `Raster.RasterClipLoadFails`).
- **Centre records.** Every cluster-centre point is written with the record of the last emitted sub-shape (`Subdivide.EmitCentresWrites`, `Subdivide.ProcessShapeEmits`).

## Model

| member | source | states |
|---|---|---|
| Numeric.RoundHalfEven | rastertools/raster.py:106-107 | the result is an integer within 1/2 of x, and is even on a tie |
| Numeric.Round2 | examples/worldpop/compare.py:19 | rounding to two decimals moves the value by at most 0.005 |
| Numeric.Trunc | tests/test_raster.py:35 | `int()` truncates toward zero: within 1 of x, on the side of zero |
| Numeric.CeilSqrt | rastertools/shape.py:289 | integer ceiling square root: r² ≥ n and (r−1)² < n |
| Numeric.Mean | rastertools/raster.py:96-97 | the mean is finite exactly when the array is non-empty |
| Numeric.MeanBounds | rastertools/raster.py:96-97 | the mean of values in [lo, hi] lies in [lo, hi] |
| Text.Format04 | rastertools/shape.py:357 | `{:04d}` is all digits, at least 4 long, ends with the decimal form and parses back to n |
| Text.Format04Injective | rastertools/shape.py:357 | different indexes give different zero-padded texts |
| Text.Lower | rastertools/data.py:156 | lowering keeps the length and maps each character |
| Geometry.CentroidAreaReversed | rastertools/shape.py:213-230 | reversing a ring negates its shoelace area and leaves its centroid unchanged |
| Geometry.ClockwiseUnitSquare | rastertools/shape.py:218-230 | the clockwise unit square has area −1 and centroid (0.5, 0.5) |
| Geometry.EdgeSumReversed | rastertools/shape.py:223-228 | every shoelace sum changes sign when the ring is reversed |
| Geometry.Min | rastertools/shape.py:55-58 | the minimum is at most every element and is attained |
| Geometry.Max | rastertools/shape.py:50-53 | the maximum is at least every element and is attained |
| Geometry.BoundingBoxTight | rastertools/shape.py:50-58 | every point lies within `xy_min`..`xy_max`, and each of the four bounds is attained by some point |
| Geometry.Slice | rastertools/shape.py:118 | Python slicing: the ordinary subsequence when in range, empty when the bounds cross |
| Geometry.PartRings | rastertools/shape.py:111-118 | one ring per part index |
| Geometry.PartRingsCover | rastertools/shape.py:111-118 | with well-formed part indexes, the rings are consecutive and cover `points[parts[0]:]` |
| Geometry.MembersCoords | rastertools/shape.py:175-189 | a polygon contributes its exterior, then each of its interiors in order |
| Geometry.CoordsOf | rastertools/shape.py:175-185 | one coordinate list per geometry |
| Geometry.PolygonsToPartsOrder | rastertools/shape.py:188-192 | rings come polygon by polygon, exterior first, then that polygon's interiors in order |
| Geometry.GroupStepKeeps | examples/shape_subdivide/make03_shapedivide.py:89-92 | one grouping step keeps groups well formed and appends the ring to their concatenation |
| Geometry.GroupRingsFails | examples/shape_subdivide/make03_shapedivide.py:89-92 | grouping fails exactly when the first ring's area is non-positive; on success a non-empty ring list gives at least one group |
| Geometry.GroupRingsSound | examples/shape_subdivide/make03_shapedivide.py:83-92 | the groups concatenate to the ring list, and each starts with its only positive ring |
| Geometry.GroupPolygonsToParts | examples/shape_subdivide/make03_shapedivide.py:83-101 | grouping the serialised rings of well-formed polygons gives back each polygon's ring group |
| Shape.WeightedTotalValue | rastertools/shape.py:127-131 | the accumulated `Cx·A` is finite exactly when no part has zero area, and is then the first moment |
| Shape.CenterFormula | rastertools/shape.py:114-134 | the centre is (Σ Cx·A / Σ A, Σ Cy·A / Σ A) with signed A; it is finite exactly when no part area and not the total is zero. It is stored only for a shape with parts: with none, `from_file` raises (`Shape.LoadFailure`) |
| Shape.CenterSinglePart | rastertools/shape.py:114-134 | with one part, the centre is that part's centroid |
| Shape.CenterTwoEqualParts | rastertools/shape.py:114-134 | two parts of equal non-zero area give the midpoint of their centroids |
| Shape.ParseShape | rastertools/shape.py:111-125 | after loading, paths, areas and parts have equal length, and the paths cover `points[parts[0]:]` |
| Shape.Validate | rastertools/shape.py:65-68 | validation fails exactly when the points or paths are empty, when paths and areas differ in length, or when the name is missing or empty; each error is returned exactly when its assertion is the first to fail |
| Shape.ParsedValidates | rastertools/shape.py:65-68 | a parsed shape never has inconsistent parts, and passes exactly when it has points, parts and a non-empty name; a shape `from_file` loads without raising never fails the "No parts" assertion, and passes exactly when it has a non-empty name |
| Shape.ShapeView.constructor | rastertools/shape.py:28-34 | a new view keeps its shape and record, with no paths or areas and centre (0, 0) |
| Shape.LoadFailure | rastertools/shape.py:111-134 | loading a record raises exactly when it has no points or no parts; with no parts the error is the division by zero of the centre |
| Shape.LoadAll | rastertools/shape.py:106-138 | a successful load yields one shape per record |
| Shape.LoadAllSucceeds | rastertools/shape.py:106-138 | loading all records succeeds exactly when every record has points and parts, and then yields each record parsed, in file order |
| Shape.LoadAllFirstFailure | rastertools/shape.py:106-138 | the first record that raises ends the load with its error, whatever the later records hold |
| Shape.ShapeView.LoadParts | rastertools/shape.py:111-134 | the part loop appends one path and one area per part and sets the centre to the weighted formula; with parts but no points it raises on the first part, and with no parts it raises at the centre, leaving the view unchanged |
| Shape.LoadView | rastertools/shape.py:108-134 | one record's view fails exactly as `LoadFailure` says, and otherwise is fresh and holds the parsed shape |
| Shape.FromFile | rastertools/shape.py:92-138 | raises exactly when `LoadAll` fails, with its error; otherwise one fresh view per record, each holding the loaded shape |
| Raster.AffineFromTags | rastertools/raster.py:35-38 | the tags give x0, y0, dx and dy = −scale[1]; too short tags are an error |
| Raster.CheckAffine | rastertools/raster.py:40-44 | passes exactly when −180 < x0 < 180, −85 < y0 < 85, 0 < dx < 1 and −1 < dy < 0; otherwise it names the first failing check |
| Raster.SamplesOf | rastertools/raster.py:51-54 | each sample is (x0 + dx·col + dx/2, y0 + dy·row + dy/2, value) |
| Raster.PositiveCellsExact | rastertools/raster.py:47-48 | the sparse cells are exactly the positive ones, in row-major order |
| Raster.SparseGrid | rastertools/raster.py:46-54 | the nested loop builds exactly the samples of the positive cells, in row-major order |
| Raster.BoxClipExact | rastertools/raster.py:67-70 | the clip keeps exactly the samples strictly inside the box |
| Raster.ClipWithinShapeExtent | rastertools/raster.py:67-70 | every clipped sample has shape points strictly on each side of it |
| Raster.SequentialFlags | rastertools/raster.py:81-90 | each flag is the ring-by-ring fold: OR for a positive ring, AND NOT for a non-positive one, starting from false |
| Raster.DefaultSummary | rastertools/raster.py:106-107 | the summary is the sum rounded half to even, within 1/2 of the sum, and exactly 0 for no values |
| Raster.InsideFlags | rastertools/raster.py:82-90 | one flag per clipped sample |
| Raster.ClipShape | rastertools/raster.py:67-101 | the entry computed for one view is exactly `ShapeEntry` of its shape |
| Raster.EntryFn | rastertools/raster.py:67-101 | the entry function is defined for every shape with points and gives its entry |
| Raster.ShapeOutcome | rastertools/raster.py:63-65 | a shape contributes a named entry exactly when it validates, and otherwise its validation error |
| Raster.Outcomes | rastertools/raster.py:63-101 | one outcome per shape, in order |
| Raster.CollectSucceeds | rastertools/raster.py:60-103 | building the map succeeds exactly when every shape validates |
| Raster.CollectKeys | rastertools/raster.py:60-103 | the map's keys are the names collected so far |
| Raster.CollectLast | rastertools/raster.py:60-103 | a name's value is the entry of the last shape with that name |
| Raster.CollectFailurePersists | rastertools/raster.py:63-65 | once a shape fails validation, later shapes change nothing |
| Raster.CollectStep | rastertools/raster.py:63-100 | a valid shape inserts its entry; an invalid one makes the whole call fail with its error |
| Raster.ClipShapesSucceeds | rastertools/raster.py:63-65 | the call succeeds exactly when every shape validates |
| Raster.ClipShapesKeys | rastertools/raster.py:60-103 | the result has one key per shape name |
| Raster.ClipShapesFirstFailure | rastertools/raster.py:63-65 | the first invalid shape decides the error |
| Raster.ClipShapesLastWins | rastertools/raster.py:98-100 | every shape's name maps to the entry of the last shape with that name |
| Raster.NoSampleInBoxGivesDefault | rastertools/raster.py:72-79 | an empty clip gives 0, or (NaN, NaN, 0) with `include_latlon` |
| Raster.MeanNotAboveSum | tests/test_raster.py:29-35 | the truncated mean of positive values never exceeds their rounded sum |
| Raster.MeanEntryBelowSumEntry | tests/test_raster.py:29-35 | per shape, the truncated mean summary is at most the default sum summary |
| Raster.LocatedWithinBox | rastertools/raster.py:95-98 | with `include_latlon`, lat and lon are both finite or both NaN, and when finite lie within the shape's bounding box |
| Raster.RasterClipSucceeds | rastertools/raster.py:35-65 | the call succeeds exactly when the tags are long enough, the affine checks pass and every record has points, parts and a non-empty name |
| Raster.LoadedClipSucceeds | rastertools/raster.py:62-65 | once every record has loaded, the shape loop succeeds exactly when every record has a non-empty name |
| Raster.RasterClipLoadFails | rastertools/raster.py:56-65 | all records are loaded before any is validated: the first record without points or parts makes the call fail with its load error, whatever the names before it |
| Raster.ClipViews | rastertools/raster.py:60-103 | the shape loop builds exactly the map `ClipShapes` describes |
| Raster.RasterClip | rastertools/raster.py:16-103 | the whole call returns exactly `RasterClipSpec`: tag and range errors, then the first load error, then the first shape that fails validation, else the summary map; `default_summary_func` when no summary is given |
| Subdivide.WriterFields | rastertools/shape.py:255-257 | the name attribute comes first, followed by the input fields other than it and the deletion flag |
| Subdivide.IndexOf | rastertools/shape.py:268 | `list.index`: the first position holding the value |
| Subdivide.DotnameIndexIsZero | rastertools/shape.py:266-268 | the name attribute is in the writer fields, and its index there is always 0 |
| Subdivide.NumBoxBounds | rastertools/shape.py:288 | at least 1, and equal to the rounded area/100 whenever that is at least 1 |
| Subdivide.PtsDimBounds | rastertools/shape.py:289 | pts_dim² ≥ 250·num_box > (pts_dim−1)², so pts_dim ≥ 16 |
| Subdivide.Linspace | rastertools/shape.py:308-309 | `linspace` has n points |
| Subdivide.LinspaceWithin | rastertools/shape.py:308-309 | the points include both ends and are non-decreasing within [a, b] |
| Subdivide.LatticeAt | rastertools/shape.py:308-313 | the flattened meshgrid has \|xs\|·\|ys\| points, and point r·\|xs\|+c is (xs[c], ys[r]) |
| Subdivide.StretchAnchored | rastertools/shape.py:314 | the stretch is x0 + (x−x0)·m; it keeps y, fixes the western edge, and moves x east when m ≥ 1 and x ≥ x0 |
| Subdivide.StretchedLatticeAt | rastertools/shape.py:306-314 | the mesh has d² points; point r·d+c is the stretched (xs[c], ys[r]), with y inside the bounds |
| Subdivide.Closed | rastertools/shape.py:338 | a closed loop is the region's vertices followed by its first vertex again |
| Subdivide.LoopsExact | rastertools/shape.py:333-339 | the kept regions are exactly the non-empty ones without −1, in order, each closed |
| Subdivide.ExtractRegions | rastertools/shape.py:333-339 | the region loop builds exactly the closed loops of the kept regions |
| Subdivide.SubNameShape | rastertools/shape.py:356-357 | a sub-shape name is the dotname, then `:A`, then at least 4 digits |
| Subdivide.SubNameDistinct | rastertools/shape.py:357 | different region indexes give different names |
| Subdivide.SubRecordFields | rastertools/shape.py:355-358 | the copied record differs from the input only at the name index, which holds the sub-shape name |
| Subdivide.SubNamesDistinct | rastertools/shape.py:355-358 | the sub-shapes of one shape have pairwise distinct names |
| Subdivide.Count | rastertools/shape.py:276-282 | `top_n or len`, then Python slicing: all shapes for None or 0, the first top_n for positive, all but the last \|top_n\| for negative |
| Subdivide.EmitRegionStep | rastertools/shape.py:350-366 | emitting a region appends its rings and its renamed record, unless the geometry is unsupported or the record is missing |
| Subdivide.EmitRegionsGrows | rastertools/shape.py:350-366 | a successful region loop appends exactly one part and one record per region and remembers the last record |
| Subdivide.EmitRegionsWrites | rastertools/shape.py:350-366 | the k-th appended part is the serialised intersection with region k, and the k-th record carries name index k |
| Subdivide.EmitRegionsKeepsCentres | rastertools/shape.py:350-366 | the region loop writes no centre points |
| Subdivide.EmitCentresWrites | rastertools/shape.py:368-372 | each centre point is written with the last sub-shape's record; the shape output is untouched |
| Subdivide.ProcessShapeSkips | rastertools/shape.py:291-298 | a shape that stays invalid after repair writes nothing |
| Subdivide.ProcessShapeEmits | rastertools/shape.py:282-372 | a processed shape adds one sub-shape per cluster and, when asked, one centre per cluster with the last record |
| Subdivide.RunStays | rastertools/shape.py:282-372 | after an error, later shapes change nothing |
| Subdivide.RunWithoutCentres | rastertools/shape.py:259-264 | without `out_centers`, no centre points are written |
| Subdivide.ShapeWriter.Poly | rastertools/shape.py:365 | `poly` appends one shape |
| Subdivide.ShapeWriter.AddRecord | rastertools/shape.py:366 | `record` appends one record |
| Subdivide.PointWriter.AddPoint | rastertools/shape.py:370 | `point` appends one point |
| Subdivide.PointWriter.AddRecord | rastertools/shape.py:372 | `record` appends one record |
| Subdivide.EmitSubShapes | rastertools/shape.py:350-366 | the region loop writes exactly the parts and records of `EmitRegions` |
| Subdivide.WriteCentres | rastertools/shape.py:368-372 | the centre loop writes exactly the points and records of `EmitCentres`, leaving the rest of the run state alone |
| Subdivide.SubdivideShape | rastertools/shape.py:282-372 | one pass of the shape loop changes both writers exactly as `ProcessShape` does |
| Subdivide.ShapeSubdivide | rastertools/shape.py:240-376 | the whole call fills fresh writers with exactly the output of `Subdivide`; the centre writer exists exactly when asked for |
| Subdivide.ShapeLoop | rastertools/shape.py:282-372 | the shape loop leaves in the writers exactly the output of the first `count` passes, stopping at the first error |
| ShapeDivide.DotnameIndexLast | examples/shape_subdivide/make03_shapedivide.py:53-59 | the index exists exactly when a field after the deletion flag is named DOTNAME, and is the last such position minus one |
| ShapeDivide.CopyFields | examples/shape_subdivide/make03_shapedivide.py:53-59 | every field but the first is copied in order, DOTNAME with 10 more characters; the index is the last DOTNAME's |
| ShapeDivide.Areas | examples/shape_subdivide/make03_shapedivide.py:87 | one area per ring |
| ShapeDivide.GroupParts | examples/shape_subdivide/make03_shapedivide.py:83-92 | the part loop builds the grouping and, on success, the signed sum of all ring areas, holes included |
| ShapeDivide.GroupsToPolygons | examples/shape_subdivide/make03_shapedivide.py:95-101 | one polygon per group |
| ShapeDivide.GroupsToPolygonsRoundTrip | examples/shape_subdivide/make03_shapedivide.py:95-101 | each polygon has a positive exterior and non-positive holes, and serialising the polygons gives back the rings |
| ShapeDivide.GroupedInside | examples/shape_subdivide/make03_shapedivide.py:141-153 | a point is flagged exactly when, for some group, it is in the outer ring and in none of its holes |
| ShapeDivide.SequentialThroughGroup | examples/shape_subdivide/make03_shapedivide.py:146-153 | folding the sequential rule through one group ORs in the outer ring and removes the holes seen so far |
| ShapeDivide.SequentialMatchesGrouped | examples/shape_subdivide/make03_shapedivide.py:146-153 | when holes lie inside their outer ring and outers are disjoint, the sequential rule of raster.py and the grouped rule agree |
| ShapeDivide.PrepareShape | examples/shape_subdivide/make03_shapedivide.py:63-185 | a shape aborts with no DOTNAME exactly when the index is missing or out of the record; a shape with parts but no points aborts on its first part slice; with points, it aborts with no open group exactly when its first ring is not positive; on success the shape has points and the repaired multipolygon is valid |
| ShapeDivide.CutShape | examples/shape_subdivide/make03_shapedivide.py:91-185 | each abort holds exactly when its check is the first to fail: invalid after `buffer(0)`, no points for the bounds, the k-means fit on the grouped-interior lattice raising, or a region count that differs from the cluster count; a cut holds the repaired multipolygon and one Voronoi outline per cluster centre |
| ShapeDivide.PrepareShapeCuts | examples/shape_subdivide/make03_shapedivide.py:63-185 | a shape with a DOTNAME, points, a successful grouping, a valid repaired multipolygon, a k-means fit and one region per centre is cut into exactly those regions |
| ShapeDivide.ProcessShapeEmits | examples/shape_subdivide/make03_shapedivide.py:191-239 | a shape cut into regions and written without an abort gets one sub-shape per cluster centre: part `k` is region `k` intersected with the repaired multipolygon, record `k` the shape's record renamed with index `k` |
| ShapeDivide.ProcessShapeStops | examples/shape_subdivide/make03_shapedivide.py:116-123 | an abort while preparing a shape ends the run with that error and writes nothing for it |
| ShapeDivide.RunStops | examples/shape_subdivide/make03_shapedivide.py:63-240 | after an abort, later shapes change nothing |
| ShapeDivide.EmitAllGrows | examples/shape_subdivide/make03_shapedivide.py:191-239 | a successful region loop appends exactly one part and one record per region |
| ShapeDivide.EmitAllWrites | examples/shape_subdivide/make03_shapedivide.py:191-239 | the k-th part is the intersection with region k as exterior-then-holes, and the k-th record carries name index k |
| ShapeDivide.NoDotnameStops | examples/shape_subdivide/make03_shapedivide.py:64 | without a DOTNAME field the run writes nothing |
| ShapeDivide.PolyWriter.Poly | examples/shape_subdivide/make03_shapedivide.py:238 | `poly` appends one shape |
| ShapeDivide.PolyWriter.AddRecord | examples/shape_subdivide/make03_shapedivide.py:239 | `record` appends one record |
| ShapeDivide.AppendPolygon | examples/shape_subdivide/make03_shapedivide.py:215-224 | a polygon's rings are appended exterior first, then its interiors |
| ShapeDivide.PolyAsList | examples/shape_subdivide/make03_shapedivide.py:210-235 | the Polygon and MultiPolygon branches both give the exterior-then-holes serialisation |
| ShapeDivide.WriteRegions | examples/shape_subdivide/make03_shapedivide.py:191-239 | the region loop writes exactly the parts and records of `EmitAll` |
| ShapeDivide.Prepare | examples/shape_subdivide/make03_shapedivide.py:63-185 | the per-shape steps before emission give exactly the cut or the abort of `PrepareShape` |
| ShapeDivide.CutRegions | examples/shape_subdivide/make03_shapedivide.py:91-185 | the statements of the mesh, clustering and Voronoi step give exactly the cut or the abort of `CutShape` |
| ShapeDivide.ShapeDivideRun | examples/shape_subdivide/make03_shapedivide.py:53-243 | the whole script fills a fresh writer with exactly the sub-shapes and records of `ShapeDivideSpec` and reports its abort |
| ShapeDivide.ShapeLoop | examples/shape_subdivide/make03_shapedivide.py:61-240 | the shape loop leaves in the writer exactly the output of `Run` over all shapes, stopping at the first abort |
| Data.FileNameRule | rastertools/data.py:154-156 | a name with a dot is kept as is; otherwise it becomes lower(name) + "." + lower(format); the result always has a dot |
| Data.GetFilePath | rastertools/data.py:145-162 | None exactly when a given prefix or suffix does not match the file name; otherwise data_dir joined with the file name |
| Data.LastDot | rastertools/data.py:84 | the position of the last dot, if any |
| Data.ZipSuffix | rastertools/data.py:84 | the suffix is `.zip` exactly when the name is longer than `.zip` and ends with it |
| Data.CachePath | rastertools/data.py:103-106 | the cache file lies under the cache directory and is named `<id>.json` |
| Data.CachePathInjective | rastertools/data.py:103-106 | different ids or entity kinds never share a cache file |
| Data.DownloadDecision | rastertools/data.py:76-78 | a missing file is fetched; a matching file is kept unless forced; with a non-empty digest, fetch iff forced or the local hash differs |
| Data.PlanFiles | rastertools/data.py:68-88 | when all metadata is known, the loop does not stop and the files are what each resource adds, concatenated in resource order |
| Data.PlanStops | rastertools/data.py:69-74 | the first resource without metadata ends the loop with its error, and nothing is added after it |
| Data.PlanStopsAt | rastertools/data.py:69-74 | after the stop the plan no longer changes |
| Data.ShapeFiles | rastertools/data.py:90-91 | the result is a bare path exactly when there is one file |
| Data.ShapeFilesRoundTrip | rastertools/data.py:90-93 | returning one file bare loses nothing |
| Data.TargetsRule | rastertools/data.py:60-66 | a resource id stands alone; a dataset gives its resource ids in order, below its own directory when asked; unknown dataset metadata is an error |
| Data.Download | rastertools/data.py:36-93 | `download` returns an error and fetches nothing for a dataset without metadata; otherwise it returns and fetches what the resource loop over its targets gives |
| Data.ResourceLoop | rastertools/data.py:68-93 | the resource loop stops at the first resource without metadata with its error; otherwise it returns all files, bare when there is exactly one, with the fetches of every resource |
| Data.ResourceStep | rastertools/data.py:70-88 | one resource adds its contribution to the files and its fetch, if needed |
| Compare.PercDiff | examples/worldpop/compare.py:14-19 | 0 when both values are 0; 1 when only the zonal value is non-zero; otherwise within 0.005 of (c−z)/c |
| Compare.PercDiffExact | examples/worldpop/compare.py:14-19 | equal values give exactly 0; a name with a non-zero value on one side only gives exactly 1 |
| Compare.PercDiffs | examples/worldpop/compare.py:9-19 | the keys are exactly the union of both maps' names, and a missing name counts as 0 |
| Compare.Report | examples/worldpop/compare.py:25-28 | the report holds exactly the entries whose absolute value exceeds 0.2, with their values |

## Left out

- Spherical and ellipsoidal area (`area_sphere`, `polygon_area_km2`) and `long_mult` are parameters. The longitude factor is assumed ≥ 1 only where a lemma says so.
- matplotlib `Path.contains_points`, shapely validity, `buffer(0)`, intersection and `prep(...).contains`, sklearn `KMeans` and scipy `Voronoi` are parameters. The model states only what the code does with their results.
- ShapeDivide.PrepareShape, ShapeDivide.CutShape, ShapeDivide.ProcessShape, ShapeDivide.Run, ShapeDivide.ShapeDivideSpec and the members built on them (`RunStops`, `ProcessShapeStops`, `PrepareShapeCuts`, `ProcessShapeEmits`, `NoDotnameStops`, `Prepare`, `CutRegions`, `ShapeDivideRun`, `ShapeLoop`): assume the Voronoi oracle returns only vertex indexes that exist (`VoronoiWellIndexed`), as scipy guarantees. An index out of range is not modelled.
- Subdivide.ProcessShape, Subdivide.Run, Subdivide.Subdivide and the members built on them (`ProcessShapeSkips`, `ProcessShapeEmits`, `RunStays`, `RunWithoutCentres`, `SubdivideShape`, `ShapeSubdivide`, `ShapeLoop`): make the same assumption (`ValidOps`). An index out of range is not modelled.
- `shapes_to_polygons` is not modelled. Its dictionary keyed by DOTNAME silently drops shapes with repeated names, so `shape_subdivide` receives the multipolygons as an input list beside the records. A shorter list than the records is modelled as `RecordMissing`.
- Reading and writing shapefiles, TIFF decoding and `get_tiff_tags`, JSON, zip extraction, SHA-256 hashing, `mkdir`, CKAN/requests calls and `print` logging are left out. Their results are parameters.
- Writers: the writers receive their field list at construction instead of through repeated `field` calls.
- Download planning: the file system is a fixed snapshot. A file fetched earlier in the same call does not change later decisions, and the fetches are returned as a list rather than performed.
- Paths are directory and file-name strings joined with `/`. Path normalisation and names that contain separators are not modelled.
- `get_metadata`'s cache fallback is merged into the metadata oracle, and `get_remote` (API key lookup) is not modelled.
- Shape.RawShape: the name attribute of a record is an `Option`, so a record that has no such attribute is modelled as a missing name (`NoName`). pyshp's `record[name_attr]` raises its own error there (`rastertools/shape.py` line 44); that distinct exception is not modelled.
- Text.Lower: lowers ASCII letters only, not full Unicode case mapping.
- Doubles are exact reals, so there is no overflow or rounding error. NaN and the infinities are `NonFinite`. They arise from a numpy division by zero or the mean of nothing. A division of the Python float `0.0` by `0.0` in `from_file` raises instead (`Shape.LoadFailure`).
- Compare.PercDiff: Python's `round(x, 2)` works on the binary double. The model rounds the exact real half to even, so only the 0.005 bound and the exact cases are stated.
- Compare.PercDiffs: the JSON files and the printed mean and median of the differences (examples/worldpop/compare.py:21-23, 30-32) are left out.
- `plot_shapes`, `rastertools/etl.py`, `raster_clip_weighted` and the orchestration scripts are not part of this model.
- The order in which Python iterates a `set` or `dict` is not modelled: both loops in compare.py pick names in any order, and the results are maps. Likewise `raster_clip`'s `data_dict` is a map, so the insertion order of its names is not modelled.

=== FILE: compare.dfy ===
/**
 * `examples/worldpop/compare.py`: the relative difference, per shape name,
 * between the populations of two result maps, and the report of the names
 * whose difference exceeds 20%. Reading and writing the JSON files and the
 * printed summary are not modelled.
 */
module Compare {
  import opened Numeric

  /** A name missing from a result map counts as population 0. */
  function Lookup(m: map<string, real>, name: string): real
  {
    if name in m then m[name] else 0.0
  }

  function Abs(x: real): real
  {
    if x < 0.0 then -x else x
  }

  /** The relative difference of the clipped value `c` against the zonal value `z`. */
  function PercDiff(c: real, z: real): (r: real)
    ensures c == 0.0 ==> r == if z == 0.0 then 0.0 else 1.0
    ensures c != 0.0 ==> -0.005 <= r - (c - z) / c <= 0.005
  {
    if c == 0.0 && z == 0.0 then 0.0
    else if c == 0.0 then 1.0
    else Round2((c - z) / c)
  }

  /**
   * Equal values differ by 0, and a name present on one side only (with a
   * non-zero value) differs by exactly 1, whichever side it is on.
   */
  lemma PercDiffExact(c: real, z: real)
    ensures c == z ==> PercDiff(c, z) == 0.0
    ensures c != 0.0 && z == 0.0 ==> PercDiff(c, z) == 1.0
    ensures c == 0.0 && z != 0.0 ==> PercDiff(c, z) == 1.0
  {
    if c == z && c != 0.0 {
      assert (c - z) / c == 0.0;
      assert RoundHalfEven(0.0) == 0;
    }
    if c != 0.0 && z == 0.0 {
      assert (c - z) / c == 1.0;
      assert RoundHalfEven(100.0) == 100;
    }
  }

  /** The loop over the union of names, filling `perc_diff` entry by entry. */
  method PercDiffs(clipped: map<string, real>, zonal: map<string, real>) returns (percDiff: map<string, real>)
    ensures percDiff.Keys == clipped.Keys + zonal.Keys
    ensures forall name :: name in percDiff ==> percDiff[name] == PercDiff(Lookup(clipped, name), Lookup(zonal, name))
  {
    percDiff := map[];
    var dotNames := clipped.Keys + zonal.Keys;
    var todo := dotNames;
    while todo != {}
      invariant todo <= dotNames
      invariant forall name :: name in percDiff <==> name in dotNames && name !in todo
      invariant forall name :: name in percDiff ==> percDiff[name] == PercDiff(Lookup(clipped, name), Lookup(zonal, name))
      decreases |todo|
    {
      var name :| name in todo;
      var c := if name in clipped then clipped[name] else 0.0;
      var z := if name in zonal then zonal[name] else 0.0;
      var v := PercDiff(c, z);
      percDiff := percDiff[name := v];
      todo := todo - {name};
    }
  }

  /** The report loop: exactly the entries whose difference is above 0.2 in absolute value. */
  method Report(percDiff: map<string, real>) returns (report: map<string, real>)
    ensures forall name :: name in report <==> name in percDiff && Abs(percDiff[name]) > 0.2
    ensures forall name :: name in report ==> report[name] == percDiff[name]
  {
    report := map[];
    var todo := percDiff.Keys;
    while todo != {}
      invariant todo <= percDiff.Keys
      invariant forall name :: name in report <==> name in percDiff && name !in todo && Abs(percDiff[name]) > 0.2
      invariant forall name :: name in report ==> report[name] == percDiff[name]
      decreases |todo|
    {
      var name :| name in todo;
      var v := percDiff[name];
      if Abs(v) > 0.2 {
        report := report[name := v];
      }
      todo := todo - {name};
    }
  }
}

=== FILE: data.dfy ===
/**
 * `rastertools/data.py`: where a downloaded resource is stored, whether it
 * has to be fetched again, and what `download` returns. The CKAN service
 * and its metadata cache are `Remote`; the local file system, hashing and
 * zip extraction are `Disk`. The fetches themselves are returned as a plan.
 */
module Data {
  import opened Wrappers
  import opened Seqs
  import opened Text

  /** The resource metadata fields the code reads. */
  datatype ResourceMeta = ResourceMeta(name: string, format: string, sha256: string, url: string)

  /** A dataset (CKAN package): its name and its resource ids in metadata order. */
  datatype DatasetMeta = DatasetMeta(name: string, resourceIds: seq<string>)

  /** Metadata by id, from the service or the local cache; `None` when neither has it. */
  datatype Remote = Remote(package: string -> Option<DatasetMeta>, resource: string -> Option<ResourceMeta>)

  /** The local files: which paths are files, their SHA-256 digests, and the files a zip extracts to. */
  datatype Disk = Disk(isFile: string -> bool, digest: string -> string, extract: string -> seq<string>)

  /** `Path(dir).joinpath(name)`, as text. */
  function Join(dir: string, name: string): string
  {
    dir + "/" + name
  }

  // ---------------------------------------------------------------------------
  // File names and paths

  /** A name without a dot gets the format as extension, and the whole name is lowered. */
  function FileName(meta: ResourceMeta): string
  {
    if '.' !in meta.name then Lower(meta.name + "." + meta.format) else meta.name
  }

  lemma {:induction false} LowerAppend(a: string, b: string)
    ensures Lower(a + b) == Lower(a) + Lower(b)
  {
    assert forall i :: 0 <= i < |a + b| ==> Lower(a + b)[i] == (Lower(a) + Lower(b))[i];
  }

  /**
   * A name that has a dot is used as it is, case included; otherwise the file
   * name is the lowered name, a dot and the lowered format. Either way the
   * file name has a dot.
   */
  lemma FileNameRule(meta: ResourceMeta)
    ensures '.' in meta.name ==> FileName(meta) == meta.name
    ensures '.' !in meta.name ==> FileName(meta) == Lower(meta.name) + "." + Lower(meta.format)
    ensures '.' in FileName(meta)
  {
    if '.' !in meta.name {
      LowerAppend(meta.name + ".", meta.format);
      LowerAppend(meta.name, ".");
      assert Lower(".") == ".";
      assert FileName(meta)[|meta.name|] == '.';
    }
  }

  /** A local file: its directory and its file name. */
  datatype FilePath = FilePath(dir: string, name: string)

  function PathText(p: FilePath): string
  {
    Join(p.dir, p.name)
  }

  /** `get_file_path`: the file under `data_dir`, or `None` when the name fails the prefix or suffix filter. */
  function GetFilePath(meta: ResourceMeta, dataDir: string, prefix: Option<string>, suffix: Option<string>): (r: Option<FilePath>)
    ensures r.None? <==>
      (prefix.Some? && !StartsWith(FileName(meta), prefix.value)) || (suffix.Some? && !EndsWith(FileName(meta), suffix.value))
    ensures r.Some? ==> r.value.dir == dataDir && r.value.name == FileName(meta)
  {
    var fileName := FileName(meta);
    var prefixOk := prefix.None? || StartsWith(fileName, prefix.value);
    var suffixOk := suffix.None? || EndsWith(fileName, suffix.value);
    if prefixOk && suffixOk then Some(FilePath(dataDir, fileName)) else None
  }

  /** The position of the last dot. */
  function LastDot(s: string): (r: Option<nat>)
    ensures r.None? ==> '.' !in s
    ensures r.Some? ==> r.value < |s| && s[r.value] == '.' && forall j :: r.value < j < |s| ==> s[j] != '.'
  {
    if s == [] then None
    else if s[|s| - 1] == '.' then Some(|s| - 1)
    else
      var r := LastDot(s[..|s| - 1]);
      assert forall j :: 0 <= j < |s| - 1 ==> s[..|s| - 1][j] == s[j];
      r
  }

  /** `PurePath.suffix`: from the last dot, unless that dot starts or ends the name. */
  function Suffix(name: string): string
  {
    match LastDot(name)
    case None => ""
    case Some(i) => if 0 < i < |name| - 1 then name[i..] else ""
  }

  /** A path counts as a zip archive exactly when its name is longer than `.zip` and ends with it. */
  lemma ZipSuffix(name: string)
    ensures Suffix(name) == ".zip" <==> |name| > 4 && EndsWith(name, ".zip")
  {
    if |name| > 4 && EndsWith(name, ".zip") {
      var i := |name| - 4;
      assert name[i..] == ".zip";
      assert name[i] == '.' && name[i + 1] == 'z' && name[i + 2] == 'i' && name[i + 3] == 'p';
      assert LastDot(name) == Some(i);
    }
    if Suffix(name) == ".zip" {
      var i := LastDot(name).value;
      assert |name[i..]| == 4;
    }
  }

  /** `_get_cache_path`: `<cache_dir>/package/<id>.json` for a dataset, `<cache_dir>/resource/<id>.json` otherwise. */
  function CachePath(cacheDir: string, entityId: string, isDataset: bool): (r: string)
    ensures StartsWith(r, cacheDir + "/") && EndsWith(r, entityId + ".json")
  {
    var entityType := if isDataset then "package" else "resource";
    Join(Join(cacheDir, entityType), entityId + ".json")
  }

  /** Different entities never share a cache file. */
  lemma CachePathInjective(cacheDir: string, id1: string, d1: bool, id2: string, d2: bool)
    requires CachePath(cacheDir, id1, d1) == CachePath(cacheDir, id2, d2)
    ensures id1 == id2 && d1 == d2
  {
    var p1, p2 := CachePath(cacheDir, id1, d1), CachePath(cacheDir, id2, d2);
    var k := |cacheDir| + 1;
    assert p1[k] == (if d1 then 'p' else 'r');
    assert p2[k] == (if d2 then 'p' else 'r');
    var t := k + (if d1 then 7 else 8) + 1;
    assert p1[t..] == id1 + ".json";
    assert p2[t..] == id2 + ".json";
    assert id1 == (id1 + ".json")[..|id1|];
    assert id2 == (id2 + ".json")[..|id2|];
  }

  // ---------------------------------------------------------------------------
  // The download decision

  /** `sha256`: the digest of a file, and `""` for a path that is not a file. */
  function LocalHash(disk: Disk, path: string): string
  {
    if disk.isFile(path) then disk.digest(path) else ""
  }

  function NeedsDownload(force: bool, disk: Disk, path: string, sha: string): bool
  {
    force || !disk.isFile(path) || LocalHash(disk, path) != sha
  }

  /**
   * A missing file is always fetched; an existing file whose digest matches
   * the metadata is kept unless forced; and as long as the metadata digest is
   * not empty, the missing-file test adds nothing to the digest comparison.
   */
  lemma DownloadDecision(force: bool, disk: Disk, path: string, sha: string)
    ensures !disk.isFile(path) ==> NeedsDownload(force, disk, path, sha)
    ensures !force && disk.isFile(path) && disk.digest(path) == sha ==> !NeedsDownload(force, disk, path, sha)
    ensures sha != "" ==> (NeedsDownload(force, disk, path, sha) <==> force || LocalHash(disk, path) != sha)
  {
  }

  // ---------------------------------------------------------------------------
  // What `download` does for every resource

  /** One fetch of a resource url into a local file. */
  datatype Fetch = Fetch(url: string, path: string)

  /** The files one resource adds to the result: none when filtered out, the extracted files of a zip, else its own path. */
  function Contribution(meta: ResourceMeta, dataDir: string, prefix: Option<string>, suffix: Option<string>, extract: bool, disk: Disk): seq<string>
  {
    match GetFilePath(meta, dataDir, prefix, suffix)
    case None => []
    case Some(fp) => if extract && Suffix(fp.name) == ".zip" then disk.extract(PathText(fp)) else [PathText(fp)]
  }

  /** The fetch one resource needs, if any. */
  function FetchOf(meta: ResourceMeta, dataDir: string, prefix: Option<string>, suffix: Option<string>, force: bool, disk: Disk): seq<Fetch>
  {
    match GetFilePath(meta, dataDir, prefix, suffix)
    case None => []
    case Some(fp) => if NeedsDownload(force, disk, PathText(fp), meta.sha256) then [Fetch(meta.url, PathText(fp))] else []
  }

  datatype DataError = NoMetadata(id: string)

  /** The options `download` passes unchanged to every resource. */
  datatype Options = Options(prefix: Option<string>, suffix: Option<string>, force: bool, extract: bool)

  /** The files and fetches so far, and the error that ended the loop. */
  datatype Plan = Plan(files: seq<string>, fetches: seq<Fetch>, err: Option<DataError>)

  /** What one resource with metadata adds to the result and to the fetches. */
  datatype Added = Added(files: seq<string>, fetches: seq<Fetch>)

  /** The body of the resource loop, for a resource with metadata, as a function of that metadata. */
  function ResourceAdds(dataDir: string, opts: Options, disk: Disk): ResourceMeta -> Added
  {
    meta => Added(Contribution(meta, dataDir, opts.prefix, opts.suffix, opts.extract, disk),
                  FetchOf(meta, dataDir, opts.prefix, opts.suffix, opts.force, disk))
  }

  /** The first `n` passes of the resource loop; `add` is what a resource with metadata adds. */
  function PlanUpTo(rids: seq<string>, remote: Remote, add: ResourceMeta -> Added, n: nat): Plan
    requires n <= |rids|
  {
    if n == 0 then Plan([], [], None)
    else
      var p := PlanUpTo(rids, remote, add, n - 1);
      if p.err.Some? then p
      else match remote.resource(rids[n - 1])
        case None => p.(err := Some(NoMetadata(rids[n - 1])))
        case Some(meta) => Plan(p.files + add(meta).files, p.fetches + add(meta).fetches, None)
  }

  /** Every resource of the first `n` has metadata. */
  predicate AllKnown(rids: seq<string>, remote: Remote, n: nat)
    requires n <= |rids|
  {
    forall k :: 0 <= k < n ==> remote.resource(rids[k]).Some?
  }

  /** What each of the first `n` resources contributes, in resource order. */
  function Contributions(rids: seq<string>, remote: Remote, add: ResourceMeta -> Added, n: nat): (cs: seq<seq<string>>)
    requires n <= |rids| && AllKnown(rids, remote, n)
    ensures |cs| == n
  {
    if n == 0 then []
    else Contributions(rids, remote, add, n - 1) + [add(remote.resource(rids[n - 1]).value).files]
  }

  /**
   * When every resource has metadata, the files list is the concatenation,
   * in resource order, of what each resource contributes.
   */
  lemma {:induction false} PlanFiles(rids: seq<string>, remote: Remote, add: ResourceMeta -> Added, n: nat)
    requires n <= |rids| && AllKnown(rids, remote, n)
    ensures PlanUpTo(rids, remote, add, n).err.None?
    ensures PlanUpTo(rids, remote, add, n).files == Flatten(Contributions(rids, remote, add, n))
  {
    if n > 0 {
      PlanFiles(rids, remote, add, n - 1);
      var c := add(remote.resource(rids[n - 1]).value).files;
      FlattenAppend(Contributions(rids, remote, add, n - 1), [c]);
      assert Flatten([c]) == c + Flatten([]);
    }
  }

  /** The first resource without metadata ends the loop with that error; files and fetches stop growing. */
  lemma PlanStops(rids: seq<string>, remote: Remote, add: ResourceMeta -> Added, k: nat, n: nat)
    requires k < n <= |rids| && AllKnown(rids, remote, k) && remote.resource(rids[k]).None?
    ensures PlanUpTo(rids, remote, add, n).err == Some(NoMetadata(rids[k]))
    ensures PlanUpTo(rids, remote, add, n).files == PlanUpTo(rids, remote, add, k).files
  {
    PlanFiles(rids, remote, add, k);
    PlanStopsAt(rids, remote, add, k, n);
  }

  /** Once the loop has stopped, the plan no longer changes. */
  lemma {:induction false} PlanStopsAt(rids: seq<string>, remote: Remote, add: ResourceMeta -> Added, k: nat, n: nat)
    requires k < n <= |rids| && PlanUpTo(rids, remote, add, k).err.None? && remote.resource(rids[k]).None?
    ensures PlanUpTo(rids, remote, add, n) == PlanUpTo(rids, remote, add, k).(err := Some(NoMetadata(rids[k])))
    decreases n
  {
    if n > k + 1 {
      PlanStopsAt(rids, remote, add, k, n - 1);
    }
  }

  // ---------------------------------------------------------------------------
  // The result of `download`

  /** A single file is returned as a bare path, any other number as a list. */
  datatype Files = One(path: string) | Many(paths: seq<string>)

  function ShapeFiles(files: seq<string>): (r: Files)
    ensures r.One? <==> |files| == 1
  {
    if |files| == 1 then One(files[0]) else Many(files)
  }

  function AsList(f: Files): seq<string>
  {
    match f
    case One(p) => [p]
    case Many(ps) => ps
  }

  /** Nothing is lost by returning a single file bare. */
  lemma ShapeFilesRoundTrip(files: seq<string>)
    ensures AsList(ShapeFiles(files)) == files
  {
    if |files| == 1 {
      assert files == [files[0]];
    }
  }

  /** The resource ids and the directory the files go to. */
  function Targets(dataId: string, dataDir: string, isDataset: bool, createSubdir: bool, remote: Remote): Result<(seq<string>, string), DataError>
  {
    if !isDataset then Success(([dataId], dataDir))
    else match remote.package(dataId)
      case None => Failure(NoMetadata(dataId))
      case Some(dst) => Success((dst.resourceIds, if createSubdir then Join(dataDir, dst.name) else dataDir))
  }

  /** For a dataset, every resource in metadata order, below the dataset's own directory when asked; otherwise the one id. */
  lemma TargetsRule(dataId: string, dataDir: string, isDataset: bool, createSubdir: bool, remote: Remote)
    ensures !isDataset ==> Targets(dataId, dataDir, isDataset, createSubdir, remote) == Success(([dataId], dataDir))
    ensures isDataset && remote.package(dataId).Some? ==>
      Targets(dataId, dataDir, isDataset, createSubdir, remote).Success? &&
      Targets(dataId, dataDir, isDataset, createSubdir, remote).value.0 == remote.package(dataId).value.resourceIds &&
      (createSubdir ==> StartsWith(Targets(dataId, dataDir, isDataset, createSubdir, remote).value.1, dataDir + "/"))
    ensures isDataset && remote.package(dataId).None? ==> Targets(dataId, dataDir, isDataset, createSubdir, remote).Failure?
  {
  }

  /** What `download` returns and which files it fetches. */
  datatype Outcome = Outcome(result: Result<Files, DataError>, fetches: seq<Fetch>)

  function DownloadSpec(dataId: string, dataDir: string, isDataset: bool, createSubdir: bool, opts: Options,
                        remote: Remote, disk: Disk): Outcome
  {
    match Targets(dataId, dataDir, isDataset, createSubdir, remote)
    case Failure(e) => Outcome(Failure(e), [])
    case Success((rids, dir)) =>
      var p := PlanUpTo(rids, remote, ResourceAdds(dir, opts, disk), |rids|);
      Outcome(if p.err.Some? then Failure(p.err.value) else Success(ShapeFiles(p.files)), p.fetches)
  }

  /** `download`: pick the resources, then for each one decide, fetch and add its files. */
  method Download(dataId: string, dataDir: string, isDataset: bool, createSubdir: bool, opts: Options,
                  remote: Remote, disk: Disk) returns (r: Result<Files, DataError>, fetches: seq<Fetch>)
    ensures Outcome(r, fetches) == DownloadSpec(dataId, dataDir, isDataset, createSubdir, opts, remote, disk)
  {
    var resourceIds: seq<string>;
    var dir := dataDir;
    if isDataset {
      var dst := remote.package(dataId);
      if dst.None? {
        return Failure(NoMetadata(dataId)), [];
      }
      if createSubdir {
        dir := Join(dataDir, dst.value.name);
      }
      resourceIds := dst.value.resourceIds;
    } else {
      resourceIds := [dataId];
    }
    r, fetches := ResourceLoop(resourceIds, dir, opts, remote, disk);
  }

  /** The resource loop of `download`, and the return of its files. */
  method ResourceLoop(rids: seq<string>, dir: string, opts: Options, remote: Remote, disk: Disk)
    returns (r: Result<Files, DataError>, fetches: seq<Fetch>)
    ensures var p := PlanUpTo(rids, remote, ResourceAdds(dir, opts, disk), |rids|);
      fetches == p.fetches && r == if p.err.Some? then Failure(p.err.value) else Success(ShapeFiles(p.files))
  {
    var files: seq<string> := [];
    fetches := [];
    ghost var add := ResourceAdds(dir, opts, disk);
    for k := 0 to |rids|
      invariant PlanUpTo(rids, remote, add, k) == Plan(files, fetches, None)
    {
      var rid := rids[k];
      var meta := remote.resource(rid);
      if meta.None? {
        PlanStopsAt(rids, remote, add, k, |rids|);
        return Failure(NoMetadata(rid)), fetches;
      }
      files, fetches := ResourceStep(meta.value, dir, opts, disk, files, fetches);
      assert add(meta.value) == Added(Contribution(meta.value, dir, opts.prefix, opts.suffix, opts.extract, disk),
                                      FetchOf(meta.value, dir, opts.prefix, opts.suffix, opts.force, disk));
    }
    r := Success(ShapeFiles(files));
  }

  /** The body of the resource loop for a resource with metadata. */
  method ResourceStep(meta: ResourceMeta, dir: string, opts: Options, disk: Disk, files: seq<string>, fetches: seq<Fetch>)
    returns (files': seq<string>, fetches': seq<Fetch>)
    ensures files' == files + Contribution(meta, dir, opts.prefix, opts.suffix, opts.extract, disk)
    ensures fetches' == fetches + FetchOf(meta, dir, opts.prefix, opts.suffix, opts.force, disk)
  {
    files', fetches' := files, fetches;
    var filePath := GetFilePath(meta, dir, opts.prefix, opts.suffix);
    if filePath.None? {
      return;
    }
    var path := PathText(filePath.value);
    var noFile := !disk.isFile(path);
    var isDiff := LocalHash(disk, path) != meta.sha256;
    if opts.force || noFile || isDiff {
      fetches' := fetches' + [Fetch(meta.url, path)];
    }
    if opts.extract && Suffix(filePath.value.name) == ".zip" {
      files' := files' + disk.extract(path);
    } else {
      files' := files' + [path];
    }
  }
}

=== FILE: geometry.dfy ===
/**
 * Planar geometry of shapefile rings: points, the shoelace centroid, bounding
 * boxes, the slicing of a shape's flat point list into rings, and the ESRI
 * convention that groups rings into polygons (an outer ring with positive
 * area followed by its holes).
 */
module Geometry {
  import opened Wrappers
  import opened Seqs
  import opened Numeric

  /** A (longitude, latitude) pair. */
  datatype Point = Point(x: real, y: real)

  /** A closed ring: an ordered list of points whose first point equals its last. */
  type Ring = seq<Point>

  // ---------------------------------------------------------------------------
  // Shoelace centroid and area (centroid_area)

  /** The cross product of two consecutive ring points (one entry of `a_vec`). */
  function Cross(p: Point, q: Point): real
  {
    p.x * q.y - q.x * p.y
  }

  /** Which sum over the edges: the area, or the first moment in x or in y. */
  datatype Moment = AreaSum | MomentX | MomentY

  function Weight(k: Moment, p: Point, q: Point): real
  {
    match k
    case AreaSum => 1.0
    case MomentX => p.x + q.x
    case MomentY => p.y + q.y
  }

  function Term(k: Moment, p: Point, q: Point): real
  {
    Weight(k, p, q) * Cross(p, q)
  }

  /** Sum of `Term` over the consecutive point pairs of `ring`. */
  function EdgeSum(k: Moment, ring: Ring): real
  {
    if |ring| < 2 then 0.0 else Term(k, ring[0], ring[1]) + EdgeSum(k, ring[1..])
  }

  datatype CentroidArea = CentroidArea(cx: Float, cy: Float, a: real)

  /**
   * `centroid_area`: the signed planar area `A` (half the sum of the cross
   * products) and the centroid `(Sx / 6 / A, Sy / 6 / A)`; a zero area leaves
   * the centroid non-finite.
   */
  function CentroidAreaOf(ring: Ring): CentroidArea
  {
    var a := EdgeSum(AreaSum, ring) / 2.0;
    CentroidArea(Div(Finite(EdgeSum(MomentX, ring) / 6.0), a),
                 Div(Finite(EdgeSum(MomentY, ring) / 6.0), a),
                 a)
  }

  lemma TermAntisymmetric(k: Moment, p: Point, q: Point)
    ensures Term(k, q, p) == -Term(k, p, q)
  {
    assert Cross(q, p) == -Cross(p, q);
    assert Weight(k, q, p) == Weight(k, p, q);
  }

  lemma {:induction false} EdgeSumAppend(k: Moment, s: Ring, p: Point)
    requires |s| >= 1
    ensures EdgeSum(k, s + [p]) == EdgeSum(k, s) + Term(k, s[|s| - 1], p)
  {
    if |s| == 1 {
      assert s + [p] == [s[0], p];
      assert EdgeSum(k, [p]) == 0.0;
    } else {
      assert (s + [p])[1..] == s[1..] + [p];
      EdgeSumAppend(k, s[1..], p);
    }
  }

  /** Walking a ring backwards negates each of its edge sums. */
  lemma {:induction false} EdgeSumReversed(k: Moment, ring: Ring)
    ensures EdgeSum(k, Reversed(ring)) == -EdgeSum(k, ring)
  {
    ReversedLength(ring);
    if |ring| >= 2 {
      var rest := Reversed(ring[1..]);
      ReversedLength(ring[1..]);
      ReversedAt(ring[1..], 0);
      assert rest[|rest| - 1] == ring[1];
      EdgeSumAppend(k, rest, ring[0]);
      EdgeSumReversed(k, ring[1..]);
      TermAntisymmetric(k, ring[0], ring[1]);
    } else if |ring| == 1 {
      assert Reversed(ring) == ring;
    }
  }

  /** Reversing a ring negates its signed area and keeps its centroid. */
  lemma CentroidAreaReversed(ring: Ring)
    ensures CentroidAreaOf(Reversed(ring)).a == -CentroidAreaOf(ring).a
    ensures CentroidAreaOf(Reversed(ring)).cx == CentroidAreaOf(ring).cx
    ensures CentroidAreaOf(Reversed(ring)).cy == CentroidAreaOf(ring).cy
  {
    EdgeSumReversed(AreaSum, ring);
    EdgeSumReversed(MomentX, ring);
    EdgeSumReversed(MomentY, ring);
    var a := EdgeSum(AreaSum, ring) / 2.0;
    if a != 0.0 {
      DivNegated(EdgeSum(MomentX, ring) / 6.0, a);
      DivNegated(EdgeSum(MomentY, ring) / 6.0, a);
    }
  }

  lemma DivNegated(n: real, d: real)
    requires d != 0.0
    ensures (-n) / (-d) == n / d
  {
    var q := n / d;
    assert q * d == n;
    assert q * (-d) == -n;
  }

  /**
   * The unit square walked clockwise has planar area -1 and centroid
   * (1/2, 1/2): the shoelace sum is positive for counter-clockwise rings.
   */
  lemma ClockwiseUnitSquare()
    ensures var c := CentroidAreaOf([Point(0.0, 0.0), Point(0.0, 1.0), Point(1.0, 1.0), Point(1.0, 0.0), Point(0.0, 0.0)]);
            c.a == -1.0 && c.cx == Finite(0.5) && c.cy == Finite(0.5)
  {
    var p0, p1, p2, p3 := Point(0.0, 0.0), Point(0.0, 1.0), Point(1.0, 1.0), Point(1.0, 0.0);
    EdgeSumQuad(AreaSum, p0, p1, p2, p3);
    EdgeSumQuad(MomentX, p0, p1, p2, p3);
    EdgeSumQuad(MomentY, p0, p1, p2, p3);
    assert Cross(p0, p1) == 0.0 && Cross(p1, p2) == -1.0 && Cross(p2, p3) == -1.0 && Cross(p3, p0) == 0.0;
  }

  /** The edge sums of a closed four-sided ring. */
  lemma EdgeSumQuad(k: Moment, p0: Point, p1: Point, p2: Point, p3: Point)
    ensures EdgeSum(k, [p0, p1, p2, p3, p0]) ==
      Term(k, p0, p1) + Term(k, p1, p2) + Term(k, p2, p3) + Term(k, p3, p0)
  {
    var r := [p0, p1, p2, p3, p0];
    assert r[1..] == [p1, p2, p3, p0];
    assert r[1..][1..] == [p2, p3, p0];
    assert r[1..][1..][1..] == [p3, p0];
    assert r[1..][1..][1..][1..] == [p0];
    assert EdgeSum(k, [p0]) == 0.0;
    assert EdgeSum(k, [p3, p0]) == Term(k, p3, p0) + EdgeSum(k, [p0]);
    assert EdgeSum(k, [p2, p3, p0]) == Term(k, p2, p3) + EdgeSum(k, [p3, p0]);
    assert EdgeSum(k, [p1, p2, p3, p0]) == Term(k, p1, p2) + EdgeSum(k, [p2, p3, p0]);
  }

  // ---------------------------------------------------------------------------
  // Bounding box (xy_min, xy_max)

  function Xs(pts: seq<Point>): (r: seq<real>)
    ensures |r| == |pts| && forall i :: 0 <= i < |pts| ==> r[i] == pts[i].x
  {
    seq(|pts|, i requires 0 <= i < |pts| => pts[i].x)
  }

  function Ys(pts: seq<Point>): (r: seq<real>)
    ensures |r| == |pts| && forall i :: 0 <= i < |pts| ==> r[i] == pts[i].y
  {
    seq(|pts|, i requires 0 <= i < |pts| => pts[i].y)
  }

  /** `np.min`: a lower bound of `s` that `s` attains. */
  function Min(s: seq<real>): (m: real)
    requires |s| > 0
    ensures forall i :: 0 <= i < |s| ==> m <= s[i]
    ensures exists i :: 0 <= i < |s| && s[i] == m
  {
    if |s| == 1 then s[0]
    else
      var r := Min(s[1..]);
      assert forall i :: 1 <= i < |s| ==> s[i] == s[1..][i - 1];
      if s[0] <= r then s[0] else r
  }

  /** `np.max`: an upper bound of `s` that `s` attains. */
  function Max(s: seq<real>): (m: real)
    requires |s| > 0
    ensures forall i :: 0 <= i < |s| ==> s[i] <= m
    ensures exists i :: 0 <= i < |s| && s[i] == m
  {
    if |s| == 1 then s[0]
    else
      var r := Max(s[1..]);
      assert forall i :: 1 <= i < |s| ==> s[i] == s[1..][i - 1];
      if s[0] >= r then s[0] else r
  }

  /** `np.min(points, axis=0)`. */
  function XyMin(pts: seq<Point>): Point
    requires |pts| > 0
  {
    Point(Min(Xs(pts)), Min(Ys(pts)))
  }

  /** `np.max(points, axis=0)`. */
  function XyMax(pts: seq<Point>): Point
    requires |pts| > 0
  {
    Point(Max(Xs(pts)), Max(Ys(pts)))
  }

  /** Every point lies inside the box, and each of the four bounds is attained. */
  lemma BoundingBoxTight(pts: seq<Point>)
    requires |pts| > 0
    ensures forall i :: 0 <= i < |pts| ==>
      XyMin(pts).x <= pts[i].x <= XyMax(pts).x && XyMin(pts).y <= pts[i].y <= XyMax(pts).y
    ensures exists i :: 0 <= i < |pts| && pts[i].x == XyMin(pts).x
    ensures exists i :: 0 <= i < |pts| && pts[i].x == XyMax(pts).x
    ensures exists i :: 0 <= i < |pts| && pts[i].y == XyMin(pts).y
    ensures exists i :: 0 <= i < |pts| && pts[i].y == XyMax(pts).y
  {
    var xs, ys := Xs(pts), Ys(pts);
    var a :| 0 <= a < |xs| && xs[a] == Min(xs);
    var b :| 0 <= b < |xs| && xs[b] == Max(xs);
    var c :| 0 <= c < |ys| && ys[c] == Min(ys);
    var d :| 0 <= d < |ys| && ys[d] == Max(ys);
    assert pts[a].x == XyMin(pts).x && pts[b].x == XyMax(pts).x;
    assert pts[c].y == XyMin(pts).y && pts[d].y == XyMax(pts).y;
  }

  // ---------------------------------------------------------------------------
  // Slicing the flat point list into rings (from_file)

  /** Python's `s[a:b]` for non-negative bounds: both ends are clamped to `|s|`. */
  function Slice<T>(s: seq<T>, a: nat, b: nat): (r: seq<T>)
    ensures a <= b <= |s| ==> r == s[a..b]
    ensures a >= b || a >= |s| ==> r == []
  {
    var hi := if b < |s| then b else |s|;
    if a < hi then s[a..hi] else []
  }

  /** `list(shape.parts) + [len(points)]`. */
  function PartBounds(parts: seq<nat>, n: nat): seq<nat>
  {
    parts + [n]
  }

  /** Ring `k` is `points[prt[k]:prt[k+1]]` over the part bounds with the sentinel appended. */
  function PartRings(points: seq<Point>, parts: seq<nat>): (rings: seq<Ring>)
    ensures |rings| == |parts|
  {
    var b := PartBounds(parts, |points|);
    seq(|parts|, k requires 0 <= k < |parts| => Slice(points, b[k], b[k + 1]))
  }

  /** Part starts as a shapefile stores them: non-decreasing offsets into the point list. */
  predicate WellFormedParts(parts: seq<nat>, n: nat)
  {
    (forall i, j :: 0 <= i <= j < |parts| ==> parts[i] <= parts[j]) &&
    (forall i :: 0 <= i < |parts| ==> parts[i] <= n)
  }

  /** The rings are consecutive and together cover `points[parts[0]:]`. */
  lemma {:induction false} PartRingsCover(points: seq<Point>, parts: seq<nat>)
    requires |parts| > 0 && WellFormedParts(parts, |points|)
    ensures Flatten(PartRings(points, parts)) == points[parts[0]..]
  {
    var rings := PartRings(points, parts);
    if |parts| == 1 {
      assert PartBounds(parts, |points|) == [parts[0], |points|];
      assert rings[0] == points[parts[0]..];
      assert Flatten(rings) == rings[0] + Flatten(rings[1..]);
    } else {
      var tail := parts[1..];
      assert WellFormedParts(tail, |points|);
      assert rings[1..] == PartRings(points, tail);
      PartRingsCover(points, tail);
      assert rings[0] == points[parts[0]..parts[1]];
      assert points[parts[0]..] == points[parts[0]..parts[1]] + points[parts[1]..];
    }
  }

  // ---------------------------------------------------------------------------
  // Polygons and their ring lists (polygon_to_coords, polygons_to_parts)

  /** A polygon: one exterior ring and its interior rings (holes), in order. */
  datatype Polygon = Polygon(exterior: Ring, interiors: seq<Ring>)

  /** An element of the chained list in `polygons_to_parts`: a polygon or one of its interior rings. */
  datatype RingGeom = PolygonGeom(polygon: Polygon) | LinearRingGeom(coords: Ring)

  /** `polygon_to_coords`: a polygon gives its exterior coordinates, a ring its own. */
  function PolygonToCoords(g: RingGeom): Ring
  {
    match g
    case PolygonGeom(p) => p.exterior
    case LinearRingGeom(r) => r
  }

  /** `[p] + list(p.interiors)` for one polygon. */
  function Members(p: Polygon): (r: seq<RingGeom>)
    ensures |r| == 1 + |p.interiors| && r[0] == PolygonGeom(p)
  {
    [PolygonGeom(p)] + InteriorGeoms(p.interiors)
  }

  /** The interior rings of a polygon, each as a ring geometry. */
  function InteriorGeoms(rs: seq<Ring>): (r: seq<RingGeom>)
    ensures |r| == |rs|
  {
    if rs == [] then [] else [LinearRingGeom(rs[0])] + InteriorGeoms(rs[1..])
  }

  /** `chain(*[[p] + list(p.interiors) for p in polys])`. */
  function Chained(ps: seq<Polygon>): seq<RingGeom>
  {
    if ps == [] then [] else Members(ps[0]) + Chained(ps[1..])
  }

  /** `[polygon_to_coords(c) for c in chained]`. */
  function CoordsOf(gs: seq<RingGeom>): (r: seq<Ring>)
    ensures |r| == |gs|
  {
    if gs == [] then [] else [PolygonToCoords(gs[0])] + CoordsOf(gs[1..])
  }

  /** `polygons_to_parts`: chain the members of every polygon and take their coordinates. */
  function PolygonsToParts(ps: seq<Polygon>): seq<Ring>
  {
    CoordsOf(Chained(ps))
  }

  /** The rings of one polygon in output order: the exterior, then its interiors. */
  function PolygonRings(p: Polygon): seq<Ring>
  {
    [p.exterior] + p.interiors
  }

  lemma {:induction false} CoordsOfAppend(a: seq<RingGeom>, b: seq<RingGeom>)
    ensures CoordsOf(a + b) == CoordsOf(a) + CoordsOf(b)
  {
    if a == [] {
      assert a + b == b;
    } else {
      assert (a + b)[0] == a[0] && (a + b)[1..] == a[1..] + b;
      CoordsOfAppend(a[1..], b);
    }
  }

  lemma {:induction false} InteriorCoords(rs: seq<Ring>)
    ensures CoordsOf(InteriorGeoms(rs)) == rs
  {
    if rs != [] {
      InteriorCoords(rs[1..]);
    }
  }

  /** A polygon contributes its exterior, then each of its interiors in order. */
  lemma MembersCoords(p: Polygon)
    ensures CoordsOf(Members(p)) == PolygonRings(p)
  {
    CoordsOfAppend([PolygonGeom(p)], InteriorGeoms(p.interiors));
    InteriorCoords(p.interiors);
  }

  /** Output is polygon by polygon, each exterior immediately followed by its own interiors. */
  lemma {:induction false} PolygonsToPartsOrder(ps: seq<Polygon>)
    ensures PolygonsToParts(ps) == Flatten(AllPolygonRings(ps))
  {
    if ps != [] {
      PolygonsToPartsOrder(ps[1..]);
      MembersCoords(ps[0]);
      CoordsOfAppend(Members(ps[0]), Chained(ps[1..]));
      assert AllPolygonRings(ps)[1..] == AllPolygonRings(ps[1..]);
    }
  }

  // ---------------------------------------------------------------------------
  // Grouping rings into polygons by the sign of their area (ESRI convention)

  datatype GroupError = NoOpenGroup

  /** One step of the grouping: a positive ring opens a group, any other joins the last one. */
  function GroupStep(groups: seq<seq<Ring>>, ring: Ring, area: real): Result<seq<seq<Ring>>, GroupError>
  {
    if area > 0.0 then Success(groups + [[ring]])
    else if groups == [] then Failure(NoOpenGroup)
    else Success(groups[..|groups| - 1] + [groups[|groups| - 1] + [ring]])
  }

  /** Group `rings` left to right; `areaOf` is the signed (spherical) ring area. */
  function GroupRings(rings: seq<Ring>, areaOf: Ring -> real): Result<seq<seq<Ring>>, GroupError>
  {
    if rings == [] then Success([])
    else
      var last := rings[|rings| - 1];
      match GroupRings(rings[..|rings| - 1], areaOf)
      case Failure(e) => Failure(e)
      case Success(gs) => GroupStep(gs, last, areaOf(last))
  }

  /** Every group opens with a positive ring and continues with non-positive ones. */
  ghost predicate WellGrouped(groups: seq<seq<Ring>>, areaOf: Ring -> real)
  {
    forall i :: 0 <= i < |groups| ==>
      |groups[i]| > 0 && areaOf(groups[i][0]) > 0.0 &&
      forall j :: 1 <= j < |groups[i]| ==> areaOf(groups[i][j]) <= 0.0
  }

  lemma GroupStepKeeps(gs: seq<seq<Ring>>, ring: Ring, areaOf: Ring -> real)
    requires WellGrouped(gs, areaOf)
    requires GroupStep(gs, ring, areaOf(ring)).Success?
    ensures var gs' := GroupStep(gs, ring, areaOf(ring)).value;
      WellGrouped(gs', areaOf) && Flatten(gs') == Flatten(gs) + [ring] && |gs'| > 0
  {
    GroupStepWell(gs, ring, areaOf);
    GroupStepFlatten(gs, ring, areaOf(ring));
  }

  lemma GroupStepWell(gs: seq<seq<Ring>>, ring: Ring, areaOf: Ring -> real)
    requires WellGrouped(gs, areaOf)
    requires GroupStep(gs, ring, areaOf(ring)).Success?
    ensures WellGrouped(GroupStep(gs, ring, areaOf(ring)).value, areaOf)
  {
    var gs' := GroupStep(gs, ring, areaOf(ring)).value;
    if areaOf(ring) <= 0.0 {
      var g := gs[|gs| - 1];
      assert gs'[|gs'| - 1] == g + [ring];
      assert forall i :: 0 <= i < |gs| - 1 ==> gs'[i] == gs[i];
    }
  }

  lemma GroupStepFlatten(gs: seq<seq<Ring>>, ring: Ring, area: real)
    requires GroupStep(gs, ring, area).Success?
    ensures Flatten(GroupStep(gs, ring, area).value) == Flatten(gs) + [ring]
    ensures |GroupStep(gs, ring, area).value| > 0
  {
    if area > 0.0 {
      FlattenAppend(gs, [[ring]]);
      assert Flatten([[ring]]) == [ring] + Flatten([]);
    } else {
      var front, g := gs[..|gs| - 1], gs[|gs| - 1];
      assert gs == front + [g];
      FlattenAppend(front, [g]);
      FlattenAppend(front, [g + [ring]]);
      assert Flatten([g]) == g + Flatten([]);
      assert Flatten([g + [ring]]) == g + [ring] + Flatten([]);
    }
  }

  /** Grouping fails exactly when the first ring is not positive. */
  lemma {:induction false} GroupRingsFails(rings: seq<Ring>, areaOf: Ring -> real)
    ensures GroupRings(rings, areaOf).Failure? <==> |rings| > 0 && areaOf(rings[0]) <= 0.0
    ensures GroupRings(rings, areaOf).Success? && |rings| > 0 ==> |GroupRings(rings, areaOf).value| > 0
  {
    if rings != [] {
      var init := rings[..|rings| - 1];
      GroupRingsFails(init, areaOf);
      if init != [] {
        assert init[0] == rings[0];
      }
    }
  }

  /** A successful grouping is well formed and concatenates back to the ring list. */
  lemma {:induction false} GroupRingsSound(rings: seq<Ring>, areaOf: Ring -> real)
    requires GroupRings(rings, areaOf).Success?
    ensures Flatten(GroupRings(rings, areaOf).value) == rings
    ensures WellGrouped(GroupRings(rings, areaOf).value, areaOf)
  {
    if rings != [] {
      var init := rings[..|rings| - 1];
      var last := rings[|rings| - 1];
      GroupRingsSound(init, areaOf);
      GroupStepKeeps(GroupRings(init, areaOf).value, last, areaOf);
      assert rings == init + [last];
    }
  }

  /** Appending a group of one positive ring and its non-positive followers adds that group. */
  lemma {:induction false} GroupRingsAppendGroup(rings: seq<Ring>, g: seq<Ring>, gs: seq<seq<Ring>>, areaOf: Ring -> real)
    requires GroupRings(rings, areaOf) == Success(gs)
    requires |g| > 0 && areaOf(g[0]) > 0.0 && forall j :: 1 <= j < |g| ==> areaOf(g[j]) <= 0.0
    ensures GroupRings(rings + g, areaOf) == Success(gs + [g])
    decreases |g|
  {
    var all := rings + g;
    if |g| == 1 {
      assert all[..|all| - 1] == rings;
      assert g == [g[0]];
    } else {
      var g' := g[..|g| - 1];
      assert all[..|all| - 1] == rings + g';
      GroupRingsAppendGroup(rings, g', gs, areaOf);
      assert (gs + [g'])[..|gs|] == gs;
      assert g' + [g[|g| - 1]] == g;
    }
  }

  function AllPolygonRings(ps: seq<Polygon>): seq<seq<Ring>>
  {
    seq(|ps|, i requires 0 <= i < |ps| => PolygonRings(ps[i]))
  }

  /**
   * Round trip: grouping the ring list that `polygons_to_parts` emits gives
   * back the polygons' rings, provided exteriors are positive and holes are not.
   */
  lemma {:induction false} GroupPolygonsToParts(ps: seq<Polygon>, areaOf: Ring -> real)
    requires forall i :: 0 <= i < |ps| ==> areaOf(ps[i].exterior) > 0.0
    requires forall i, j :: 0 <= i < |ps| && 0 <= j < |ps[i].interiors| ==> areaOf(ps[i].interiors[j]) <= 0.0
    ensures GroupRings(PolygonsToParts(ps), areaOf) == Success(AllPolygonRings(ps))
  {
    PolygonsToPartsOrder(ps);
    if ps != [] {
      var init := ps[..|ps| - 1];
      var p := ps[|ps| - 1];
      assert init + [p] == ps;
      GroupPolygonsToParts(init, areaOf);
      PolygonsToPartsOrder(init);
      GroupPolygonsStep(init, p, areaOf);
    }
  }

  lemma GroupPolygonsStep(init: seq<Polygon>, p: Polygon, areaOf: Ring -> real)
    requires GroupRings(Flatten(AllPolygonRings(init)), areaOf) == Success(AllPolygonRings(init))
    requires areaOf(p.exterior) > 0.0
    requires forall j :: 0 <= j < |p.interiors| ==> areaOf(p.interiors[j]) <= 0.0
    ensures GroupRings(Flatten(AllPolygonRings(init + [p])), areaOf) == Success(AllPolygonRings(init + [p]))
  {
    var rsInit := AllPolygonRings(init);
    var g := PolygonRings(p);
    assert AllPolygonRings(init + [p]) == rsInit + [g];
    FlattenAppend(rsInit, [g]);
    assert Flatten([g]) == g + Flatten([]);
    assert forall j :: 1 <= j < |g| ==> g[j] == p.interiors[j - 1];
    assert g[0] == p.exterior;
    GroupRingsAppendGroup(Flatten(rsInit), g, rsInit, areaOf);
    assert Flatten(AllPolygonRings(init + [p])) == Flatten(rsInit) + g;
  }
}

=== FILE: numeric.dfy ===
/**
 * Numbers as the source's numpy code sees them. Double-precision values are
 * modelled by exact reals; `NonFinite` stands for NaN and the infinities, which
 * arise in the source only from a division by zero or from the mean of an
 * empty array.
 */
module Numeric {

  datatype Float = Finite(v: real) | NonFinite

  /** IEEE addition: a non-finite operand makes a non-finite sum. */
  function Add(a: Float, b: Float): (r: Float)
    ensures r.Finite? <==> a.Finite? && b.Finite?
  {
    if a.Finite? && b.Finite? then Finite(a.v + b.v) else NonFinite
  }

  /** IEEE multiplication by a finite factor (`inf * 0` is NaN, `inf * x` is infinite). */
  function Mul(a: Float, b: real): (r: Float)
    ensures r.Finite? <==> a.Finite?
  {
    if a.Finite? then Finite(a.v * b) else NonFinite
  }

  /** IEEE division by a finite divisor: dividing by zero gives NaN or an infinity. */
  function Div(a: Float, b: real): (r: Float)
    ensures r.Finite? <==> a.Finite? && b != 0.0
    ensures r.Finite? ==> r.v * b == a.v
  {
    if a.Finite? && b != 0.0 then Finite(a.v / b) else NonFinite
  }

  /** `np.sum`, accumulated left to right. */
  function Sum(s: seq<real>): real
  {
    if s == [] then 0.0 else Sum(s[..|s| - 1]) + s[|s| - 1]
  }

  lemma {:induction false} SumAppend(s: seq<real>, x: real)
    ensures Sum(s + [x]) == Sum(s) + x
  {
    assert (s + [x])[..|s + [x]| - 1] == s;
  }

  lemma {:induction false} SumPositive(s: seq<real>)
    requires forall i :: 0 <= i < |s| ==> s[i] > 0.0
    ensures Sum(s) >= 0.0
    ensures |s| > 0 ==> Sum(s) >= s[|s| - 1] && Sum(s) > 0.0
  {
    if s != [] {
      SumPositive(s[..|s| - 1]);
    }
  }

  /** `np.mean`: the mean of an empty array is NaN. */
  function Mean(s: seq<real>): (r: Float)
    ensures r.Finite? <==> |s| > 0
  {
    if |s| == 0 then NonFinite else Finite(Sum(s) / |s| as real)
  }

  /** The mean times the count gives back the sum. */
  lemma MeanTimesCount(s: seq<real>)
    requires |s| > 0
    ensures Mean(s).v * (|s| as real) == Sum(s)
  {
  }

  lemma QuotientNonNegative(a: real, b: real)
    requires a >= 0.0 && b > 0.0
    ensures a / b >= 0.0
  {
  }

  /** A non-negative number is at most any positive whole multiple of itself. */
  lemma {:induction false} NotAboveMultiple(x: real, n: nat)
    requires x >= 0.0 && n >= 1
    ensures x <= x * (n as real)
  {
    if n > 1 {
      NotAboveMultiple(x, n - 1);
      assert x * (n as real) == x * ((n - 1) as real) + x;
    }
  }

  /** The mean of values with a non-negative sum lies between 0 and that sum. */
  lemma MeanWithinSum(s: seq<real>)
    requires |s| > 0 && Sum(s) >= 0.0
    ensures 0.0 <= Mean(s).v <= Sum(s)
  {
    MeanTimesCount(s);
    QuotientNonNegative(Sum(s), |s| as real);
    NotAboveMultiple(Mean(s).v, |s|);
  }

  lemma {:induction false} SumBounds(s: seq<real>, lo: real, hi: real)
    requires forall i :: 0 <= i < |s| ==> lo <= s[i] <= hi
    ensures (|s| as real) * lo <= Sum(s) <= (|s| as real) * hi
  {
    if s != [] {
      SumBounds(s[..|s| - 1], lo, hi);
    }
  }

  /** The mean of values within `lo`..`hi` lies within `lo`..`hi`. */
  lemma MeanBounds(s: seq<real>, lo: real, hi: real)
    requires |s| > 0 && forall i :: 0 <= i < |s| ==> lo <= s[i] <= hi
    ensures lo <= Mean(s).v <= hi
  {
    SumBounds(s, lo, hi);
    MeanTimesCount(s);
    var n := |s| as real;
    var m := Mean(s).v;
    assert m * n >= lo * n;
    assert m * n <= hi * n;
  }

  /** `np.round` to an integer: to nearest, ties to even. */
  function RoundHalfEven(x: real): (n: int)
    ensures -0.5 <= n as real - x <= 0.5
    ensures (n as real - x == 0.5 || x - n as real == 0.5) ==> n % 2 == 0
  {
    var f := x.Floor;
    var frac := x - f as real;
    if frac < 0.5 then f
    else if frac > 0.5 then f + 1
    else if f % 2 == 0 then f
    else f + 1
  }

  /** `round(x, 2)` in exact arithmetic: to the nearest hundredth, ties to even. */
  function Round2(x: real): (r: real)
    ensures -0.005 <= r - x <= 0.005
  {
    RoundHalfEven(x * 100.0) as real / 100.0
  }

  /** Python's `int()` on a float: truncation toward zero. */
  function Trunc(x: real): (n: int)
    ensures x >= 0.0 ==> 0 <= n && n as real <= x < n as real + 1.0
    ensures x < 0.0 ==> n <= 0 && n as real - 1.0 < x <= n as real
  {
    if x >= 0.0 then x.Floor else -((-x).Floor)
  }

  /** `int(np.ceil(np.sqrt(n)))` for a natural number `n`: the least `r` with `r * r >= n`. */
  function CeilSqrt(n: nat): (r: nat)
    ensures r * r >= n
    ensures r == 0 || (r - 1) * (r - 1) < n
  {
    CeilSqrtFrom(n, 0)
  }

  function CeilSqrtFrom(n: nat, k: nat): (r: nat)
    requires k == 0 || (k - 1) * (k - 1) < n
    ensures r * r >= n
    ensures r == 0 || (r - 1) * (r - 1) < n
    decreases n - k
  {
    if k * k >= n then k
    else
      assert k <= k * k;
      CeilSqrtFrom(n, k + 1)
  }
}

=== FILE: raster.dfy ===
/**
 * `rastertools/raster.py`: sample a raster's positive cells at their pixel
 * centres, clip the samples to each shape's bounding box, decide which lie
 * inside the shape by folding over its rings in file order, and summarise the
 * interior values per shape name.
 */
module Raster {
  import opened Wrappers
  import opened Seqs
  import opened Numeric
  import opened Geometry
  import opened Shape

  /** Raster origin (tie point) and pixel size; `dy` is the negated second pixel scale. */
  datatype Affine = Affine(x0: real, y0: real, dx: real, dy: real)

  datatype RasterError =
    | MissingTag                    // a tag shorter than the indices the source reads
    | TieXRange | TieYRange | DxRange | DyRange
    | LoadFailed(reason: LoadError)  // `from_file` raised on a record
    | InvalidShape(cause: ShapeError)

  /** `x0, y0 = point[3], point[4]` and `dx, dy = scale[0], -scale[1]`. */
  function AffineFromTags(tiepoint: seq<real>, scale: seq<real>): (r: Result<Affine, RasterError>)
    ensures r.Success? <==> |tiepoint| >= 5 && |scale| >= 2
    ensures r.Success? ==> r.value.dy == -scale[1] && r.value.dx == scale[0]
  {
    if |tiepoint| < 5 || |scale| < 2 then Failure(MissingTag)
    else Success(Affine(tiepoint[3], tiepoint[4], scale[0], -scale[1]))
  }

  /** The four range assertions, checked in source order; `None` when all hold. */
  function CheckAffine(a: Affine): (r: Option<RasterError>)
    ensures r.None? <==> -180.0 < a.x0 < 180.0 && -85.0 < a.y0 < 85.0 && 0.0 < a.dx < 1.0 && -1.0 < a.dy < 0.0
    ensures r == Some(DyRange) ==> -180.0 < a.x0 < 180.0 && -85.0 < a.y0 < 85.0 && 0.0 < a.dx < 1.0
  {
    if !(-180.0 < a.x0 < 180.0) then Some(TieXRange)
    else if !(-85.0 < a.y0 < 85.0) then Some(TieYRange)
    else if !(0.0 < a.dx < 1.0) then Some(DxRange)
    else if !(-1.0 < a.dy < 0.0) then Some(DyRange)
    else None
  }

  // ---------------------------------------------------------------------------
  // Sparse grid of positive cells

  /** A raster cell: its row, its column and its value. */
  datatype Cell = Cell(row: nat, col: nat, v: real)

  /** A sample: the longitude and latitude of a pixel centre, and the cell value. */
  datatype Sample = Sample(x: real, y: real, v: real)

  /** `(x0 + dx*col + dx/2, y0 + dy*row + dy/2, value)`. */
  function SampleAt(a: Affine, c: Cell): Sample
  {
    Sample(a.x0 + a.dx * c.col as real + a.dx / 2.0, a.y0 + a.dy * c.row as real + a.dy / 2.0, c.v)
  }

  /** The positive cells among the first `c` columns of row `r`, left to right. */
  function RowCells(m: seq<seq<real>>, r: nat, c: nat): seq<Cell>
    requires r < |m| && c <= |m[r]|
  {
    if c == 0 then []
    else RowCells(m, r, c - 1) + (if m[r][c - 1] > 0.0 then [Cell(r, c - 1, m[r][c - 1])] else [])
  }

  /** The positive cells of the first `r` rows, in row-major order (`np.argwhere(dat_mat > 0)`). */
  function CellsUpTo(m: seq<seq<real>>, r: nat): seq<Cell>
    requires r <= |m|
  {
    if r == 0 then [] else CellsUpTo(m, r - 1) + RowCells(m, r - 1, |m[r - 1]|)
  }

  function PositiveCells(m: seq<seq<real>>): seq<Cell>
  {
    CellsUpTo(m, |m|)
  }

  function SamplesOf(a: Affine, cells: seq<Cell>): (r: seq<Sample>)
    ensures |r| == |cells| && forall i :: 0 <= i < |cells| ==> r[i] == SampleAt(a, cells[i])
  {
    seq(|cells|, i requires 0 <= i < |cells| => SampleAt(a, cells[i]))
  }

  /** The sparse grid: one sample per positive cell. */
  function Samples(a: Affine, m: seq<seq<real>>): seq<Sample>
  {
    SamplesOf(a, PositiveCells(m))
  }

  predicate IsPositiveCell(m: seq<seq<real>>, c: Cell)
  {
    c.row < |m| && c.col < |m[c.row]| && c.v == m[c.row][c.col] && c.v > 0.0
  }

  predicate Before(c: Cell, d: Cell)
  {
    c.row < d.row || (c.row == d.row && c.col < d.col)
  }

  predicate RowMajor(cells: seq<Cell>)
  {
    forall i, j :: 0 <= i < j < |cells| ==> Before(cells[i], cells[j])
  }

  lemma {:induction false} RowCellsExact(m: seq<seq<real>>, r: nat, c: nat)
    requires r < |m| && c <= |m[r]|
    ensures forall cell :: cell in RowCells(m, r, c) <==> cell.row == r && cell.col < c && IsPositiveCell(m, cell)
    ensures RowMajor(RowCells(m, r, c))
  {
    if c > 0 {
      RowCellsExact(m, r, c - 1);
    }
  }

  /** The sparse grid holds exactly the positive cells, each once, in row-major order. */
  lemma {:induction false} CellsUpToExact(m: seq<seq<real>>, r: nat)
    requires r <= |m|
    ensures forall cell :: cell in CellsUpTo(m, r) <==> cell.row < r && IsPositiveCell(m, cell)
    ensures RowMajor(CellsUpTo(m, r))
  {
    if r > 0 {
      CellsUpToExact(m, r - 1);
      RowCellsExact(m, r - 1, |m[r - 1]|);
      var front, row := CellsUpTo(m, r - 1), RowCells(m, r - 1, |m[r - 1]|);
      forall i, j | 0 <= i < j < |front + row|
        ensures Before((front + row)[i], (front + row)[j])
      {
        if j >= |front| && i < |front| {
          assert front[i] in front;
          assert row[j - |front|] in row;
        }
      }
    }
  }

  lemma PositiveCellsExact(m: seq<seq<real>>)
    ensures forall cell :: cell in PositiveCells(m) <==> IsPositiveCell(m, cell)
    ensures RowMajor(PositiveCells(m))
  {
    CellsUpToExact(m, |m|);
  }

  /** The loop over rows and columns that fills the sparse grid. */
  method SparseGrid(a: Affine, m: seq<seq<real>>) returns (samples: seq<Sample>)
    ensures samples == Samples(a, m)
  {
    samples := [];
    for r := 0 to |m|
      invariant samples == SamplesOf(a, CellsUpTo(m, r))
    {
      for c := 0 to |m[r]|
        invariant samples == SamplesOf(a, CellsUpTo(m, r) + RowCells(m, r, c))
      {
        var cells := CellsUpTo(m, r) + RowCells(m, r, c);
        if m[r][c] > 0.0 {
          var cell := Cell(r, c, m[r][c]);
          assert cells + [cell] == CellsUpTo(m, r) + RowCells(m, r, c + 1);
          assert SamplesOf(a, cells + [cell]) == samples + [SampleAt(a, cell)];
          samples := samples + [SampleAt(a, cell)];
        } else {
          assert cells == CellsUpTo(m, r) + RowCells(m, r, c + 1);
        }
      }
      assert CellsUpTo(m, r + 1) == CellsUpTo(m, r) + RowCells(m, r, |m[r]|);
    }
  }

  // ---------------------------------------------------------------------------
  // Bounding-box clip and sequential containment

  /** Strictly inside the box `lo`..`hi` on both axes. */
  predicate InBox(s: Sample, lo: Point, hi: Point)
  {
    s.x > lo.x && s.y > lo.y && s.x < hi.x && s.y < hi.y
  }

  /** `sparce_data[clip_bool1 & clip_bool2]`: the samples strictly inside the box, in order. */
  function BoxClip(samples: seq<Sample>, lo: Point, hi: Point): seq<Sample>
  {
    Filter(samples, s => InBox(s, lo, hi))
  }

  lemma BoxClipExact(samples: seq<Sample>, lo: Point, hi: Point)
    ensures forall s :: s in BoxClip(samples, lo, hi) <==> s in samples && InBox(s, lo, hi)
  {
    forall s | s in samples && InBox(s, lo, hi) ensures s in BoxClip(samples, lo, hi) {
      FilterComplete(samples, s => InBox(s, lo, hi), s);
    }
  }

  /** Every clipped sample lies strictly between the smallest and the largest coordinates of the shape's points. */
  lemma ClipWithinShapeExtent(samples: seq<Sample>, points: seq<Point>)
    requires |points| > 0
    ensures forall s :: s in BoxClip(samples, XyMin(points), XyMax(points)) ==>
      (exists i :: 0 <= i < |points| && points[i].x < s.x) && (exists i :: 0 <= i < |points| && s.x < points[i].x) &&
      (exists i :: 0 <= i < |points| && points[i].y < s.y) && (exists i :: 0 <= i < |points| && s.y < points[i].y)
  {
    BoundingBoxTight(points);
  }

  function PointOf(s: Sample): Point
  {
    Point(s.x, s.y)
  }

  /**
   * The interior flag of `p` after the first `n` rings: a ring with positive
   * area ORs in its containment, any other ring ANDs with its negation.
   */
  function SequentialFold(paths: seq<Ring>, areas: seq<real>, p: Point, contains: (Ring, Point) -> bool, n: nat): bool
    requires n <= |paths| && n <= |areas|
  {
    if n == 0 then false
    else
      var prev := SequentialFold(paths, areas, p, contains, n - 1);
      if areas[n - 1] > 0.0 then prev || contains(paths[n - 1], p)
      else prev && !contains(paths[n - 1], p)
  }

  /** The fold over `zip(paths, areas)`, which stops at the shorter list. */
  function SequentialInside(paths: seq<Ring>, areas: seq<real>, p: Point, contains: (Ring, Point) -> bool): bool
  {
    SequentialFold(paths, areas, p, contains, if |paths| < |areas| then |paths| else |areas|)
  }

  /** The ring loop of `raster_clip`, rebinding the whole flag vector once per ring. */
  method SequentialFlags(paths: seq<Ring>, areas: seq<real>, pts: seq<Point>, contains: (Ring, Point) -> bool)
    returns (flags: seq<bool>)
    ensures |flags| == |pts|
    ensures forall i :: 0 <= i < |pts| ==> flags[i] == SequentialInside(paths, areas, pts[i], contains)
  {
    var n := if |paths| < |areas| then |paths| else |areas|;
    flags := seq(|pts|, _ => false);
    for k := 0 to n
      invariant |flags| == |pts|
      invariant forall i :: 0 <= i < |pts| ==> flags[i] == SequentialFold(paths, areas, pts[i], contains, k)
    {
      var hit := seq(|pts|, i requires 0 <= i < |pts| => contains(paths[k], pts[i]));
      if areas[k] > 0.0 {
        flags := seq(|pts|, i requires 0 <= i < |pts| => flags[i] || hit[i]);
      } else {
        flags := seq(|pts|, i requires 0 <= i < |pts| => flags[i] && !hit[i]);
      }
    }
  }

  // ---------------------------------------------------------------------------
  // Per-shape result

  /** What each shape maps to: a bare summary, or `{"lat", "lon", "pop"}`. */
  datatype Entry = Total(value: Float) | Located(lat: Float, lon: Float, pop: Float)

  /** The caller's choices: the summary function, `include_latlon`, and the ring containment test. */
  datatype ClipConfig = ClipConfig(summary: seq<real> -> Float, includeLatLon: bool, contains: (Ring, Point) -> bool)

  /** `default_summary_func`: the sum of the values, rounded to an integer. */
  function DefaultSummary(v: seq<real>): (r: Float)
    ensures r.Finite? && r.v == RoundHalfEven(Sum(v)) as real
    ensures -0.5 <= r.v - Sum(v) <= 0.5
    ensures v == [] ==> r == Finite(0.0)
  {
    Finite(RoundHalfEven(Sum(v)) as real)
  }

  function Lons(ss: seq<Sample>): (r: seq<real>)
    ensures |r| == |ss|
  {
    seq(|ss|, i requires 0 <= i < |ss| => ss[i].x)
  }

  function Lats(ss: seq<Sample>): (r: seq<real>)
    ensures |r| == |ss|
  {
    seq(|ss|, i requires 0 <= i < |ss| => ss[i].y)
  }

  function Values(ss: seq<Sample>): (r: seq<real>)
    ensures |r| == |ss|
  {
    seq(|ss|, i requires 0 <= i < |ss| => ss[i].v)
  }

  /** The interior flag of every clipped sample. */
  function InsideFlags(s: ShapeData, clip: seq<Sample>, contains: (Ring, Point) -> bool): (r: seq<bool>)
    ensures |r| == |clip|
  {
    seq(|clip|, i requires 0 <= i < |clip| => SequentialInside(s.paths, s.areas, PointOf(clip[i]), contains))
  }

  /** The entry for a validated shape with at least one point. */
  function ShapeEntry(s: ShapeData, grid: seq<Sample>, cfg: ClipConfig): Entry
    requires |s.points| > 0
  {
    var clip := BoxClip(grid, XyMin(s.points), XyMax(s.points));
    if |clip| == 0 then
      if cfg.includeLatLon then Located(NonFinite, NonFinite, Finite(0.0)) else Total(Finite(0.0))
    else
      var inside := Mask(clip, InsideFlags(s, clip, cfg.contains));
      if cfg.includeLatLon then Located(Mean(Lats(inside)), Mean(Lons(inside)), cfg.summary(Values(inside)))
      else Total(cfg.summary(Values(inside)))
  }

  /** The body of the shape loop for one `ShapeView`. */
  method ClipShape(shp: ShapeView, grid: seq<Sample>, cfg: ClipConfig) returns (e: Entry)
    requires |shp.points| > 0
    ensures e == ShapeEntry(shp.Data(), grid, cfg)
  {
    var clip := BoxClip(grid, XyMin(shp.points), XyMax(shp.points));
    if |clip| == 0 {
      if cfg.includeLatLon {
        e := Located(NonFinite, NonFinite, Finite(0.0));
      } else {
        e := Total(Finite(0.0));
      }
      return;
    }
    var pts := seq(|clip|, i requires 0 <= i < |clip| => PointOf(clip[i]));
    var flags := SequentialFlags(shp.paths, shp.areas, pts, cfg.contains);
    assert flags == InsideFlags(shp.Data(), clip, cfg.contains);
    var inside := Mask(clip, flags);
    var value := Values(inside);
    if cfg.includeLatLon {
      e := Located(Mean(Lats(inside)), Mean(Lons(inside)), cfg.summary(value));
    } else {
      e := Total(cfg.summary(value));
    }
  }

  // ---------------------------------------------------------------------------
  // The result map

  /** An entry function defined on every shape that has a point (`validate` guarantees one). */
  ghost predicate Covers(entryOf: ShapeData --> Entry)
  {
    forall s: ShapeData :: |s.points| > 0 ==> entryOf.requires(s)
  }

  /** `ShapeEntry` for a fixed grid and configuration, as a function value. */
  function EntryFn(grid: seq<Sample>, cfg: ClipConfig): (f: ShapeData --> Entry)
    ensures Covers(f)
    ensures forall s: ShapeData :: |s.points| > 0 ==> f(s) == ShapeEntry(s, grid, cfg)
  {
    (s: ShapeData) requires |s.points| > 0 => ShapeEntry(s, grid, cfg)
  }

  /** What one pass of the shape loop yields: the `validate` error, or the shape's name and entry. */
  function ShapeOutcome(s: ShapeData, entryOf: ShapeData --> Entry): (r: Result<(string, Entry), ShapeError>)
    requires Covers(entryOf)
    ensures r.Success? <==> Validate(s).Success?
    ensures r.Failure? ==> r.error == Validate(s).error
    ensures r.Success? ==> s.name == Some(r.value.0) && |s.points| > 0 && r.value.1 == entryOf(s)
  {
    match Validate(s)
    case Failure(e) => Failure(e)
    case Success(_) => Success((s.name.value, entryOf(s)))
  }

  /** The first `n` outcomes inserted into the result map in order; the first failure ends the call. */
  function Collect(outs: seq<Result<(string, Entry), ShapeError>>, n: nat): Result<map<string, Entry>, RasterError>
    requires n <= |outs|
  {
    if n == 0 then Success(map[])
    else
      match Collect(outs, n - 1)
      case Failure(e) => Failure(e)
      case Success(d) =>
        match outs[n - 1]
        case Failure(e) => Failure(InvalidShape(e))
        case Success(entry) => Success(d[entry.0 := entry.1])
  }

  function Outcomes(shapes: seq<ShapeData>, entryOf: ShapeData --> Entry): (r: seq<Result<(string, Entry), ShapeError>>)
    requires Covers(entryOf)
    ensures |r| == |shapes| && forall k :: 0 <= k < |shapes| ==> r[k] == ShapeOutcome(shapes[k], entryOf)
  {
    seq(|shapes|, k requires 0 <= k < |shapes| => ShapeOutcome(shapes[k], entryOf))
  }

  /** The loop over shapes: validate each, then record its entry under its name. */
  function ClipShapes(shapes: seq<ShapeData>, entryOf: ShapeData --> Entry): Result<map<string, Entry>, RasterError>
    requires Covers(entryOf)
  {
    Collect(Outcomes(shapes, entryOf), |shapes|)
  }

  /**
   * `raster_clip`: the tag and range checks, the sparse grid, loading every
   * record, then the shape loop.
   */
  function RasterClipSpec(tiepoint: seq<real>, scale: seq<real>, m: seq<seq<real>>,
                          raws: seq<RawShape>, areaOf: Ring -> real, cfg: ClipConfig): Result<map<string, Entry>, RasterError>
  {
    match AffineFromTags(tiepoint, scale)
    case Failure(e) => Failure(e)
    case Success(a) =>
      match CheckAffine(a)
      case Some(e) => Failure(e)
      case None =>
        match LoadAll(raws, areaOf)
        case Failure(e) => Failure(LoadFailed(e))
        case Success(shapes) => ClipShapes(shapes, EntryFn(Samples(a, m), cfg))
  }

  lemma {:induction false} CollectFailurePersists(outs: seq<Result<(string, Entry), ShapeError>>, k: nat, n: nat)
    requires k <= n <= |outs| && Collect(outs, k).Failure?
    ensures Collect(outs, n) == Collect(outs, k)
    decreases n
  {
    if k < n {
      CollectFailurePersists(outs, k, n - 1);
    }
  }

  /** One more successful outcome inserts its entry; a failed one ends the call with its error. */
  lemma CollectStep(outs: seq<Result<(string, Entry), ShapeError>>, n: nat, d: map<string, Entry>)
    requires n < |outs| && Collect(outs, n) == Success(d)
    ensures outs[n].Success? ==> Collect(outs, n + 1) == Success(d[outs[n].value.0 := outs[n].value.1])
    ensures outs[n].Failure? ==> Collect(outs, |outs|) == Failure(InvalidShape(outs[n].error))
  {
    if outs[n].Failure? {
      CollectFailurePersists(outs, n + 1, |outs|);
    }
  }

  lemma {:induction false} CollectSucceeds(outs: seq<Result<(string, Entry), ShapeError>>, n: nat)
    requires n <= |outs|
    ensures Collect(outs, n).Success? <==> forall k :: 0 <= k < n ==> outs[k].Success?
  {
    if n > 0 {
      CollectSucceeds(outs, n - 1);
    }
  }

  function CollectedNames(outs: seq<Result<(string, Entry), ShapeError>>, n: nat): set<string>
    requires n <= |outs|
  {
    set k | 0 <= k < n && outs[k].Success? :: outs[k].value.0
  }

  lemma {:induction false} CollectKeys(outs: seq<Result<(string, Entry), ShapeError>>, n: nat)
    requires n <= |outs| && Collect(outs, n).Success?
    ensures Collect(outs, n).value.Keys == CollectedNames(outs, n)
  {
    if n > 0 {
      CollectKeys(outs, n - 1);
      var entry := outs[n - 1].value;
      assert CollectedNames(outs, n) == CollectedNames(outs, n - 1) + {entry.0} by {
        forall x | x in CollectedNames(outs, n) ensures x in CollectedNames(outs, n - 1) + {entry.0} {
          var k :| 0 <= k < n && outs[k].Success? && outs[k].value.0 == x;
        }
      }
    }
  }

  lemma {:induction false} CollectLast(outs: seq<Result<(string, Entry), ShapeError>>, n: nat, k: nat)
    requires n <= |outs| && Collect(outs, n).Success?
    requires k < n && outs[k].Success?
    requires forall j :: k < j < n && outs[j].Success? ==> outs[j].value.0 != outs[k].value.0
    ensures outs[k].value.0 in Collect(outs, n).value
    ensures Collect(outs, n).value[outs[k].value.0] == outs[k].value.1
  {
    if k < n - 1 {
      CollectLast(outs, n - 1, k);
    }
  }

  /** The names of the shapes that have one. */
  function NameSet(shapes: seq<ShapeData>): set<string>
  {
    set k | 0 <= k < |shapes| && shapes[k].name.Some? :: shapes[k].name.value
  }

  /** The call succeeds iff every shape validates. */
  lemma ClipShapesSucceeds(shapes: seq<ShapeData>, entryOf: ShapeData --> Entry)
    requires Covers(entryOf)
    ensures ClipShapes(shapes, entryOf).Success? <==> forall k :: 0 <= k < |shapes| ==> Validate(shapes[k]).Success?
  {
    CollectSucceeds(Outcomes(shapes, entryOf), |shapes|);
  }

  /** On success the keys are exactly the shapes' names. */
  lemma ClipShapesKeys(shapes: seq<ShapeData>, entryOf: ShapeData --> Entry)
    requires Covers(entryOf) && ClipShapes(shapes, entryOf).Success?
    ensures ClipShapes(shapes, entryOf).value.Keys == NameSet(shapes)
  {
    var outs := Outcomes(shapes, entryOf);
    CollectKeys(outs, |shapes|);
    CollectSucceeds(outs, |shapes|);
    forall x | x in NameSet(shapes) ensures x in CollectedNames(outs, |shapes|) {
      var k :| 0 <= k < |shapes| && shapes[k].name.Some? && shapes[k].name.value == x;
      assert outs[k].Success?;
    }
  }

  /** The first shape that fails `validate` decides the error of the whole call. */
  lemma ClipShapesFirstFailure(shapes: seq<ShapeData>, entryOf: ShapeData --> Entry, k: nat)
    requires Covers(entryOf)
    requires k < |shapes| && Validate(shapes[k]).Failure?
    requires forall j :: 0 <= j < k ==> Validate(shapes[j]).Success?
    ensures ClipShapes(shapes, entryOf) == Failure(InvalidShape(Validate(shapes[k]).error))
  {
    var outs := Outcomes(shapes, entryOf);
    CollectSucceeds(outs, k);
    CollectFailurePersists(outs, k + 1, |shapes|);
  }

  /** A name's entry comes from the last shape carrying that name. */
  lemma ClipShapesLastWins(shapes: seq<ShapeData>, entryOf: ShapeData --> Entry, k: nat)
    requires Covers(entryOf) && ClipShapes(shapes, entryOf).Success?
    requires k < |shapes| && forall j :: k < j < |shapes| ==> shapes[j].name != shapes[k].name
    ensures |shapes[k].points| > 0 && shapes[k].name.Some?
    ensures shapes[k].name.value in ClipShapes(shapes, entryOf).value
    ensures ClipShapes(shapes, entryOf).value[shapes[k].name.value] == entryOf(shapes[k])
  {
    var outs := Outcomes(shapes, entryOf);
    CollectSucceeds(outs, |shapes|);
    assert outs[k].Success?;
    CollectLast(outs, |shapes|, k);
  }

  /** A shape whose bounding box strictly contains no sample gets the default entry. */
  lemma NoSampleInBoxGivesDefault(s: ShapeData, grid: seq<Sample>, cfg: ClipConfig)
    requires |s.points| > 0
    requires forall g :: g in grid ==> !InBox(g, XyMin(s.points), XyMax(s.points))
    ensures ShapeEntry(s, grid, cfg) == if cfg.includeLatLon then Located(NonFinite, NonFinite, Finite(0.0)) else Total(Finite(0.0))
  {
    FilterNone(grid, g => InBox(g, XyMin(s.points), XyMax(s.points)));
  }

  /** For positive values, the truncated mean never exceeds the rounded sum. */
  lemma MeanNotAboveSum(v: seq<real>)
    requires |v| > 0 && forall i :: 0 <= i < |v| ==> v[i] > 0.0
    ensures Trunc(Mean(v).v) <= RoundHalfEven(Sum(v))
  {
    SumPositive(v);
    MeanWithinSum(v);
    var mean, sum := Mean(v).v, Sum(v);
    var t, r := Trunc(mean), RoundHalfEven(sum);
    assert t as real <= mean <= sum;
    assert sum - 0.5 <= r as real;
  }

  /**
   * For any shape and raster, the entry summarised with the mean (truncated,
   * when it is a number) never exceeds the entry summarised by the default sum.
   */
  lemma MeanEntryBelowSumEntry(s: ShapeData, a: Affine, m: seq<seq<real>>, contains: (Ring, Point) -> bool)
    requires |s.points| > 0
    ensures ShapeEntry(s, Samples(a, m), ClipConfig(DefaultSummary, false, contains)).value.Finite?
    ensures var byMean := ShapeEntry(s, Samples(a, m), ClipConfig(Mean, false, contains)).value;
      byMean.Finite? ==> Trunc(byMean.v) as real <= ShapeEntry(s, Samples(a, m), ClipConfig(DefaultSummary, false, contains)).value.v
  {
    var grid := Samples(a, m);
    var clip := BoxClip(grid, XyMin(s.points), XyMax(s.points));
    if |clip| > 0 {
      PositiveCellsExact(m);
      var inside := Mask(clip, InsideFlags(s, clip, contains));
      var values := Values(inside);
      forall i | 0 <= i < |values| ensures values[i] > 0.0 {
        assert inside[i] in inside;
        assert inside[i] in grid;
        var j :| 0 <= j < |grid| && grid[j] == inside[i];
        assert PositiveCells(m)[j] in PositiveCells(m);
      }
      if |values| > 0 {
        MeanNotAboveSum(values);
      }
    }
  }

  /**
   * With `include_latlon` the entry is always the three-key form; a reported
   * lat/lon is a mean of interior samples, so it lies within the shape's box.
   */
  lemma LocatedWithinBox(s: ShapeData, grid: seq<Sample>, cfg: ClipConfig)
    requires |s.points| > 0 && cfg.includeLatLon
    ensures ShapeEntry(s, grid, cfg).Located?
    ensures ShapeEntry(s, grid, cfg).lat.Finite? <==> ShapeEntry(s, grid, cfg).lon.Finite?
    ensures ShapeEntry(s, grid, cfg).lat.Finite? ==>
      XyMin(s.points).y <= ShapeEntry(s, grid, cfg).lat.v <= XyMax(s.points).y &&
      XyMin(s.points).x <= ShapeEntry(s, grid, cfg).lon.v <= XyMax(s.points).x
  {
    var lo, hi := XyMin(s.points), XyMax(s.points);
    var clip := BoxClip(grid, lo, hi);
    if |clip| > 0 {
      var inside := Mask(clip, InsideFlags(s, clip, cfg.contains));
      if |inside| > 0 {
        forall i | 0 <= i < |inside|
          ensures lo.y <= Lats(inside)[i] <= hi.y && lo.x <= Lons(inside)[i] <= hi.x
        {
          assert inside[i] in inside;
          assert inside[i] in clip;
        }
        MeanBounds(Lats(inside), lo.y, hi.y);
        MeanBounds(Lons(inside), lo.x, hi.x);
      }
    }
  }

  /**
   * The whole call succeeds iff the tags are long enough, the origin and
   * pixel size are in range, and every shape record has points, parts and a
   * non-empty name.
   */
  lemma RasterClipSucceeds(tiepoint: seq<real>, scale: seq<real>, m: seq<seq<real>>,
                           raws: seq<RawShape>, areaOf: Ring -> real, cfg: ClipConfig)
    ensures RasterClipSpec(tiepoint, scale, m, raws, areaOf, cfg).Success? <==>
      |tiepoint| >= 5 && |scale| >= 2 &&
      CheckAffine(Affine(tiepoint[3], tiepoint[4], scale[0], -scale[1])).None? &&
      forall k :: 0 <= k < |raws| ==>
        |raws[k].points| > 0 && |raws[k].parts| > 0 && raws[k].name.Some? && raws[k].name.value != ""
  {
    if |tiepoint| >= 5 && |scale| >= 2 {
      var a := Affine(tiepoint[3], tiepoint[4], scale[0], -scale[1]);
      if CheckAffine(a).None? {
        LoadAllSucceeds(raws, areaOf);
        if LoadAll(raws, areaOf).Success? {
          LoadedClipSucceeds(raws, areaOf, EntryFn(Samples(a, m), cfg));
        }
      }
    }
  }

  /** Once every record has loaded, the shape loop succeeds iff every record has a non-empty name. */
  lemma LoadedClipSucceeds(raws: seq<RawShape>, areaOf: Ring -> real, entryOf: ShapeData --> Entry)
    requires Covers(entryOf) && LoadAll(raws, areaOf).Success?
    ensures ClipShapes(LoadAll(raws, areaOf).value, entryOf).Success? <==>
      forall k :: 0 <= k < |raws| ==> raws[k].name.Some? && raws[k].name.value != ""
  {
    LoadAllSucceeds(raws, areaOf);
    var shapes := LoadAll(raws, areaOf).value;
    ClipShapesSucceeds(shapes, entryOf);
    forall k | 0 <= k < |raws|
      ensures Validate(shapes[k]).Success? <==> raws[k].name.Some? && raws[k].name.value != ""
    {
      ParsedValidates(raws[k], areaOf);
    }
  }

  /**
   * Every record is loaded before any is validated: when record `k` is the
   * first that `from_file` cannot load, the call fails with that exception,
   * whatever the names of the records before it.
   */
  lemma RasterClipLoadFails(tiepoint: seq<real>, scale: seq<real>, m: seq<seq<real>>,
                            raws: seq<RawShape>, areaOf: Ring -> real, cfg: ClipConfig, k: nat)
    requires |tiepoint| >= 5 && |scale| >= 2
    requires CheckAffine(Affine(tiepoint[3], tiepoint[4], scale[0], -scale[1])).None?
    requires k < |raws| && (|raws[k].points| == 0 || |raws[k].parts| == 0)
    requires forall j :: 0 <= j < k ==> |raws[j].points| > 0 && |raws[j].parts| > 0
    ensures RasterClipSpec(tiepoint, scale, m, raws, areaOf, cfg) ==
      Failure(LoadFailed(if |raws[k].parts| == 0 then ZeroDivision else EmptyPointArray))
  {
    LoadAllFirstFailure(raws, areaOf, k);
  }

  /** `summary_func or default_summary_func`. */
  function ChooseSummary(summary: Option<seq<real> -> Float>): seq<real> -> Float
  {
    if summary.Some? then summary.value else DefaultSummary
  }

  /** The loop over the loaded shapes. */
  method ClipViews(views: seq<ShapeView>, ghost shapes: seq<ShapeData>, grid: seq<Sample>, cfg: ClipConfig)
    returns (r: Result<map<string, Entry>, RasterError>)
    requires |views| == |shapes| && forall k :: 0 <= k < |views| ==> views[k].Data() == shapes[k]
    ensures r == ClipShapes(shapes, EntryFn(grid, cfg))
  {
    ghost var outs := Outcomes(shapes, EntryFn(grid, cfg));
    var dataDict: map<string, Entry> := map[];
    for k1 := 0 to |views|
      invariant Collect(outs, k1) == Success(dataDict)
    {
      var shp := views[k1];
      CollectStep(outs, k1, dataDict);
      assert outs[k1] == ShapeOutcome(shp.Data(), EntryFn(grid, cfg));
      var check := Validate(shp.Data());
      if check.Failure? {
        return Failure(InvalidShape(check.error));
      }
      var entry := ClipShape(shp, grid, cfg);
      assert outs[k1].value == (shp.name.value, entry);
      dataDict := dataDict[shp.name.value := entry];
    }
    r := Success(dataDict);
  }

  /** `raster_clip` as the source runs it, with the TIFF tags and matrix already decoded. */
  method RasterClip(tiepoint: seq<real>, scale: seq<real>, m: seq<seq<real>>, raws: seq<RawShape>,
                    areaOf: Ring -> real, summary: Option<seq<real> -> Float>, includeLatLon: bool,
                    contains: (Ring, Point) -> bool)
    returns (r: Result<map<string, Entry>, RasterError>)
    ensures r == RasterClipSpec(tiepoint, scale, m, raws, areaOf, ClipConfig(ChooseSummary(summary), includeLatLon, contains))
  {
    var cfg := ClipConfig(ChooseSummary(summary), includeLatLon, contains);
    var tags := AffineFromTags(tiepoint, scale);
    if tags.Failure? {
      return Failure(tags.error);
    }
    var a := tags.value;
    var range := CheckAffine(a);
    if range.Some? {
      return Failure(range.value);
    }
    var grid := SparseGrid(a, m);
    var loaded := FromFile(raws, areaOf);
    if loaded.Failure? {
      return Failure(LoadFailed(loaded.error));
    }
    r := ClipViews(loaded.value, LoadAll(raws, areaOf).value, grid, cfg);
  }
}

=== FILE: seqs.dfy ===
/** Sequence utilities: order-preserving filters, masks and flattening. */
module Seqs {

  /** Concatenation regroups freely. */
  lemma AppendAssoc<T>(a: seq<T>, b: seq<T>, c: seq<T>)
    ensures (a + b) + c == a + (b + c)
  {
  }

  /** The elements of `s` for which `keep` holds, in their original order. */
  function Filter<T>(s: seq<T>, keep: T -> bool): (r: seq<T>)
    ensures |r| <= |s|
    ensures forall x :: x in r ==> x in s && keep(x)
  {
    if s == [] then [] else (if keep(s[0]) then [s[0]] else []) + Filter(s[1..], keep)
  }

  lemma {:induction false} FilterComplete<T>(s: seq<T>, keep: T -> bool, x: T)
    requires x in s && keep(x)
    ensures x in Filter(s, keep)
  {
    if s[0] != x {
      FilterComplete(s[1..], keep, x);
    }
  }

  lemma {:induction false} FilterAppend<T>(s: seq<T>, t: seq<T>, keep: T -> bool)
    ensures Filter(s + t, keep) == Filter(s, keep) + Filter(t, keep)
  {
    if s == [] {
      assert s + t == t;
    } else {
      assert (s + t)[1..] == s[1..] + t;
      FilterAppend(s[1..], t, keep);
    }
  }

  lemma {:induction false} FilterNone<T>(s: seq<T>, keep: T -> bool)
    requires forall x :: x in s ==> !keep(x)
    ensures Filter(s, keep) == []
  {
    if s != [] {
      assert s[0] in s;
      FilterNone(s[1..], keep);
    }
  }

  /** The elements of `s` whose flag is set (numpy boolean indexing `s[flags]`). */
  function Mask<T>(s: seq<T>, flags: seq<bool>): (r: seq<T>)
    requires |flags| == |s|
    ensures |r| <= |s|
    ensures forall i :: 0 <= i < |s| && flags[i] ==> s[i] in r
    ensures forall x :: x in r ==> exists i :: 0 <= i < |s| && flags[i] && s[i] == x
  {
    if s == [] then []
    else
      var rest := Mask(s[1..], flags[1..]);
      assert forall i :: 1 <= i < |s| && flags[i] ==> s[i] in rest by {
        forall i | 1 <= i < |s| && flags[i] ensures s[i] in rest {
          assert s[1..][i - 1] == s[i];
        }
      }
      (if flags[0] then [s[0]] else []) + rest
  }

  /** Masking with the flags a predicate gives is filtering by that predicate. */
  lemma {:induction false} MaskFilter<T>(s: seq<T>, flags: seq<bool>, keep: T -> bool)
    requires |flags| == |s| && forall i :: 0 <= i < |s| ==> flags[i] == keep(s[i])
    ensures Mask(s, flags) == Filter(s, keep)
  {
    if s != [] {
      MaskFilter(s[1..], flags[1..], keep);
    }
  }

  /** Concatenation of a sequence of sequences (`itertools.chain`). */
  function Flatten<T>(ss: seq<seq<T>>): (r: seq<T>)
  {
    if ss == [] then [] else ss[0] + Flatten(ss[1..])
  }

  lemma {:induction false} FlattenAppend<T>(ss: seq<seq<T>>, tt: seq<seq<T>>)
    ensures Flatten(ss + tt) == Flatten(ss) + Flatten(tt)
  {
    if ss == [] {
      assert ss + tt == tt;
    } else {
      assert (ss + tt)[1..] == ss[1..] + tt;
      FlattenAppend(ss[1..], tt);
    }
  }

  lemma FlattenSingle<T>(g: seq<T>)
    ensures Flatten([g]) == g
  {
    assert [g][1..] == [];
  }

  lemma FlattenCons<T>(g: seq<T>, rest: seq<seq<T>>)
    ensures Flatten([g] + rest) == g + Flatten(rest)
  {
    assert ([g] + rest)[1..] == rest;
  }

  /** `s` in reverse order. */
  function Reversed<T>(s: seq<T>): (r: seq<T>)
  {
    if s == [] then [] else Reversed(s[1..]) + [s[0]]
  }

  lemma {:induction false} ReversedAt<T>(s: seq<T>, k: nat)
    requires k < |s|
    ensures |Reversed(s)| == |s| && Reversed(s)[k] == s[|s| - 1 - k]
  {
    ReversedLength(s);
    if k < |s| - 1 {
      ReversedAt(s[1..], k);
    }
  }

  lemma {:induction false} ReversedLength<T>(s: seq<T>)
    ensures |Reversed(s)| == |s|
  {
    if s != [] {
      ReversedLength(s[1..]);
    }
  }
}

=== FILE: shape.dfy ===
/**
 * Shapes as `rastertools/shape.py` loads them: a `ShapeView` object per
 * shapefile record whose part loop fills its ring list, its spherical ring
 * areas and its planar-area-weighted centre.
 */
module Shape {
  import opened Wrappers
  import opened Seqs
  import opened Numeric
  import opened Geometry

  /** A shape as the shapefile reader delivers it, with the value of its name attribute. */
  datatype RawShape = RawShape(points: seq<Point>, parts: seq<nat>, name: Option<string>)

  /** The state of a loaded `ShapeView`, as a value. */
  datatype ShapeData = ShapeData(
    name: Option<string>,
    points: seq<Point>,
    parts: seq<nat>,
    paths: seq<Ring>,
    areas: seq<real>,
    center: (Float, Float))

  /** The three assertions of `validate`, in the order the source checks them. */
  datatype ShapeError = NoParts | InconsistentParts | NoName

  /**
   * Why `from_file` raises on a record: with parts but no points, the first
   * part's slice of the empty point array is not an (N, 2) array of points;
   * with no parts, the centre divides the Python float `0.0` by `0.0`.
   */
  datatype LoadError = EmptyPointArray | ZeroDivision

  // ---------------------------------------------------------------------------
  // Area-weighted centre

  datatype Axis = X | Y

  function Coord(c: CentroidArea, axis: Axis): Float
  {
    if axis == X then c.cx else c.cy
  }

  function AxisMoment(axis: Axis): Moment
  {
    if axis == X then MomentX else MomentY
  }

  /** `Cx_tot` (or `Cy_tot`): the running sum of `C * A` over the rings, left to right. */
  function WeightedTotal(rings: seq<Ring>, axis: Axis): Float
  {
    if rings == [] then Finite(0.0)
    else
      var c := CentroidAreaOf(rings[|rings| - 1]);
      Add(WeightedTotal(rings[..|rings| - 1], axis), Mul(Coord(c, axis), c.a))
  }

  /** `Axy_tot`: the sum of the signed planar ring areas. */
  function AreaTotal(rings: seq<Ring>): real
  {
    if rings == [] then 0.0 else AreaTotal(rings[..|rings| - 1]) + CentroidAreaOf(rings[|rings| - 1]).a
  }

  /** The centre `from_file` stores: `(Cx_tot / Axy_tot, Cy_tot / Axy_tot)`. */
  function Center(rings: seq<Ring>): (Float, Float)
  {
    (Div(WeightedTotal(rings, X), AreaTotal(rings)), Div(WeightedTotal(rings, Y), AreaTotal(rings)))
  }

  /** The sum over the rings of the first moment `S / 6`, which equals `C * A` for a ring of non-zero area. */
  function FirstMoment(rings: seq<Ring>, axis: Axis): real
  {
    if rings == [] then 0.0
    else FirstMoment(rings[..|rings| - 1], axis) + EdgeSum(AxisMoment(axis), rings[|rings| - 1]) / 6.0
  }

  predicate NoZeroArea(rings: seq<Ring>)
  {
    forall k :: 0 <= k < |rings| ==> CentroidAreaOf(rings[k]).a != 0.0
  }

  /** The weighted total is finite exactly when no ring has zero planar area, and is then the sum of the moments. */
  lemma {:induction false} WeightedTotalValue(rings: seq<Ring>, axis: Axis)
    ensures WeightedTotal(rings, axis).Finite? <==> NoZeroArea(rings)
    ensures NoZeroArea(rings) ==> WeightedTotal(rings, axis) == Finite(FirstMoment(rings, axis))
  {
    if rings != [] {
      var init := rings[..|rings| - 1];
      var c := CentroidAreaOf(rings[|rings| - 1]);
      WeightedTotalValue(init, axis);
      assert NoZeroArea(rings) <==> NoZeroArea(init) && c.a != 0.0 by {
        assert forall k :: 0 <= k < |init| ==> init[k] == rings[k];
      }
      if c.a != 0.0 {
        var s := EdgeSum(AxisMoment(axis), rings[|rings| - 1]) / 6.0;
        assert Coord(c, axis) == Finite(s / c.a);
        assert s / c.a * c.a == s;
      }
    }
  }

  /**
   * The centre is `(sum of Cx*A / sum of A, sum of Cy*A / sum of A)` with signed
   * areas; it is non-finite when a ring has zero planar area or the areas cancel.
   * `from_file` stores it only for a non-empty ring list: a shape with no parts
   * raises `ZeroDivision` instead (`LoadFailure`).
   */
  lemma CenterFormula(rings: seq<Ring>)
    ensures Center(rings).0.Finite? <==> NoZeroArea(rings) && AreaTotal(rings) != 0.0
    ensures Center(rings).1.Finite? <==> NoZeroArea(rings) && AreaTotal(rings) != 0.0
    ensures NoZeroArea(rings) && AreaTotal(rings) != 0.0 ==>
      Center(rings) == (Finite(FirstMoment(rings, X) / AreaTotal(rings)), Finite(FirstMoment(rings, Y) / AreaTotal(rings)))
  {
    WeightedTotalValue(rings, X);
    WeightedTotalValue(rings, Y);
  }

  lemma MulDiv(x: real, a: real)
    requires a != 0.0
    ensures (0.0 + x * a) / a == x
  {
  }

  lemma SinglePartTotals(r: Ring)
    ensures var c := CentroidAreaOf(r);
      AreaTotal([r]) == c.a &&
      WeightedTotal([r], X) == Add(Finite(0.0), Mul(c.cx, c.a)) &&
      WeightedTotal([r], Y) == Add(Finite(0.0), Mul(c.cy, c.a))
  {
    assert [r][..0] == [];
  }

  /** With a single part the centre is that part's own centroid. */
  lemma CenterSinglePart(r: Ring)
    ensures Center([r]) == (CentroidAreaOf(r).cx, CentroidAreaOf(r).cy)
  {
    var c := CentroidAreaOf(r);
    SinglePartTotals(r);
    if c.a != 0.0 {
      assert c.cx.Finite? && c.cy.Finite?;
      MulDiv(c.cx.v, c.a);
      MulDiv(c.cy.v, c.a);
      assert WeightedTotal([r], X) == Finite(0.0 + c.cx.v * c.a);
      assert Div(WeightedTotal([r], X), AreaTotal([r])) == Finite(c.cx.v);
      assert Div(WeightedTotal([r], Y), AreaTotal([r])) == Finite(c.cy.v);
    }
  }

  lemma TwoPartTotals(r1: Ring, r2: Ring)
    ensures var c1, c2 := CentroidAreaOf(r1), CentroidAreaOf(r2);
      AreaTotal([r1, r2]) == c1.a + c2.a &&
      WeightedTotal([r1, r2], X) == Add(Add(Finite(0.0), Mul(c1.cx, c1.a)), Mul(c2.cx, c2.a)) &&
      WeightedTotal([r1, r2], Y) == Add(Add(Finite(0.0), Mul(c1.cy, c1.a)), Mul(c2.cy, c2.a))
  {
    assert [r1, r2][..1] == [r1];
    SinglePartTotals(r1);
  }

  lemma Midpoint(x1: real, x2: real, a: real)
    requires a != 0.0
    ensures Div(Add(Add(Finite(0.0), Mul(Finite(x1), a)), Mul(Finite(x2), a)), a + a) == Finite((x1 + x2) / 2.0)
  {
    assert 0.0 + x1 * a + x2 * a == (x1 + x2) * a;
    assert a + a == 2.0 * a;
    assert (x1 + x2) * a / (2.0 * a) == (x1 + x2) / 2.0;
  }

  /** Two parts of equal non-zero planar area have their centroids' midpoint as centre. */
  lemma CenterTwoEqualParts(r1: Ring, r2: Ring)
    requires CentroidAreaOf(r1).a == CentroidAreaOf(r2).a != 0.0
    ensures var c1, c2 := CentroidAreaOf(r1), CentroidAreaOf(r2);
      Center([r1, r2]) == (Finite((c1.cx.v + c2.cx.v) / 2.0), Finite((c1.cy.v + c2.cy.v) / 2.0))
  {
    var c1, c2 := CentroidAreaOf(r1), CentroidAreaOf(r2);
    TwoPartTotals(r1, r2);
    assert c1.cx.Finite? && c1.cy.Finite? && c2.cx.Finite? && c2.cy.Finite?;
    Midpoint(c1.cx.v, c2.cx.v, c1.a);
    Midpoint(c1.cy.v, c2.cy.v, c1.a);
  }

  // ---------------------------------------------------------------------------
  // Loading and validation

  /** The spherical area of every ring, in ring order. */
  function RingAreas(rings: seq<Ring>, areaOf: Ring -> real): (r: seq<real>)
    ensures |r| == |rings| && forall k :: 0 <= k < |rings| ==> r[k] == areaOf(rings[k])
  {
    seq(|rings|, k requires 0 <= k < |rings| => areaOf(rings[k]))
  }

  /** Extending the ring prefix by one ring extends every accumulator by that ring. */
  lemma PrefixStep(rings: seq<Ring>, k: nat, areaOf: Ring -> real)
    requires k < |rings|
    ensures rings[..k + 1] == rings[..k] + [rings[k]]
    ensures var c := CentroidAreaOf(rings[k]);
      RingAreas(rings[..k + 1], areaOf) == RingAreas(rings[..k], areaOf) + [areaOf(rings[k])] &&
      WeightedTotal(rings[..k + 1], X) == Add(WeightedTotal(rings[..k], X), Mul(c.cx, c.a)) &&
      WeightedTotal(rings[..k + 1], Y) == Add(WeightedTotal(rings[..k], Y), Mul(c.cy, c.a)) &&
      AreaTotal(rings[..k + 1]) == AreaTotal(rings[..k]) + c.a
  {
    assert rings[..k + 1][..k] == rings[..k];
  }

  /** What `from_file` builds for one raw shape; `areaOf` is `area_sphere`. */
  function Parse(raw: RawShape, areaOf: Ring -> real): ShapeData
  {
    var rings := PartRings(raw.points, raw.parts);
    ShapeData(raw.name, raw.points, raw.parts, rings, RingAreas(rings, areaOf), Center(rings))
  }

  /** A parsed shape has one path and one area per part, and its paths cover its points from the first part on. */
  lemma ParseShape(raw: RawShape, areaOf: Ring -> real)
    ensures var s := Parse(raw, areaOf);
      |s.paths| == |s.areas| == |raw.parts| &&
      (|raw.parts| > 0 && WellFormedParts(raw.parts, |raw.points|) ==> Flatten(s.paths) == raw.points[raw.parts[0]..])
  {
    if |raw.parts| > 0 && WellFormedParts(raw.parts, |raw.points|) {
      PartRingsCover(raw.points, raw.parts);
    }
  }

  /** `validate`: the first of its three assertions that fails, if any. */
  function Validate(s: ShapeData): (r: Result<(), ShapeError>)
    ensures r.Success? <==>
      |s.points| != 0 && |s.paths| > 0 && |s.paths| == |s.areas| && s.name.Some? && s.name.value != ""
    ensures r == Failure(NoParts) <==> |s.points| == 0 || |s.paths| == 0
    ensures r == Failure(InconsistentParts) <==> |s.points| != 0 && |s.paths| > 0 && |s.paths| != |s.areas|
    ensures r == Failure(NoName) <==>
      |s.points| != 0 && |s.paths| > 0 && |s.paths| == |s.areas| && (s.name.None? || s.name.value == "")
  {
    if |s.points| == 0 || |s.paths| == 0 then Failure(NoParts)
    else if |s.paths| != |s.areas| then Failure(InconsistentParts)
    else if s.name.None? || s.name.value == "" then Failure(NoName)
    else Success(())
  }

  /**
   * A parsed shape never has inconsistent parts: it validates iff it has
   * points, parts and a name. One that loads without raising fails only for
   * want of a name, so `validate`'s "No parts" assertion never fires on it.
   */
  lemma ParsedValidates(raw: RawShape, areaOf: Ring -> real)
    ensures Validate(Parse(raw, areaOf)) != Failure(InconsistentParts)
    ensures Validate(Parse(raw, areaOf)).Success? <==>
      |raw.points| > 0 && |raw.parts| > 0 && raw.name.Some? && raw.name.value != ""
    ensures Load(raw, areaOf).Success? ==>
      Validate(Load(raw, areaOf).value) != Failure(NoParts) &&
      (Validate(Load(raw, areaOf).value).Success? <==> raw.name.Some? && raw.name.value != "")
  {
  }

  /** The exception `from_file` raises on one record, if any. */
  function LoadFailure(raw: RawShape): (r: Option<LoadError>)
    ensures r.None? <==> |raw.points| > 0 && |raw.parts| > 0
    ensures r == Some(ZeroDivision) <==> |raw.parts| == 0
  {
    if |raw.parts| > 0 && |raw.points| == 0 then Some(EmptyPointArray)
    else if |raw.parts| == 0 then Some(ZeroDivision)
    else None
  }

  /** One record through `from_file`: the loaded shape, or the exception its part loop or centre raises. */
  function Load(raw: RawShape, areaOf: Ring -> real): Result<ShapeData, LoadError>
  {
    match LoadFailure(raw)
    case Some(e) => Failure(e)
    case None => Success(Parse(raw, areaOf))
  }

  /** `from_file` over all records in file order; the first record that raises ends the call. */
  function LoadAll(raws: seq<RawShape>, areaOf: Ring -> real): (r: Result<seq<ShapeData>, LoadError>)
    ensures r.Success? ==> |r.value| == |raws|
  {
    if raws == [] then Success([])
    else match LoadAll(raws[..|raws| - 1], areaOf)
      case Failure(e) => Failure(e)
      case Success(shapes) =>
        match Load(raws[|raws| - 1], areaOf)
        case Failure(e) => Failure(e)
        case Success(s) => Success(shapes + [s])
  }

  /** Loading every record succeeds iff each has points and parts, and then yields each record parsed. */
  lemma {:induction false} LoadAllSucceeds(raws: seq<RawShape>, areaOf: Ring -> real)
    ensures LoadAll(raws, areaOf).Success? <==> forall k :: 0 <= k < |raws| ==> LoadFailure(raws[k]).None?
    ensures LoadAll(raws, areaOf).Success? ==>
      |LoadAll(raws, areaOf).value| == |raws| &&
      forall k :: 0 <= k < |raws| ==> LoadAll(raws, areaOf).value[k] == Parse(raws[k], areaOf)
  {
    if raws != [] {
      var init, last := raws[..|raws| - 1], raws[|raws| - 1];
      LoadAllSucceeds(init, areaOf);
      assert forall k :: 0 <= k < |init| ==> init[k] == raws[k];
      assert LoadAll(raws, areaOf).Success? <==> LoadAll(init, areaOf).Success? && LoadFailure(last).None?;
      if LoadAll(raws, areaOf).Success? {
        var shapes := LoadAll(init, areaOf).value;
        assert LoadAll(raws, areaOf).value == shapes + [Parse(last, areaOf)];
        forall k | 0 <= k < |raws|
          ensures LoadAll(raws, areaOf).value[k] == Parse(raws[k], areaOf)
        {
          if k < |init| {
            assert LoadAll(raws, areaOf).value[k] == shapes[k];
          } else {
            assert raws[k] == last;
          }
        }
      }
    }
  }

  /** When record `k` is the first that raises, loading fails with its exception, whatever follows. */
  lemma {:induction false} LoadAllFirstFailure(raws: seq<RawShape>, areaOf: Ring -> real, k: nat)
    requires k < |raws| && LoadFailure(raws[k]).Some?
    requires forall j :: 0 <= j < k ==> LoadFailure(raws[j]).None?
    ensures LoadAll(raws, areaOf) == Failure(LoadFailure(raws[k]).value)
  {
    var init := raws[..|raws| - 1];
    assert forall j :: 0 <= j < |init| ==> init[j] == raws[j];
    if k == |raws| - 1 {
      LoadAllSucceeds(init, areaOf);
    } else {
      LoadAllFirstFailure(init, areaOf, k);
    }
  }

  class ShapeView {
    const points: seq<Point>
    const parts: seq<nat>
    const name: Option<string>
    var paths: seq<Ring>
    var areas: seq<real>
    var center: (Float, Float)

    constructor (raw: RawShape)
      ensures points == raw.points && parts == raw.parts && name == raw.name
      ensures paths == [] && areas == [] && center == (Finite(0.0), Finite(0.0))
    {
      points, parts, name := raw.points, raw.parts, raw.name;
      paths, areas := [], [];
      center := (Finite(0.0), Finite(0.0));
    }

    function Data(): ShapeData
      reads this
    {
      ShapeData(name, points, parts, paths, areas, center)
    }

    /**
     * The part loop of `from_file`: append each ring and its area, accumulate
     * the centre; `err` is the exception the loop or the centre raises.
     */
    method LoadParts(areaOf: Ring -> real) returns (err: Option<LoadError>)
      modifies this
      ensures err == LoadFailure(RawShape(points, parts, name))
      ensures err.None? ==>
        paths == old(paths) + PartRings(points, parts) &&
        areas == old(areas) + RingAreas(PartRings(points, parts), areaOf) &&
        center == Center(PartRings(points, parts))
      ensures err.Some? ==> paths == old(paths) && areas == old(areas) && center == old(center)
    {
      ghost var rings := PartRings(points, parts);
      var bounds := PartBounds(parts, |points|);
      var cxTot, cyTot, aTot := Finite(0.0), Finite(0.0), 0.0;
      var k := 0;
      while k < |bounds| - 1
        invariant 0 <= k <= |parts|
        invariant k > 0 ==> |points| > 0
        invariant center == old(center)
        invariant paths == old(paths) + rings[..k]
        invariant areas == old(areas) + RingAreas(rings[..k], areaOf)
        invariant cxTot == WeightedTotal(rings[..k], X)
        invariant cyTot == WeightedTotal(rings[..k], Y)
        invariant aTot == AreaTotal(rings[..k])
      {
        if |points| == 0 {
          // the slice of `np.array([])` has shape (0,), not (N, 2)
          return Some(EmptyPointArray);
        }
        var ring := Slice(points, bounds[k], bounds[k + 1]);
        assert ring == rings[k];
        var area := areaOf(ring);
        paths := paths + [ring];
        areas := areas + [area];
        var c := CentroidAreaOf(ring);
        cxTot := Add(cxTot, Mul(c.cx, c.a));
        cyTot := Add(cyTot, Mul(c.cy, c.a));
        aTot := aTot + c.a;
        PrefixStep(rings, k, areaOf);
        k := k + 1;
      }
      if k == 0 {
        // no part ran, so both totals are still the Python float 0.0
        return Some(ZeroDivision);
      }
      assert rings[..k] == rings;
      center := (Div(cxTot, aTot), Div(cyTot, aTot));
      err := None;
    }
  }

  /** The body of `from_file`'s record loop: a new view over `raw`, with its parts loaded. */
  method LoadView(raw: RawShape, areaOf: Ring -> real) returns (r: Result<ShapeView, LoadError>)
    ensures r.Failure? <==> LoadFailure(raw).Some?
    ensures r.Failure? ==> r.error == LoadFailure(raw).value
    ensures r.Success? ==> fresh(r.value) && r.value.Data() == Parse(raw, areaOf)
  {
    var shp := new ShapeView(raw);
    var err := shp.LoadParts(areaOf);
    if err.Some? {
      return Failure(err.value);
    }
    r := Success(shp);
  }

  /** `ShapeView.from_file`: one loaded view per raw shape, in file order, or the first exception. */
  method FromFile(raws: seq<RawShape>, areaOf: Ring -> real) returns (r: Result<seq<ShapeView>, LoadError>)
    ensures r.Failure? <==> LoadAll(raws, areaOf).Failure?
    ensures r.Failure? ==> r.error == LoadAll(raws, areaOf).error
    ensures r.Success? ==>
      |r.value| == |raws| &&
      forall k :: 0 <= k < |raws| ==> fresh(r.value[k]) && r.value[k].Data() == LoadAll(raws, areaOf).value[k]
  {
    var views: seq<ShapeView> := [];
    for k1 := 0 to |raws|
      invariant |views| == k1
      invariant forall k :: 0 <= k < k1 ==> LoadFailure(raws[k]).None?
      invariant forall k :: 0 <= k < k1 ==> fresh(views[k]) && views[k].Data() == Parse(raws[k], areaOf)
    {
      var shp := LoadView(raws[k1], areaOf);
      if shp.Failure? {
        LoadAllFirstFailure(raws, areaOf, k1);
        return Failure(shp.error);
      }
      views := views + [shp.value];
    }
    LoadAllSucceeds(raws, areaOf);
    r := Success(views);
  }
}

=== FILE: shapedivide.dfy ===
/**
 * The stand-alone script `make03_shapedivide.py`, the older form of the
 * subdivision. It copies the input fields, groups each shape's rings into
 * polygons by the sign of their area, finds the interior lattice points with
 * the grouped containment rule, and writes one sub-shape per Voronoi region.
 * Where the library version skips a shape, the script stops the whole run.
 */
module ShapeDivide {
  import opened Wrappers
  import opened Seqs
  import opened Numeric
  import opened Geometry
  import opened Subdivide
  import Raster

  // ---------------------------------------------------------------------------
  // Output fields

  /** A shapefile field: label, data type letter and length. */
  datatype Field = Field(name: string, kind: string, size: int)

  /**
   * The record position of the last field named `DOTNAME` among
   * `fields[1..n]`: field 0 is the deletion flag, which records do not hold,
   * so the position is the field index minus one.
   */
  function DotnameIndex(fields: seq<Field>, n: nat): Option<nat>
    requires n <= |fields|
  {
    if n <= 1 then None
    else if fields[n - 1].name == "DOTNAME" then Some(n - 2)
    else DotnameIndex(fields, n - 1)
  }

  /** The index is found exactly when some field after the first is `DOTNAME`, and it is the last such field. */
  lemma {:induction false} DotnameIndexLast(fields: seq<Field>, n: nat)
    requires n <= |fields|
    ensures DotnameIndex(fields, n).Some? <==> exists k :: 1 <= k < n && fields[k].name == "DOTNAME"
    ensures DotnameIndex(fields, n).Some? ==>
      DotnameIndex(fields, n).value + 1 < n && fields[DotnameIndex(fields, n).value + 1].name == "DOTNAME" &&
      forall k :: DotnameIndex(fields, n).value + 1 < k < n ==> fields[k].name != "DOTNAME"
  {
    if n > 1 {
      DotnameIndexLast(fields, n - 1);
    }
  }

  /** The field loop: every field but the deletion flag, in order, with `DOTNAME` ten characters longer. */
  method CopyFields(fields: seq<Field>) returns (out: seq<Field>, dotnameIndex: Option<nat>)
    ensures |out| == if |fields| == 0 then 0 else |fields| - 1
    ensures forall i :: 0 <= i < |out| ==>
      out[i].name == fields[i + 1].name && out[i].kind == fields[i + 1].kind &&
      out[i].size == fields[i + 1].size + (if fields[i + 1].name == "DOTNAME" then 10 else 0)
    ensures dotnameIndex == DotnameIndex(fields, |fields|)
  {
    out, dotnameIndex := [], None;
    if |fields| == 0 {
      return;
    }
    var k1 := 1;
    while k1 < |fields|
      invariant 1 <= k1 <= |fields|
      invariant |out| == k1 - 1
      invariant forall i :: 0 <= i < |out| ==>
        out[i].name == fields[i + 1].name && out[i].kind == fields[i + 1].kind &&
        out[i].size == fields[i + 1].size + (if fields[i + 1].name == "DOTNAME" then 10 else 0)
      invariant dotnameIndex == DotnameIndex(fields, k1)
    {
      var f := fields[k1];
      if f.name == "DOTNAME" {
        dotnameIndex := Some(k1 - 1);
        out := out + [Field(f.name, f.kind, f.size + 10)];
      } else {
        out := out + [Field(f.name, f.kind, f.size)];
      }
      k1 := k1 + 1;
    }
  }

  // ---------------------------------------------------------------------------
  // Grouping rings into polygons

  /** The signed areas of the rings, in order. */
  function Areas(rings: seq<Ring>, areaOf: Ring -> real): (r: seq<real>)
    ensures |r| == |rings|
  {
    seq(|rings|, i requires 0 <= i < |rings| => areaOf(rings[i]))
  }

  /**
   * The ring loop: a positive ring opens a group, any other ring joins the
   * last group, which fails when there is none yet; `tot_area` adds up every
   * ring's signed area, holes included.
   */
  method GroupParts(rings: seq<Ring>, areaOf: Ring -> real) returns (groups: Result<seq<seq<Ring>>, GroupError>, totArea: real)
    ensures groups == GroupRings(rings, areaOf)
    ensures groups.Success? ==> totArea == Sum(Areas(rings, areaOf))
  {
    var shpList: seq<seq<Ring>> := [];
    totArea := 0.0;
    for k2 := 0 to |rings|
      invariant GroupRings(rings[..k2], areaOf) == Success(shpList)
      invariant totArea == Sum(Areas(rings[..k2], areaOf))
    {
      var prtArea := areaOf(rings[k2]);
      assert rings[..k2 + 1][..k2] == rings[..k2];
      assert Areas(rings[..k2 + 1], areaOf) == Areas(rings[..k2], areaOf) + [prtArea];
      SumAppend(Areas(rings[..k2], areaOf), prtArea);
      totArea := totArea + prtArea;
      if prtArea > 0.0 {
        shpList := shpList + [[rings[k2]]];
      } else {
        if shpList == [] {
          GroupRingsFails(rings[..k2], areaOf);
          assert k2 == 0;
          GroupRingsFails(rings[..k2 + 1], areaOf);
          GroupRingsFails(rings, areaOf);
          assert GroupRings(rings, areaOf).error.NoOpenGroup?;
          groups := Failure(GroupError.NoOpenGroup);
          return;
        }
        shpList := shpList[..|shpList| - 1] + [shpList[|shpList| - 1] + [rings[k2]]];
      }
    }
    assert rings[..|rings|] == rings;
    groups := Success(shpList);
  }

  /** One polygon per group: the first ring is the exterior, the others are its holes. */
  function GroupsToPolygons(groups: seq<seq<Ring>>): (ps: seq<Polygon>)
    requires forall k :: 0 <= k < |groups| ==> |groups[k]| > 0
    ensures |ps| == |groups|
  {
    seq(|groups|, k requires 0 <= k < |groups| => Polygon(groups[k][0], groups[k][1..]))
  }

  /**
   * Round trip: the polygons built from a successful grouping have positive
   * exteriors and non-positive holes, and writing them out exterior first
   * gives back the shape's ring list.
   */
  lemma GroupsToPolygonsRoundTrip(rings: seq<Ring>, areaOf: Ring -> real)
    requires GroupRings(rings, areaOf).Success?
    ensures WellGrouped(GroupRings(rings, areaOf).value, areaOf)
    ensures var ps := GroupsToPolygons(GroupRings(rings, areaOf).value);
      (forall i :: 0 <= i < |ps| ==> areaOf(ps[i].exterior) > 0.0) &&
      (forall i, j :: 0 <= i < |ps| && 0 <= j < |ps[i].interiors| ==> areaOf(ps[i].interiors[j]) <= 0.0) &&
      PolygonsToParts(ps) == rings
  {
    GroupRingsSound(rings, areaOf);
    var groups := GroupRings(rings, areaOf).value;
    var ps := GroupsToPolygons(groups);
    PolygonsToPartsOrder(ps);
    assert AllPolygonRings(ps) == groups by {
      forall k | 0 <= k < |groups| ensures AllPolygonRings(ps)[k] == groups[k] {
        assert PolygonRings(ps[k]) == [groups[k][0]] + groups[k][1..];
      }
    }
    forall i, j | 0 <= i < |ps| && 0 <= j < |ps[i].interiors| ensures areaOf(ps[i].interiors[j]) <= 0.0 {
      assert ps[i].interiors[j] == groups[i][j + 1];
    }
  }

  // ---------------------------------------------------------------------------
  // Grouped containment

  /** Inside a group's polygon as far as its first `m` rings tell: in the outer ring and in none of the holes among them. */
  predicate InPartUpTo(g: seq<Ring>, p: Point, inRing: (Ring, Point) -> bool, m: nat)
  {
    |g| > 0 && inRing(g[0], p) && forall j :: 1 <= j < m && j < |g| ==> !inRing(g[j], p)
  }

  predicate InPart(g: seq<Ring>, p: Point, inRing: (Ring, Point) -> bool)
  {
    InPartUpTo(g, p, inRing, |g|)
  }

  /** Inside one of the first `n` groups' polygons. */
  predicate GroupedInUpTo(groups: seq<seq<Ring>>, p: Point, inRing: (Ring, Point) -> bool, n: nat)
    requires n <= |groups|
  {
    exists k :: 0 <= k < n && InPart(groups[k], p, inRing)
  }

  /** The grouped rule: inside the shape when inside some group's outer ring and none of that group's holes. */
  predicate GroupedIn(groups: seq<seq<Ring>>, p: Point, inRing: (Ring, Point) -> bool)
  {
    GroupedInUpTo(groups, p, inRing, |groups|)
  }

  /** The group loop: per group, its outer ring's flags masked by each hole, then ORed into the result. */
  method GroupedInside(groups: seq<seq<Ring>>, pts: seq<Point>, inRing: (Ring, Point) -> bool) returns (inBool: seq<bool>)
    requires forall k :: 0 <= k < |groups| ==> |groups[k]| > 0
    ensures |inBool| == |pts|
    ensures forall i :: 0 <= i < |pts| ==> (inBool[i] <==> GroupedIn(groups, pts[i], inRing))
  {
    inBool := seq(|pts|, _ => false);
    for k2 := 0 to |groups|
      invariant |inBool| == |pts|
      invariant forall i :: 0 <= i < |pts| ==> (inBool[i] <==> GroupedInUpTo(groups, pts[i], inRing, k2))
    {
      var g := groups[k2];
      var partBool := seq(|pts|, _ => false);
      for k3 := 0 to |g|
        invariant |partBool| == |pts|
        invariant k3 > 0 ==> forall i :: 0 <= i < |pts| ==> (partBool[i] <==> InPartUpTo(g, pts[i], inRing, k3))
      {
        var hit := seq(|pts|, i requires 0 <= i < |pts| => inRing(g[k3], pts[i]));
        if k3 == 0 {
          partBool := hit;
        } else {
          partBool := seq(|pts|, i requires 0 <= i < |pts| => partBool[i] && !hit[i]);
        }
      }
      inBool := seq(|pts|, i requires 0 <= i < |pts| => inBool[i] || partBool[i]);
      forall i | 0 <= i < |pts| ensures inBool[i] <==> GroupedInUpTo(groups, pts[i], inRing, k2 + 1) {
        if partBool[i] {
          assert InPart(groups[k2], pts[i], inRing);
        }
      }
    }
  }

  /** Every hole of a group contains `p` only if the group's outer ring does. */
  predicate HolesInsideOuter(groups: seq<seq<Ring>>, inRing: (Ring, Point) -> bool, p: Point)
  {
    forall k, j :: 0 <= k < |groups| && 1 <= j < |groups[k]| && inRing(groups[k][j], p) ==> inRing(groups[k][0], p)
  }

  /** No two groups' outer rings both contain `p`. */
  predicate OutersDisjoint(groups: seq<seq<Ring>>, inRing: (Ring, Point) -> bool, p: Point)
  {
    forall k1, k2 :: 0 <= k1 < k2 < |groups| && |groups[k1]| > 0 && |groups[k2]| > 0 ==>
      !(inRing(groups[k1][0], p) && inRing(groups[k2][0], p))
  }

  /** Folding through one group's rings: its outer ring is ORed in, then each hole masks the result. */
  lemma {:induction false} SequentialThroughGroup(paths: seq<Ring>, areaOf: Ring -> real, p: Point, inRing: (Ring, Point) -> bool,
                                                  off: nat, g: seq<Ring>, j: nat)
    requires 1 <= j <= |g| && off + |g| <= |paths|
    requires forall i :: off <= i < off + |g| ==> paths[i] == g[i - off]
    requires areaOf(g[0]) > 0.0 && forall i :: 1 <= i < |g| ==> areaOf(g[i]) <= 0.0
    ensures Raster.SequentialFold(paths, Areas(paths, areaOf), p, inRing, off + j) ==
      ((Raster.SequentialFold(paths, Areas(paths, areaOf), p, inRing, off) || inRing(g[0], p)) &&
       forall i :: 1 <= i < j ==> !inRing(g[i], p))
  {
    assert paths[off + j - 1] == g[j - 1];
    if j > 1 {
      SequentialThroughGroup(paths, areaOf, p, inRing, off, g, j - 1);
    }
  }

  /** Within the first `n` groups, the sequential fold and the grouped rule agree. */
  lemma {:induction false} SequentialThroughGroups(groups: seq<seq<Ring>>, areaOf: Ring -> real, inRing: (Ring, Point) -> bool, p: Point, n: nat)
    requires WellGrouped(groups, areaOf) && HolesInsideOuter(groups, inRing, p) && OutersDisjoint(groups, inRing, p)
    requires n <= |groups|
    ensures |Flatten(groups[..n])| <= |Flatten(groups)|
    ensures Raster.SequentialFold(Flatten(groups), Areas(Flatten(groups), areaOf), p, inRing, |Flatten(groups[..n])|) ==
      GroupedInUpTo(groups, p, inRing, n)
  {
    FlattenPrefixWithin(groups, n);
    if n > 0 {
      SequentialThroughGroups(groups, areaOf, inRing, p, n - 1);
      FlattenPrefixStep(groups, n);
      var off := |Flatten(groups[..n - 1])|;
      SequentialThroughGroup(Flatten(groups), areaOf, p, inRing, off, groups[n - 1], |groups[n - 1]|);
      GroupedInUpToStep(groups, areaOf, inRing, p, n - 1);
    }
  }

  lemma FlattenPrefixWithin(groups: seq<seq<Ring>>, n: nat)
    requires n <= |groups|
    ensures |Flatten(groups[..n])| <= |Flatten(groups)|
  {
    assert groups[..n] + groups[n..] == groups;
    FlattenAppend(groups[..n], groups[n..]);
  }

  /** Group `n - 1` sits in the flattened ring list right after the rings of the groups before it. */
  lemma FlattenPrefixStep(groups: seq<seq<Ring>>, n: nat)
    requires 0 < n <= |groups|
    ensures var off := |Flatten(groups[..n - 1])|;
      |Flatten(groups[..n])| == off + |groups[n - 1]| && off + |groups[n - 1]| <= |Flatten(groups)| &&
      forall i :: off <= i < off + |groups[n - 1]| ==> Flatten(groups)[i] == groups[n - 1][i - off]
  {
    var pre, g, rest := groups[..n - 1], groups[n - 1], groups[n..];
    var tail := Flatten(rest);
    assert groups[..n] == pre + [g];
    FlattenAppend(pre, [g]);
    FlattenSingle(g);
    assert groups == pre + ([g] + rest);
    FlattenAppend(pre, [g] + rest);
    FlattenCons(g, rest);
    FlattenIndexAfter(Flatten(pre), g, tail);
  }

  lemma FlattenIndexAfter<T>(a: seq<T>, g: seq<T>, b: seq<T>)
    ensures forall i :: |a| <= i < |a| + |g| ==> (a + (g + b))[i] == g[i - |a|]
  {
  }

  /** Adding group `m` to the grouped rule: its outer ring ORs in, and each of its holes masks out. */
  lemma GroupedInUpToStep(groups: seq<seq<Ring>>, areaOf: Ring -> real, inRing: (Ring, Point) -> bool, p: Point, m: nat)
    requires WellGrouped(groups, areaOf) && HolesInsideOuter(groups, inRing, p) && OutersDisjoint(groups, inRing, p)
    requires m < |groups|
    ensures GroupedInUpTo(groups, p, inRing, m + 1) ==
      ((GroupedInUpTo(groups, p, inRing, m) || inRing(groups[m][0], p)) &&
       forall i :: 1 <= i < |groups[m]| ==> !inRing(groups[m][i], p))
  {
    var g := groups[m];
    if GroupedInUpTo(groups, p, inRing, m) {
      var k :| 0 <= k < m && InPart(groups[k], p, inRing);
      forall i | 1 <= i < |g| ensures !inRing(g[i], p) {
        assert inRing(groups[k][0], p);
      }
    }
    if InPart(g, p, inRing) {
      assert InPart(groups[m], p, inRing);
    }
  }

  /**
   * The sequential rule of `raster_clip` (fold every ring in order: a
   * positive ring ORs in, any other masks out) and the script's grouped rule
   * give the same answer for `p`, provided every hole lies inside its own
   * outer ring and no two outer rings overlap at `p`.
   */
  lemma SequentialMatchesGrouped(rings: seq<Ring>, areaOf: Ring -> real, inRing: (Ring, Point) -> bool, p: Point)
    requires GroupRings(rings, areaOf).Success?
    requires HolesInsideOuter(GroupRings(rings, areaOf).value, inRing, p)
    requires OutersDisjoint(GroupRings(rings, areaOf).value, inRing, p)
    ensures Raster.SequentialInside(rings, Areas(rings, areaOf), p, inRing) == GroupedIn(GroupRings(rings, areaOf).value, p, inRing)
  {
    var groups := GroupRings(rings, areaOf).value;
    GroupRingsSound(rings, areaOf);
    SequentialThroughGroups(groups, areaOf, inRing, p, |groups|);
    assert groups[..|groups|] == groups;
  }

  // ---------------------------------------------------------------------------
  // The run, as a specification

  /** One input shape: its points, its part offsets, and its record. */
  datatype InShape = InShape(points: seq<Point>, parts: seq<nat>, record: Record)

  /** The ways the script stops; every one ends the whole run. */
  datatype Abort =
    | NoDotname            // no DOTNAME field, or a record too short for its position
    | NoOpenGroup          // the first ring is not positive
    | InvalidShape         // still not valid after buffer(0)
    | NoPoints             // no points: the part slice or the bounds index the 1-D empty array
    | KMeansFailed
    | RegionCountMismatch  // not one Voronoi region per cluster centre
    | UnsupportedGeometry  // an intersection that is neither a Polygon nor a MultiPolygon

  /** The foreign geometry and clustering the script relies on. */
  datatype ScriptOps = ScriptOps(
    areaSphere: Ring -> real,                      // area_sphere, signed
    isValid: Multi -> bool,                        // is_valid
    buffer0: Multi -> Multi,                       // buffer(0)
    longMult: real -> real,                        // long_mult, of a latitude
    inRing: (Ring, Point) -> bool,                 // Path.contains_points, one point
    kmeans: (seq<Point>, nat) -> Option<seq<Point>>,  // cluster centres, None when fitting raises
    voronoi: seq<Point> -> Diagram,
    intersect: (Ring, Multi) -> Geom)

  ghost predicate VoronoiWellIndexed(ops: ScriptOps)
  {
    forall pts :: WellIndexed(ops.voronoi(pts))
  }

  /** What the region loop cuts: the region outlines and the repaired multipolygon. */
  datatype Cut = Cut(loops: seq<Ring>, multi: Multi)

  function RepairedMulti(m: Multi, ops: ScriptOps): Multi
  {
    if ops.isValid(m) then m else ops.buffer0(m)
  }

  /** The steps of the shape loop before the region loop, each with the way it stops the run. */
  function PrepareShape(shape: InShape, idx: Option<nat>, ops: ScriptOps): (r: Result<Cut, Abort>)
    requires VoronoiWellIndexed(ops)
    ensures r == Failure(NoDotname) <==> idx.None? || idx.value >= |shape.record|
    ensures r == Failure(Abort.NoOpenGroup) <==>
      idx.Some? && idx.value < |shape.record| && |shape.parts| > 0 && |shape.points| > 0 &&
      ops.areaSphere(PartRings(shape.points, shape.parts)[0]) <= 0.0
    ensures idx.Some? && idx.value < |shape.record| && |shape.parts| > 0 && |shape.points| == 0 ==> r == Failure(NoPoints)
    ensures r == Failure(NoPoints) ==> |shape.points| == 0
    ensures r.Success? ==> idx.Some? && idx.value < |shape.record| && |shape.points| > 0 && ops.isValid(r.value.multi)
  {
    if idx.None? || idx.value >= |shape.record| then Failure(NoDotname)
    else if |shape.parts| > 0 && |shape.points| == 0 then Failure(NoPoints)
    else
      var rings := PartRings(shape.points, shape.parts);
      GroupRingsFails(rings, ops.areaSphere);
      match GroupRings(rings, ops.areaSphere)
      case Failure(_) => Failure(Abort.NoOpenGroup)
      case Success(groups) =>
        GroupRingsSound(rings, ops.areaSphere);
        CutShape(shape, groups, NumBox(Sum(Areas(rings, ops.areaSphere))), ops)
  }

  /** The lattice over the shape's bounding box, stretched in longitude. */
  function ShapeMesh(shape: InShape, numBox: nat, ops: ScriptOps): seq<Point>
    requires |shape.points| > 0
  {
    StretchedLattice(XyMin(shape.points), XyMax(shape.points), PtsDim(numBox), ops.longMult)
  }

  /** The lattice points the grouped rule puts inside the shape: what k-means clusters. */
  function GroupedInterior(shape: InShape, groups: seq<seq<Ring>>, numBox: nat, ops: ScriptOps): seq<Point>
    requires |shape.points| > 0
  {
    Filter(ShapeMesh(shape, numBox, ops), p => GroupedIn(groups, p, ops.inRing))
  }

  /**
   * The second step: the multipolygon, repaired once, the lattice points
   * inside the groups, their clusters and the Voronoi outlines around them.
   * Each abort holds exactly when its check is the first to fail; a cut holds
   * one Voronoi outline per cluster centre and the repaired multipolygon.
   */
  function CutShape(shape: InShape, groups: seq<seq<Ring>>, numBox: nat, ops: ScriptOps): (r: Result<Cut, Abort>)
    requires VoronoiWellIndexed(ops) && forall k :: 0 <= k < |groups| ==> |groups[k]| > 0
    ensures r.Failure? ==> r.error != NoDotname && r.error != Abort.NoOpenGroup
    ensures r == Failure(InvalidShape) <==> !ops.isValid(RepairedMulti(GroupsToPolygons(groups), ops))
    ensures r == Failure(NoPoints) <==> ops.isValid(RepairedMulti(GroupsToPolygons(groups), ops)) && |shape.points| == 0
    ensures r == Failure(Abort.KMeansFailed) <==>
      ops.isValid(RepairedMulti(GroupsToPolygons(groups), ops)) && |shape.points| > 0 &&
      ops.kmeans(GroupedInterior(shape, groups, numBox, ops), numBox).None?
    ensures r == Failure(RegionCountMismatch) <==>
      ops.isValid(RepairedMulti(GroupsToPolygons(groups), ops)) && |shape.points| > 0 &&
      ops.kmeans(GroupedInterior(shape, groups, numBox, ops), numBox).Some? &&
      |Loops(ops.voronoi(ops.kmeans(GroupedInterior(shape, groups, numBox, ops), numBox).value + ExtPts()))| !=
        |ops.kmeans(GroupedInterior(shape, groups, numBox, ops), numBox).value|
    ensures r.Success? ==>
      |shape.points| > 0 && ops.isValid(r.value.multi) &&
      r.value.multi == RepairedMulti(GroupsToPolygons(groups), ops) &&
      ops.kmeans(GroupedInterior(shape, groups, numBox, ops), numBox).Some? &&
      r.value.loops == Loops(ops.voronoi(ops.kmeans(GroupedInterior(shape, groups, numBox, ops), numBox).value + ExtPts())) &&
      |r.value.loops| == |ops.kmeans(GroupedInterior(shape, groups, numBox, ops), numBox).value|
  {
    var m := RepairedMulti(GroupsToPolygons(groups), ops);
    if !ops.isValid(m) then Failure(InvalidShape)
    else if |shape.points| == 0 then Failure(NoPoints)
    else
      match ops.kmeans(GroupedInterior(shape, groups, numBox, ops), numBox)
      case None => Failure(Abort.KMeansFailed)
      case Some(centres) =>
        var loops := Loops(ops.voronoi(centres + ExtPts()));
        if |loops| != |centres| then Failure(RegionCountMismatch)
        else Success(Cut(loops, m))
  }

  /** Everything written so far, and the abort that ended the run. */
  datatype Output = Output(parts: seq<seq<Ring>>, records: seq<Record>, err: Option<Abort>)

  /** One pass of the region loop. */
  function EmitStep(out: Output, loop: Ring, k2: nat, m: Multi, rec: Record, idx: nat, ops: ScriptOps): Output
  {
    if out.err.Some? then out
    else if idx >= |rec| then out.(err := Some(NoDotname))
    else
      var g := ops.intersect(loop, m);
      if g.OtherResult? then out.(err := Some(Abort.UnsupportedGeometry))
      else out.(parts := out.parts + [PartsOf(g)], records := out.records + [SubRecord(rec, idx, k2)])
  }

  function EmitAll(out: Output, loops: seq<Ring>, m: Multi, rec: Record, idx: nat, ops: ScriptOps, n: nat): Output
    requires n <= |loops|
  {
    if n == 0 then out else EmitStep(EmitAll(out, loops, m, rec, idx, ops, n - 1), loops[n - 1], n - 1, m, rec, idx, ops)
  }

  /** The body of the shape loop. */
  function ProcessShape(out: Output, shape: InShape, idx: Option<nat>, ops: ScriptOps): Output
    requires VoronoiWellIndexed(ops)
  {
    if out.err.Some? then out
    else
      match PrepareShape(shape, idx, ops)
      case Failure(e) => out.(err := Some(e))
      case Success(cut) => EmitAll(out, cut.loops, cut.multi, shape.record, idx.value, ops, |cut.loops|)
  }

  /** The first `n` passes of the shape loop. */
  function Run(shapes: seq<InShape>, idx: Option<nat>, ops: ScriptOps, n: nat): Output
    requires VoronoiWellIndexed(ops) && n <= |shapes|
  {
    if n == 0 then Output([], [], None)
    else ProcessShape(Run(shapes, idx, ops, n - 1), shapes[n - 1], idx, ops)
  }

  // ---------------------------------------------------------------------------
  // Properties of the run

  /** Once the run has stopped, nothing more is written. */
  lemma {:induction false} RunStops(shapes: seq<InShape>, idx: Option<nat>, ops: ScriptOps, k: nat, n: nat)
    requires VoronoiWellIndexed(ops) && k <= n <= |shapes| && Run(shapes, idx, ops, k).err.Some?
    ensures Run(shapes, idx, ops, n) == Run(shapes, idx, ops, k)
    decreases n
  {
    if k < n {
      RunStops(shapes, idx, ops, k, n - 1);
    }
  }

  lemma {:induction false} EmitAllStops(out: Output, loops: seq<Ring>, m: Multi, rec: Record, idx: nat, ops: ScriptOps, k: nat, n: nat)
    requires idx < |rec| && k <= n <= |loops| && EmitAll(out, loops, m, rec, idx, ops, k).err.Some?
    ensures EmitAll(out, loops, m, rec, idx, ops, n) == EmitAll(out, loops, m, rec, idx, ops, k)
    decreases n
  {
    if k < n {
      EmitAllStops(out, loops, m, rec, idx, ops, k, n - 1);
    }
  }

  /** A pass that does not stop appends the region's rings and its renamed record. */
  lemma EmitStepAppends(out: Output, loop: Ring, k2: nat, m: Multi, rec: Record, idx: nat, ops: ScriptOps)
    requires idx < |rec| && EmitStep(out, loop, k2, m, rec, idx, ops).err.None?
    ensures out.err.None? && !ops.intersect(loop, m).OtherResult?
    ensures var r := EmitStep(out, loop, k2, m, rec, idx, ops);
      r.parts == out.parts + [PartsOf(ops.intersect(loop, m))] && r.records == out.records + [SubRecord(rec, idx, k2)]
  {
  }

  /** The last pass of a region loop that does not stop. */
  lemma EmitAllLast(out: Output, loops: seq<Ring>, m: Multi, rec: Record, idx: nat, ops: ScriptOps, n: nat)
    requires idx < |rec| && 0 < n <= |loops| && EmitAll(out, loops, m, rec, idx, ops, n).err.None?
    ensures EmitAll(out, loops, m, rec, idx, ops, n - 1).err.None? && !ops.intersect(loops[n - 1], m).OtherResult?
    ensures var prev := EmitAll(out, loops, m, rec, idx, ops, n - 1);
      var r := EmitAll(out, loops, m, rec, idx, ops, n);
      r.parts == prev.parts + [PartsOf(ops.intersect(loops[n - 1], m))] &&
      r.records == prev.records + [SubRecord(rec, idx, n - 1)]
  {
    EmitStepAppends(EmitAll(out, loops, m, rec, idx, ops, n - 1), loops[n - 1], n - 1, m, rec, idx, ops);
  }

  /** A region loop that runs to the end without stopping appends one sub-shape per region. */
  lemma EmitAllGrows(out: Output, loops: seq<Ring>, m: Multi, rec: Record, idx: nat, ops: ScriptOps, n: nat)
    requires idx < |rec| && n <= |loops| && EmitAll(out, loops, m, rec, idx, ops, n).err.None?
    ensures out.err.None?
    ensures var r := EmitAll(out, loops, m, rec, idx, ops, n);
      |r.parts| == |out.parts| + n && |r.records| == |out.records| + n &&
      r.parts == out.parts + RegionParts(loops, m, ops.intersect, n) &&
      r.records == out.records + RegionRecords(rec, idx, n)
  {
    EmitAllParts(out, loops, m, rec, idx, ops, n);
    EmitAllRecords(out, loops, m, rec, idx, ops, n);
  }

  lemma {:induction false} EmitAllParts(out: Output, loops: seq<Ring>, m: Multi, rec: Record, idx: nat, ops: ScriptOps, n: nat)
    requires idx < |rec| && n <= |loops| && EmitAll(out, loops, m, rec, idx, ops, n).err.None?
    ensures out.err.None?
    ensures EmitAll(out, loops, m, rec, idx, ops, n).parts == out.parts + RegionParts(loops, m, ops.intersect, n)
  {
    if n > 0 {
      EmitAllLast(out, loops, m, rec, idx, ops, n);
      EmitAllParts(out, loops, m, rec, idx, ops, n - 1);
      var p := PartsOf(ops.intersect(loops[n - 1], m));
      assert RegionParts(loops, m, ops.intersect, n) == RegionParts(loops, m, ops.intersect, n - 1) + [p];
      AppendAssoc(out.parts, RegionParts(loops, m, ops.intersect, n - 1), [p]);
    }
  }

  lemma {:induction false} EmitAllRecords(out: Output, loops: seq<Ring>, m: Multi, rec: Record, idx: nat, ops: ScriptOps, n: nat)
    requires idx < |rec| && n <= |loops| && EmitAll(out, loops, m, rec, idx, ops, n).err.None?
    ensures EmitAll(out, loops, m, rec, idx, ops, n).records == out.records + RegionRecords(rec, idx, n)
  {
    if n > 0 {
      EmitAllLast(out, loops, m, rec, idx, ops, n);
      EmitAllRecords(out, loops, m, rec, idx, ops, n - 1);
      AppendAssoc(out.records, RegionRecords(rec, idx, n - 1), [SubRecord(rec, idx, n - 1)]);
    }
  }

  /** Every region of a loop that does not stop has a supported intersection. */
  lemma {:induction false} EmitAllSupported(out: Output, loops: seq<Ring>, m: Multi, rec: Record, idx: nat, ops: ScriptOps, n: nat, k: nat)
    requires idx < |rec| && k < n <= |loops| && EmitAll(out, loops, m, rec, idx, ops, n).err.None?
    ensures !ops.intersect(loops[k], m).OtherResult?
  {
    EmitAllLast(out, loops, m, rec, idx, ops, n);
    if k < n - 1 {
      EmitAllSupported(out, loops, m, rec, idx, ops, n - 1, k);
    }
  }

  /**
   * Sub-shape `k` holds the rings of region `k`'s intersection with the
   * shape, exterior then holes per polygon, and the record with only the
   * `DOTNAME` field renamed to `dotname:A` and the four-digit index.
   */
  lemma EmitAllWrites(out: Output, loops: seq<Ring>, m: Multi, rec: Record, idx: nat, ops: ScriptOps, n: nat, k: nat)
    requires idx < |rec| && k < n <= |loops| && EmitAll(out, loops, m, rec, idx, ops, n).err.None?
    ensures !ops.intersect(loops[k], m).OtherResult?
    ensures |out.parts| + k < |EmitAll(out, loops, m, rec, idx, ops, n).parts|
    ensures |out.records| + k < |EmitAll(out, loops, m, rec, idx, ops, n).records|
    ensures EmitAll(out, loops, m, rec, idx, ops, n).parts[|out.parts| + k] == PartsOf(ops.intersect(loops[k], m))
    ensures EmitAll(out, loops, m, rec, idx, ops, n).records[|out.records| + k] == SubRecord(rec, idx, k)
  {
    EmitAllGrows(out, loops, m, rec, idx, ops, n);
    EmitAllSupported(out, loops, m, rec, idx, ops, n, k);
    RegionPartsAt(loops, m, ops.intersect, n, k);
    RegionRecordsAt(rec, idx, n, k);
  }

  /** Unlike the library version, a shape that fails any step stops the run with that reason and writes nothing for it. */
  lemma ProcessShapeStops(out: Output, shape: InShape, idx: Option<nat>, ops: ScriptOps)
    requires VoronoiWellIndexed(ops) && out.err.None? && PrepareShape(shape, idx, ops).Failure?
    ensures ProcessShape(out, shape, idx, ops) == out.(err := Some(PrepareShape(shape, idx, ops).error))
    ensures ProcessShape(out, shape, idx, ops).parts == out.parts && ProcessShape(out, shape, idx, ops).records == out.records
  {
  }

  /** The preconditions under which a shape's preparation yields the cut of its cluster centres. */
  ghost predicate ClustersCut(shape: InShape, idx: Option<nat>, ops: ScriptOps, groups: seq<seq<Ring>>, centres: seq<Point>)
    requires VoronoiWellIndexed(ops)
  {
    idx.Some? && idx.value < |shape.record| && |shape.points| > 0 &&
    GroupRings(PartRings(shape.points, shape.parts), ops.areaSphere) == Success(groups) &&
    (forall k :: 0 <= k < |groups| ==> |groups[k]| > 0) &&
    ops.isValid(RepairedMulti(GroupsToPolygons(groups), ops)) &&
    (var numBox := NumBox(Sum(Areas(PartRings(shape.points, shape.parts), ops.areaSphere)));
     ops.kmeans(GroupedInterior(shape, groups, numBox, ops), numBox) == Some(centres)) &&
    |Loops(ops.voronoi(centres + ExtPts()))| == |centres|
  }

  /** Under `ClustersCut`, preparation gives one Voronoi outline per centre and the repaired multipolygon. */
  lemma PrepareShapeCuts(shape: InShape, idx: Option<nat>, ops: ScriptOps, groups: seq<seq<Ring>>, centres: seq<Point>)
    requires VoronoiWellIndexed(ops) && ClustersCut(shape, idx, ops, groups, centres)
    ensures PrepareShape(shape, idx, ops) ==
      Success(Cut(Loops(ops.voronoi(centres + ExtPts())), RepairedMulti(GroupsToPolygons(groups), ops)))
  {
    var rings := PartRings(shape.points, shape.parts);
    GroupRingsSound(rings, ops.areaSphere);
    assert PrepareShape(shape, idx, ops) == CutShape(shape, groups, NumBox(Sum(Areas(rings, ops.areaSphere))), ops);
  }

  /**
   * A shape whose cut succeeds and whose regions are all written gets one
   * sub-shape per cluster centre: part `k` is Voronoi region `k` cut from the
   * repaired multipolygon, and record `k` is the shape's record renamed `k`.
   */
  lemma ProcessShapeEmits(out: Output, shape: InShape, idx: Option<nat>, ops: ScriptOps,
                          groups: seq<seq<Ring>>, centres: seq<Point>)
    requires VoronoiWellIndexed(ops) && out.err.None? && forall k :: 0 <= k < |groups| ==> |groups[k]| > 0
    requires ClustersCut(shape, idx, ops, groups, centres)
    requires ProcessShape(out, shape, idx, ops).err.None?
    ensures var r := ProcessShape(out, shape, idx, ops);
      |r.parts| == |out.parts| + |centres| && |r.records| == |out.records| + |centres| &&
      forall k :: 0 <= k < |centres| ==>
        var g := ops.intersect(Loops(ops.voronoi(centres + ExtPts()))[k], RepairedMulti(GroupsToPolygons(groups), ops));
        !g.OtherResult? && r.parts[|out.parts| + k] == PartsOf(g) &&
        r.records[|out.records| + k] == SubRecord(shape.record, idx.value, k)
  {
    var loops := Loops(ops.voronoi(centres + ExtPts()));
    var m := RepairedMulti(GroupsToPolygons(groups), ops);
    PrepareShapeCuts(shape, idx, ops, groups, centres);
    assert ProcessShape(out, shape, idx, ops) == EmitAll(out, loops, m, shape.record, idx.value, ops, |loops|);
    EmitAllGrows(out, loops, m, shape.record, idx.value, ops, |loops|);
    forall k | 0 <= k < |centres|
      ensures !ops.intersect(loops[k], m).OtherResult?
      ensures EmitAll(out, loops, m, shape.record, idx.value, ops, |loops|).parts[|out.parts| + k] == PartsOf(ops.intersect(loops[k], m))
      ensures EmitAll(out, loops, m, shape.record, idx.value, ops, |loops|).records[|out.records| + k] == SubRecord(shape.record, idx.value, k)
    {
      EmitAllWrites(out, loops, m, shape.record, idx.value, ops, |loops|, k);
    }
  }

  /** The whole script: the field copy, then the shape loop with the `DOTNAME` position. */
  function ShapeDivideSpec(fields: seq<Field>, shapes: seq<InShape>, ops: ScriptOps): Output
    requires VoronoiWellIndexed(ops)
  {
    Run(shapes, DotnameIndex(fields, |fields|), ops, |shapes|)
  }

  /** Without a `DOTNAME` field the run stops at its first shape, having written nothing. */
  lemma NoDotnameStops(fields: seq<Field>, shapes: seq<InShape>, ops: ScriptOps)
    requires VoronoiWellIndexed(ops) && |shapes| > 0
    requires forall k :: 1 <= k < |fields| ==> fields[k].name != "DOTNAME"
    ensures ShapeDivideSpec(fields, shapes, ops) == Output([], [], Some(NoDotname))
  {
    DotnameIndexLast(fields, |fields|);
    RunStops(shapes, DotnameIndex(fields, |fields|), ops, 1, |shapes|);
  }

  // ---------------------------------------------------------------------------
  // The writer and the procedure

  /** The polygon shapefile writer: fields, then shapes and records in the order written. */
  class PolyWriter {
    const fields: seq<Field>
    var parts: seq<seq<Ring>>
    var records: seq<Record>

    constructor (fields: seq<Field>)
      ensures this.fields == fields && parts == [] && records == []
    {
      this.fields := fields;
      parts := [];
      records := [];
    }

    method Poly(p: seq<Ring>)
      modifies this
      ensures parts == old(parts) + [p] && records == old(records)
    {
      parts := parts + [p];
    }

    method AddRecord(r: Record)
      modifies this
      ensures records == old(records) + [r] && parts == old(parts)
    {
      records := records + [r];
    }
  }

  /** The inner loop of `poly_as_list`: one polygon's exterior, then each of its interiors. */
  method AppendPolygon(acc: seq<Ring>, poly: Polygon) returns (r: seq<Ring>)
    ensures r == acc + PolygonRings(poly)
  {
    r := acc + [poly.exterior];
    for j := 0 to |poly.interiors|
      invariant r == acc + [poly.exterior] + poly.interiors[..j]
    {
      assert poly.interiors[..j + 1] == poly.interiors[..j] + [poly.interiors[j]];
      r := r + [poly.interiors[j]];
    }
    assert poly.interiors[..|poly.interiors|] == poly.interiors;
  }

  lemma AllPolygonRingsStep(polys: seq<Polygon>, i: nat)
    requires i < |polys|
    ensures Flatten(AllPolygonRings(polys[..i + 1])) == Flatten(AllPolygonRings(polys[..i])) + PolygonRings(polys[i])
  {
    assert AllPolygonRings(polys[..i + 1]) == AllPolygonRings(polys[..i]) + [PolygonRings(polys[i])];
    FlattenAppend(AllPolygonRings(polys[..i]), [PolygonRings(polys[i])]);
    assert Flatten([PolygonRings(polys[i])]) == PolygonRings(polys[i]) + Flatten([]);
  }

  /** `poly_as_list`: polygon by polygon, the exterior then each interior, for a Polygon and a MultiPolygon alike. */
  method PolyAsList(g: Geom) returns (polyAsList: seq<Ring>)
    requires !g.OtherResult?
    ensures polyAsList == PartsOf(g)
  {
    var polys := if g.MultiResult? then g.ps else [g.p];
    polyAsList := [];
    for i := 0 to |polys|
      invariant polyAsList == Flatten(AllPolygonRings(polys[..i]))
    {
      AllPolygonRingsStep(polys, i);
      polyAsList := AppendPolygon(polyAsList, polys[i]);
    }
    assert polys[..|polys|] == polys;
    PolygonsToPartsOrder(polys);
  }

  /** The region loop for one shape. */
  method WriteRegions(w: PolyWriter, loops: seq<Ring>, m: Multi, rec: Record, idx: nat, ops: ScriptOps, ghost out: Output)
    returns (err: Option<Abort>, ghost out': Output)
    requires idx < |rec| && out.err.None? && w.parts == out.parts && w.records == out.records
    modifies w
    ensures out' == EmitAll(out, loops, m, rec, idx, ops, |loops|)
    ensures w.parts == out'.parts && w.records == out'.records && err == out'.err
  {
    out', err := out, None;
    for k2 := 0 to |loops|
      invariant out' == EmitAll(out, loops, m, rec, idx, ops, k2)
      invariant out'.err.None? && err.None? && w.parts == out'.parts && w.records == out'.records
    {
      ghost var next := EmitStep(out', loops[k2], k2, m, rec, idx, ops);
      assert next == EmitAll(out, loops, m, rec, idx, ops, k2 + 1);
      var polyReg := ops.intersect(loops[k2], m);
      var newRecs := rec[idx := SubName(rec[idx], k2)];
      assert newRecs == SubRecord(rec, idx, k2);
      if polyReg.OtherResult? {
        err := Some(Abort.UnsupportedGeometry);
        out' := next;
        EmitAllStops(out, loops, m, rec, idx, ops, k2 + 1, |loops|);
        return;
      }
      var polyAsList := PolyAsList(polyReg);
      w.Poly(polyAsList);
      w.AddRecord(newRecs);
      out' := next;
    }
  }

  /** The steps of one pass of the shape loop before the region loop. */
  method Prepare(shape: InShape, idx: Option<nat>, ops: ScriptOps) returns (r: Result<Cut, Abort>)
    requires VoronoiWellIndexed(ops)
    ensures r == PrepareShape(shape, idx, ops)
  {
    if idx.None? || idx.value >= |shape.record| {
      return Failure(NoDotname);
    }
    if |shape.parts| > 0 && |shape.points| == 0 {
      // the first part's `[a:b, :]` indexes a 1-D empty array
      return Failure(NoPoints);
    }
    var rings := PartRings(shape.points, shape.parts);
    var shpList, totArea := GroupParts(rings, ops.areaSphere);
    if shpList.Failure? {
      return Failure(Abort.NoOpenGroup);
    }
    var groups := shpList.value;
    GroupRingsSound(rings, ops.areaSphere);
    r := CutRegions(shape, groups, NumBox(totArea), ops);
  }

  /** The mesh, the clustering and the Voronoi outlines of one shape. */
  method CutRegions(shape: InShape, groups: seq<seq<Ring>>, numBox: nat, ops: ScriptOps) returns (r: Result<Cut, Abort>)
    requires VoronoiWellIndexed(ops) && forall k :: 0 <= k < |groups| ==> |groups[k]| > 0
    ensures r == CutShape(shape, groups, numBox, ops)
  {
    var ptsDim := PtsDim(numBox);
    var mltigon := GroupsToPolygons(groups);
    if !ops.isValid(mltigon) {
      mltigon := ops.buffer0(mltigon);
    }
    if !ops.isValid(mltigon) {
      return Failure(InvalidShape);
    }
    if |shape.points| == 0 {
      return Failure(NoPoints);
    }
    var ptsVec := StretchedLattice(XyMin(shape.points), XyMax(shape.points), ptsDim, ops.longMult);
    var inBool := GroupedInside(groups, ptsVec, ops.inRing);
    MaskFilter(ptsVec, inBool, p => GroupedIn(groups, p, ops.inRing));
    var subClust := ops.kmeans(Mask(ptsVec, inBool), numBox);
    if subClust.None? {
      return Failure(Abort.KMeansFailed);
    }
    var subNode := subClust.value;
    var vorList := ExtractRegions(ops.voronoi(subNode + ExtPts()));
    if |vorList| != |subNode| {
      return Failure(RegionCountMismatch);
    }
    r := Success(Cut(vorList, mltigon));
  }

  /**
   * The script: copy the fields, then for every shape prepare it and write a
   * sub-shape per region; the first abort ends the run with what was
   * written so far.
   */
  method ShapeDivideRun(fields: seq<Field>, shapes: seq<InShape>, ops: ScriptOps) returns (w: PolyWriter, err: Option<Abort>)
    requires VoronoiWellIndexed(ops)
    ensures fresh(w)
    ensures var out := ShapeDivideSpec(fields, shapes, ops);
      w.parts == out.parts && w.records == out.records && err == out.err
  {
    var outFields, dotnameIndex := CopyFields(fields);
    w := new PolyWriter(outFields);
    err := ShapeLoop(w, shapes, dotnameIndex, ops);
  }

  /** The shape loop: prepare each shape, then write its regions; the first abort ends it. */
  method ShapeLoop(w: PolyWriter, shapes: seq<InShape>, dotnameIndex: Option<nat>, ops: ScriptOps) returns (err: Option<Abort>)
    requires VoronoiWellIndexed(ops) && w.parts == [] && w.records == []
    modifies w
    ensures var out := Run(shapes, dotnameIndex, ops, |shapes|);
      w.parts == out.parts && w.records == out.records && err == out.err
  {
    err := None;
    ghost var out := Run(shapes, dotnameIndex, ops, 0);
    for k1 := 0 to |shapes|
      invariant out == Run(shapes, dotnameIndex, ops, k1)
      invariant out.err.None? && err.None? && w.parts == out.parts && w.records == out.records
    {
      var shape := shapes[k1];
      var cut := Prepare(shape, dotnameIndex, ops);
      if cut.Failure? {
        err := Some(cut.error);
        out := Run(shapes, dotnameIndex, ops, k1 + 1);
        RunStops(shapes, dotnameIndex, ops, k1 + 1, |shapes|);
        return;
      }
      err, out := WriteRegions(w, cut.value.loops, cut.value.multi, shape.record, dotnameIndex.value, ops, out);
      if err.Some? {
        RunStops(shapes, dotnameIndex, ops, k1 + 1, |shapes|);
        return;
      }
    }
  }
}

=== FILE: subdivide.dfy ===
/**
 * `shape_subdivide` in `rastertools/shape.py`: split every multipolygon into
 * about one sub-shape per 100 km^2 by clustering a stretched lattice of
 * interior points and cutting the shape along the Voronoi cells of the
 * cluster centres. The geometry itself (area on the ellipsoid, validity and
 * repair, containment, k-means, Voronoi, intersection) is supplied by `Ops`;
 * this module states what the code does with those results.
 */
module Subdivide {
  import opened Wrappers
  import opened Seqs
  import opened Numeric
  import opened Text
  import opened Geometry

  /** A shape record: its field values in the input file's field order, as text. */
  type Record = seq<string>

  /** A multipolygon: its member polygons. */
  type Multi = seq<Polygon>

  /** A Voronoi diagram: its vertices and, per region, vertex indices; -1 is the vertex at infinity. */
  datatype Diagram = Diagram(vertices: seq<Point>, regions: seq<seq<int>>)

  /** The result of intersecting a Voronoi cell with the shape. */
  datatype Geom = PolygonResult(p: Polygon) | MultiResult(ps: seq<Polygon>) | OtherResult

  /** The foreign geometry and clustering the procedure relies on. */
  datatype Ops = Ops(
    areaKm2: Multi -> real,                      // polygon_area_km2
    isValid: Multi -> bool,                      // is_valid
    buffer0: Multi -> Multi,                     // buffer(0)
    bounds: Multi -> (Point, Point),             // (minx, miny), (maxx, maxy)
    longMult: real -> real,                      // long_mult, of a latitude
    contains: (Multi, Point) -> bool,            // polygon_contains, one point
    kmeans: (seq<Point>, nat) -> Option<seq<Point>>,  // cluster centres, None when fitting raises
    voronoi: seq<Point> -> Diagram,
    intersect: (Ring, Multi) -> Geom)

  /** Every region index the Voronoi routine returns is -1 or a vertex index. */
  predicate WellIndexed(d: Diagram)
  {
    forall r :: r in d.regions ==> forall i :: i in r ==> i == -1 || 0 <= i < |d.vertices|
  }

  ghost predicate ValidOps(ops: Ops)
  {
    forall pts :: WellIndexed(ops.voronoi(pts))
  }

  // ---------------------------------------------------------------------------
  // Writer fields and the name index

  /** The output field names: `shape_attr` first, then the input fields other than the deletion flag and `shape_attr`. */
  function WriterFields(shapeAttr: string, inFields: seq<string>): (r: seq<string>)
    ensures |r| >= 1 && r[0] == shapeAttr
    ensures forall i :: 1 <= i < |r| ==> r[i] != shapeAttr && r[i] != "DeletionFlag" && r[i] in inFields
  {
    var rest := Filter(inFields, f => f != "DeletionFlag" && f != shapeAttr);
    assert forall i :: 0 <= i < |rest| ==> rest[i] in rest;
    [shapeAttr] + rest
  }

  /** `list.index`: the position of the first occurrence. */
  function IndexOf(s: seq<string>, x: string): (i: nat)
    requires x in s
    ensures i < |s| && s[i] == x && forall j :: 0 <= j < i ==> s[j] != x
  {
    if s[0] == x then 0 else 1 + IndexOf(s[1..], x)
  }

  /**
   * `dotname_index` is looked up in the writer's field list, where `shape_attr`
   * always comes first, so it is 0 whatever the input fields are; it is then
   * used to index the input record.
   */
  lemma DotnameIndexIsZero(shapeAttr: string, inFields: seq<string>)
    ensures shapeAttr in WriterFields(shapeAttr, inFields)
    ensures IndexOf(WriterFields(shapeAttr, inFields), shapeAttr) == 0
  {
  }

  // ---------------------------------------------------------------------------
  // Box count and lattice

  /** `max(int(round(area / 100)), 1)`. */
  function NumBox(area: real): nat
  {
    var r := RoundHalfEven(area / 100.0);
    if r < 1 then 1 else r
  }

  /** At least one box, and the rounded area/100 whenever that is at least 1. */
  lemma NumBoxBounds(area: real)
    ensures NumBox(area) >= 1
    ensures NumBox(area) as real >= area / 100.0 - 0.5
    ensures RoundHalfEven(area / 100.0) >= 1 ==> NumBox(area) == RoundHalfEven(area / 100.0)
  {
  }

  /** `int(ceil(sqrt(250 * num_box)))`. */
  function PtsDim(numBox: nat): nat
  {
    CeilSqrt(250 * numBox)
  }

  lemma SquareMono(r: nat, k: nat)
    ensures r <= k ==> r * r <= k * k
  {
    if r <= k {
      assert r * r <= r * k;
    }
  }

  /** The lattice side is the integer ceiling square root of 250 boxes per cluster, and at least 16. */
  lemma PtsDimBounds(numBox: nat)
    requires numBox >= 1
    ensures PtsDim(numBox) * PtsDim(numBox) >= 250 * numBox
    ensures (PtsDim(numBox) - 1) * (PtsDim(numBox) - 1) < 250 * numBox
    ensures PtsDim(numBox) >= 16
  {
    SquareMono(PtsDim(numBox), 15);
  }

  /** The spacing of `np.linspace(a, b, n)`. */
  function LinStep(a: real, b: real, n: nat): real
    requires n > 1
  {
    (b - a) / ((n - 1) as real)
  }

  /** `np.linspace(a, b, n)`: `a + i * step`, the last value set to `b`. */
  function Linspace(a: real, b: real, n: nat): (r: seq<real>)
    ensures |r| == n
  {
    seq(n, i requires 0 <= i < n =>
      if n > 1 && i == n - 1 then b
      else if n == 1 then a
      else a + (i as real) * LinStep(a, b, n))
  }

  /** Both endpoints are included, and rising bounds give rising values that stay within the bounds. */
  lemma LinspaceWithin(a: real, b: real, n: nat, i: nat, j: nat)
    requires a <= b && i <= j < n
    ensures n >= 2 ==> Linspace(a, b, n)[0] == a && Linspace(a, b, n)[n - 1] == b
    ensures a <= Linspace(a, b, n)[i] <= Linspace(a, b, n)[j] <= b
  {
    if n > 1 {
      LinspaceRises(a, b, n, 0, i);
      LinspaceRises(a, b, n, i, j);
      LinspaceRises(a, b, n, j, n - 1);
    }
  }

  /** Each value is the previous one plus the spacing. */
  lemma LinspaceSucc(a: real, b: real, n: nat, k: nat)
    requires 1 < n && k + 1 < n
    ensures Linspace(a, b, n)[k + 1] == Linspace(a, b, n)[k] + LinStep(a, b, n)
  {
    var s := LinStep(a, b, n);
    if k + 1 == n - 1 {
      assert ((n - 1) as real) * s == b - a;
      assert ((k + 1) as real) * s == (k as real) * s + s;
    } else {
      assert ((k + 1) as real) * s == (k as real) * s + s;
    }
  }

  /** With `a <= b` the values never decrease. */
  lemma {:induction false} LinspaceRises(a: real, b: real, n: nat, i: nat, j: nat)
    requires a <= b && 1 < n && i <= j < n
    ensures Linspace(a, b, n)[0] == a && Linspace(a, b, n)[n - 1] == b
    ensures Linspace(a, b, n)[i] <= Linspace(a, b, n)[j]
    decreases j
  {
    assert LinStep(a, b, n) >= 0.0;
    if i < j {
      LinspaceRises(a, b, n, i, j - 1);
      LinspaceSucc(a, b, n, j - 1);
    }
  }

  /** `np.meshgrid(xs, ys)`: one row per y, x varying along each row. */
  function Meshgrid(xs: seq<real>, ys: seq<real>): (seq<seq<real>>, seq<seq<real>>)
  {
    (seq(|ys|, _ => xs), seq(|ys|, r requires 0 <= r < |ys| => seq(|xs|, _ => ys[r])))
  }

  /** The two grids reshaped row-major and paired into points. */
  function Lattice(xs: seq<real>, ys: seq<real>): seq<Point>
  {
    var grids := Meshgrid(xs, ys);
    var fx, fy := Flatten(grids.0), Flatten(grids.1);
    var n := if |fx| < |fy| then |fx| else |fy|;
    seq(n, k requires 0 <= k < n => Point(fx[k], fy[k]))
  }

  lemma {:induction false} FlattenUniformLength<T>(rows: seq<seq<T>>, w: nat)
    requires forall r :: 0 <= r < |rows| ==> |rows[r]| == w
    ensures |Flatten(rows)| == |rows| * w
  {
    if rows != [] {
      FlattenUniformLength(rows[1..], w);
      assert |rows| * w == w + (|rows| - 1) * w;
    }
  }

  /** Row-major flattening of rows that all have width `w`: cell `(r, c)` lands at `r * w + c`. */
  lemma {:induction false} FlattenUniformAt<T>(rows: seq<seq<T>>, w: nat, r: nat, c: nat)
    requires forall k :: 0 <= k < |rows| ==> |rows[k]| == w
    requires r < |rows| && c < w
    ensures r * w + c < |Flatten(rows)| && Flatten(rows)[r * w + c] == rows[r][c]
  {
    if r > 0 {
      FlattenUniformAt(rows[1..], w, r - 1, c);
      assert r * w + c == w + ((r - 1) * w + c);
    }
  }

  /** The lattice has one point per grid cell; the point at `r * w + c` is `(xs[c], ys[r])`. */
  lemma LatticeAt(xs: seq<real>, ys: seq<real>, r: nat, c: nat)
    requires r < |ys| && c < |xs|
    ensures |Lattice(xs, ys)| == |ys| * |xs|
    ensures r * |xs| + c < |Lattice(xs, ys)| && Lattice(xs, ys)[r * |xs| + c] == Point(xs[c], ys[r])
  {
    var grids := Meshgrid(xs, ys);
    FlattenUniformLength(grids.0, |xs|);
    FlattenUniformLength(grids.1, |xs|);
    FlattenUniformAt(grids.0, |xs|, r, c);
    FlattenUniformAt(grids.1, |xs|, r, c);
  }

  /** The longitude stretch `x * m - x0 * (m - 1)` with `m` the factor at the point's latitude. */
  function Stretch(p: Point, x0: real, longMult: real -> real): Point
  {
    Point(p.x * longMult(p.y) - x0 * (longMult(p.y) - 1.0), p.y)
  }

  /**
   * The stretch is `x0 + (x - x0) * m`: latitude is untouched, the western
   * edge stays put, and with `m >= 1` no point east of it moves west.
   */
  lemma StretchAnchored(p: Point, x0: real, longMult: real -> real)
    ensures Stretch(p, x0, longMult).x == x0 + (p.x - x0) * longMult(p.y)
    ensures Stretch(p, x0, longMult).y == p.y
    ensures p.x == x0 ==> Stretch(p, x0, longMult) == p
    ensures longMult(p.y) >= 1.0 && p.x >= x0 ==> Stretch(p, x0, longMult).x >= p.x
  {
    var m := longMult(p.y);
    if m >= 1.0 && p.x >= x0 {
      var d := p.x - x0;
      assert d * m == d + d * (m - 1.0);
      assert d * (m - 1.0) >= 0.0;
    }
  }

  /** The `d` by `d` lattice over the box from `lo` to `hi`, stretched about the western edge. */
  function StretchedLattice(lo: Point, hi: Point, d: nat, longMult: real -> real): (r: seq<Point>)
  {
    var lattice := Lattice(Linspace(lo.x, hi.x, d), Linspace(lo.y, hi.y, d));
    seq(|lattice|, i requires 0 <= i < |lattice| => Stretch(lattice[i], lo.x, longMult))
  }

  /**
   * The stretched lattice has `d * d` points; point `r * d + c` is the
   * stretched `(xs[c], ys[r])`, which keeps its latitude within the box.
   */
  lemma StretchedLatticeAt(lo: Point, hi: Point, d: nat, longMult: real -> real, r: nat, c: nat)
    requires lo.x <= hi.x && lo.y <= hi.y && r < d && c < d
    ensures |StretchedLattice(lo, hi, d, longMult)| == d * d
    ensures r * d + c < d * d
    ensures StretchedLattice(lo, hi, d, longMult)[r * d + c] ==
      Stretch(Point(Linspace(lo.x, hi.x, d)[c], Linspace(lo.y, hi.y, d)[r]), lo.x, longMult)
    ensures lo.y <= StretchedLattice(lo, hi, d, longMult)[r * d + c].y <= hi.y
  {
    LatticeAt(Linspace(lo.x, hi.x, d), Linspace(lo.y, hi.y, d), r, c);
    LinspaceWithin(lo.y, hi.y, d, r, r);
  }

  /** The stretched lattice spanning the shape's bounds. */
  function MeshPoints(m: Multi, d: nat, ops: Ops): (r: seq<Point>)
  {
    var (lo, hi) := ops.bounds(m);
    StretchedLattice(lo, hi, d, ops.longMult)
  }

  // ---------------------------------------------------------------------------
  // Voronoi regions

  /** A region is kept when it is bounded (no -1) and not empty. */
  predicate Keep(reg: seq<int>)
  {
    |reg| > 0 && -1 !in reg
  }

  /** A kept region of a well-indexed diagram indexes only real vertices. */
  lemma KeptIndexes(d: Diagram, reg: seq<int>)
    requires WellIndexed(d) && reg in d.regions && Keep(reg)
    ensures forall i :: 0 <= i < |reg| ==> 0 <= reg[i] < |d.vertices|
  {
    forall i | 0 <= i < |reg| ensures 0 <= reg[i] < |d.vertices| {
      assert reg[i] in reg;
    }
  }

  /** The region's vertices with its first vertex repeated at the end. */
  function Closed(d: Diagram, reg: seq<int>): (loop: Ring)
    requires |reg| > 0 && forall i :: 0 <= i < |reg| ==> 0 <= reg[i] < |d.vertices|
    ensures |loop| == |reg| + 1 && loop[|reg|] == loop[0]
    ensures forall i :: 0 <= i < |reg| ==> loop[i] == d.vertices[reg[i]]
  {
    seq(|reg|, i requires 0 <= i < |reg| => d.vertices[reg[i]]) + [d.vertices[reg[0]]]
  }

  /** The closed outlines of the kept regions, in region order. */
  function Loops(d: Diagram): (r: seq<Ring>)
    requires WellIndexed(d)
    ensures |r| == |Filter(d.regions, Keep)|
  {
    var kept := Filter(d.regions, Keep);
    seq(|kept|, j requires 0 <= j < |kept| => assert kept[j] in kept; KeptIndexes(d, kept[j]); Closed(d, kept[j]))
  }

  /** Exactly the bounded non-empty regions are kept, in order, each closed at its first vertex. */
  lemma LoopsExact(d: Diagram)
    requires WellIndexed(d)
    ensures forall reg :: reg in Filter(d.regions, Keep) <==> reg in d.regions && Keep(reg)
    ensures forall j :: 0 <= j < |Loops(d)| ==>
      |Loops(d)[j]| == |Filter(d.regions, Keep)[j]| + 1 && Loops(d)[j][|Loops(d)[j]| - 1] == Loops(d)[j][0]
  {
    forall reg | reg in d.regions && Keep(reg) ensures reg in Filter(d.regions, Keep) {
      FilterComplete(d.regions, Keep, reg);
    }
  }

  /** The region loop: skip unbounded or empty regions, close the others. */
  method ExtractRegions(d: Diagram) returns (vorList: seq<Ring>)
    requires WellIndexed(d)
    ensures vorList == Loops(d)
  {
    vorList := [];
    ghost var seen: seq<seq<int>> := [];
    for k := 0 to |d.regions|
      invariant seen == d.regions[..k]
      invariant |vorList| == |Filter(seen, Keep)|
      invariant forall j :: 0 <= j < |vorList| ==>
        Filter(seen, Keep)[j] in d.regions && Keep(Filter(seen, Keep)[j]) &&
        (KeptIndexes(d, Filter(seen, Keep)[j]); vorList[j] == Closed(d, Filter(seen, Keep)[j]))
    {
      var reg := d.regions[k];
      FilterAppend(seen, [reg], Keep);
      assert d.regions[..k + 1] == seen + [reg];
      seen := seen + [reg];
      if |reg| > 0 && -1 !in reg {
        assert reg in d.regions;
        KeptIndexes(d, reg);
        vorList := vorList + [Closed(d, reg)];
      }
    }
    assert d.regions[..|d.regions|] == d.regions;
  }

  // ---------------------------------------------------------------------------
  // Naming and records

  /** `f"{dotname}:A{k2:04d}"`. */
  function SubName(dotname: string, k2: nat): string
  {
    dotname + ":A" + Format04(k2)
  }

  /** A sub-shape name is the dotname, then `:A`, then at least four digits. */
  lemma SubNameShape(dotname: string, k2: nat)
    ensures StartsWith(SubName(dotname, k2), dotname + ":A") && |SubName(dotname, k2)| >= |dotname| + 6
  {
  }

  /** Different sub-shape indices give different names. */
  lemma SubNameDistinct(dotname: string, i: nat, j: nat)
    requires SubName(dotname, i) == SubName(dotname, j)
    ensures i == j
  {
    var p := dotname + ":A";
    assert SubName(dotname, i)[|p|..] == Format04(i);
    assert SubName(dotname, j)[|p|..] == Format04(j);
    Format04Injective(i, j);
  }

  /** The copied record with the name field replaced by the sub-shape name. */
  function SubRecord(rec: Record, idx: nat, k2: nat): Record
    requires idx < |rec|
  {
    rec[idx := SubName(rec[idx], k2)]
  }

  /** The copied record differs from the input only at the name index, which holds the sub-shape name. */
  lemma SubRecordFields(rec: Record, idx: nat, k2: nat)
    requires idx < |rec|
    ensures |SubRecord(rec, idx, k2)| == |rec| && SubRecord(rec, idx, k2)[idx] == SubName(rec[idx], k2)
    ensures forall i :: 0 <= i < |rec| && i != idx ==> SubRecord(rec, idx, k2)[i] == rec[i]
  {
  }

  /** The rings written for one intersection: `polygons_to_parts` of its member polygons. */
  function PartsOf(g: Geom): seq<Ring>
    requires !g.OtherResult?
  {
    PolygonsToParts(if g.MultiResult? then g.ps else [g.p])
  }

  // ---------------------------------------------------------------------------
  // The run, as a specification

  datatype SubdivideError =
    | RecordMissing          // fewer records than multipolygons
    | FieldMissing           // the record has no field at the name index
    | UnsupportedGeometry    // the intersection is neither a Polygon nor a MultiPolygon
    | KMeansFailed
    | NoRecordForCentres     // centre points before any sub-shape record exists

  /** Everything written so far, the last sub-shape record, and the error that ended the run. */
  datatype RunState = RunState(parts: seq<seq<Ring>>, records: seq<Record>,
                               centres: seq<Point>, centreRecords: seq<Record>,
                               last: Option<Record>, err: Option<SubdivideError>)

  /** One pass of the region loop. */
  function EmitRegion(st: RunState, loop: Ring, k2: nat, m: Multi, rec: Option<Record>, idx: nat, ops: Ops): RunState
  {
    if st.err.Some? then st
    else if rec.None? then st.(err := Some(RecordMissing))
    else if idx >= |rec.value| then st.(err := Some(FieldMissing))
    else
      var newRec := SubRecord(rec.value, idx, k2);
      var g := ops.intersect(loop, m);
      if g.OtherResult? then st.(last := Some(newRec), err := Some(UnsupportedGeometry))
      else st.(parts := st.parts + [PartsOf(g)], records := st.records + [newRec], last := Some(newRec))
  }

  function EmitRegions(st: RunState, loops: seq<Ring>, m: Multi, rec: Option<Record>, idx: nat, ops: Ops, n: nat): RunState
    requires n <= |loops|
  {
    if n == 0 then st else EmitRegion(EmitRegions(st, loops, m, rec, idx, ops, n - 1), loops[n - 1], n - 1, m, rec, idx, ops)
  }

  /** One centre point, written with the last sub-shape record. */
  function EmitCentre(st: RunState, c: Point): RunState
  {
    if st.err.Some? then st
    else if st.last.None? then st.(err := Some(NoRecordForCentres))
    else st.(centres := st.centres + [c], centreRecords := st.centreRecords + [st.last.value])
  }

  function EmitCentres(st: RunState, centres: seq<Point>, n: nat): RunState
    requires n <= |centres|
  {
    if n == 0 then st else EmitCentre(EmitCentres(st, centres, n - 1), centres[n - 1])
  }

  /** The four far-away points added to the cluster centres before the Voronoi step. */
  function ExtPts(): seq<Point>
  {
    [Point(-200.0, -200.0), Point(200.0, -200.0), Point(-200.0, 200.0), Point(200.0, 200.0)]
  }

  /** `buffer(0)` is tried once when the multipolygon is not valid. */
  function Repaired(multi: Multi, ops: Ops): Multi
  {
    if ops.isValid(multi) then multi else ops.buffer0(multi)
  }

  /** The interior lattice points of the repaired multipolygon. */
  function InteriorPoints(multi: Multi, ops: Ops): seq<Point>
  {
    var m := Repaired(multi, ops);
    Filter(MeshPoints(m, PtsDim(NumBox(ops.areaKm2(multi))), ops), p => ops.contains(m, p))
  }

  /** The body of the shape loop. */
  function ProcessShape(st: RunState, multi: Multi, rec: Option<Record>, idx: nat, ops: Ops, outCentres: bool): RunState
    requires ValidOps(ops)
  {
    if st.err.Some? then st
    else
      var m := Repaired(multi, ops);
      if !ops.isValid(m) then st
      else
        match ops.kmeans(InteriorPoints(multi, ops), NumBox(ops.areaKm2(multi)))
        case None => st.(err := Some(KMeansFailed))
        case Some(centres) =>
          var loops := Loops(ops.voronoi(centres + ExtPts()));
          if |loops| != |centres| then st
          else
            var st2 := EmitRegions(st, loops, m, rec, idx, ops, |loops|);
            if outCentres then EmitCentres(st2, centres, |centres|) else st2
  }

  function RecordAt(recs: seq<Record>, k: nat): Option<Record>
  {
    if k < |recs| then Some(recs[k]) else None
  }

  /** The first `n` passes of the shape loop. */
  function Run(multis: seq<Multi>, recs: seq<Record>, idx: nat, ops: Ops, outCentres: bool, n: nat): RunState
    requires ValidOps(ops) && n <= |multis|
  {
    if n == 0 then RunState([], [], [], [], None, None)
    else ProcessShape(Run(multis, recs, idx, ops, outCentres, n - 1), multis[n - 1], RecordAt(recs, n - 1), idx, ops, outCentres)
  }

  /** `multi_list[:top_n or len(multi_list)]`, as a count: Python slicing with a possibly negative bound. */
  function Count(topN: Option<int>, n: nat): (r: nat)
    ensures r <= n
    ensures topN.None? || topN == Some(0) ==> r == n
    ensures topN.Some? && topN.value > 0 ==> r == if topN.value < n then topN.value else n
    ensures topN.Some? && topN.value < 0 ==> r == if n + topN.value < 0 then 0 else n + topN.value
  {
    var t := if topN.None? || topN.value == 0 then n else topN.value;
    if t >= 0 then (if t < n then t else n)
    else if n + t < 0 then 0 else n + t
  }

  function Subdivide(multis: seq<Multi>, recs: seq<Record>, shapeAttr: string, inFields: seq<string>,
                     topN: Option<int>, ops: Ops, outCentres: bool): RunState
    requires ValidOps(ops)
  {
    var fields := WriterFields(shapeAttr, inFields);
    Run(multis, recs, IndexOf(fields, shapeAttr), ops, outCentres, Count(topN, |multis|))
  }

  // ---------------------------------------------------------------------------
  // Properties of the run

  lemma {:induction false} EmitRegionsFrozen(st: RunState, loops: seq<Ring>, m: Multi, rec: Option<Record>, idx: nat, ops: Ops, n: nat)
    requires n <= |loops| && st.err.Some?
    ensures EmitRegions(st, loops, m, rec, idx, ops, n) == st
  {
    if n > 0 {
      EmitRegionsFrozen(st, loops, m, rec, idx, ops, n - 1);
    }
  }

  lemma {:induction false} EmitRegionsStays(st: RunState, loops: seq<Ring>, m: Multi, rec: Option<Record>, idx: nat, ops: Ops, k: nat, n: nat)
    requires k <= n <= |loops| && EmitRegions(st, loops, m, rec, idx, ops, k).err.Some?
    ensures EmitRegions(st, loops, m, rec, idx, ops, n) == EmitRegions(st, loops, m, rec, idx, ops, k)
    decreases n
  {
    if k < n {
      EmitRegionsStays(st, loops, m, rec, idx, ops, k, n - 1);
    }
  }

  /** One region pass that ends without error wrote exactly one sub-shape. */
  lemma EmitRegionStep(st: RunState, loop: Ring, k2: nat, m: Multi, rec: Option<Record>, idx: nat, ops: Ops)
    requires EmitRegion(st, loop, k2, m, rec, idx, ops).err.None?
    ensures st.err.None? && rec.Some? && idx < |rec.value| && !ops.intersect(loop, m).OtherResult?
    ensures var r := EmitRegion(st, loop, k2, m, rec, idx, ops);
      r.parts == st.parts + [PartsOf(ops.intersect(loop, m))] &&
      r.records == st.records + [SubRecord(rec.value, idx, k2)] &&
      r.last == Some(SubRecord(rec.value, idx, k2))
  {
  }

  /** The region loop never touches the centre output. */
  lemma {:induction false} EmitRegionsKeepsCentres(st: RunState, loops: seq<Ring>, m: Multi, rec: Option<Record>, idx: nat, ops: Ops, n: nat)
    requires n <= |loops|
    ensures EmitRegions(st, loops, m, rec, idx, ops, n).centres == st.centres
    ensures EmitRegions(st, loops, m, rec, idx, ops, n).centreRecords == st.centreRecords
  {
    if n > 0 {
      EmitRegionsKeepsCentres(st, loops, m, rec, idx, ops, n - 1);
      EmitRegionKeepsCentres(EmitRegions(st, loops, m, rec, idx, ops, n - 1), loops[n - 1], n - 1, m, rec, idx, ops);
    }
  }

  lemma EmitRegionKeepsCentres(st: RunState, loop: Ring, k2: nat, m: Multi, rec: Option<Record>, idx: nat, ops: Ops)
    ensures EmitRegion(st, loop, k2, m, rec, idx, ops).centres == st.centres
    ensures EmitRegion(st, loop, k2, m, rec, idx, ops).centreRecords == st.centreRecords
  {
  }

  /** The records of sub-shapes `0 .. n-1` cut from one shape record. */
  function RegionRecords(rec: Record, idx: nat, n: nat): (r: seq<Record>)
    requires idx < |rec|
    ensures |r| == n
  {
    if n == 0 then [] else RegionRecords(rec, idx, n - 1) + [SubRecord(rec, idx, n - 1)]
  }

  /** The rings of the intersections with regions `0 .. n-1`; an unsupported intersection stands as no rings. */
  function RegionParts(loops: seq<Ring>, m: Multi, intersect: (Ring, Multi) -> Geom, n: nat): (r: seq<seq<Ring>>)
    requires n <= |loops|
    ensures |r| == n
  {
    if n == 0 then []
    else
      var g := intersect(loops[n - 1], m);
      RegionParts(loops, m, intersect, n - 1) + [if g.OtherResult? then [] else PartsOf(g)]
  }

  lemma {:induction false} RegionRecordsAt(rec: Record, idx: nat, n: nat, k: nat)
    requires idx < |rec| && k < n
    ensures RegionRecords(rec, idx, n)[k] == SubRecord(rec, idx, k)
  {
    if k < n - 1 {
      RegionRecordsAt(rec, idx, n - 1, k);
    }
  }

  lemma {:induction false} RegionPartsAt(loops: seq<Ring>, m: Multi, intersect: (Ring, Multi) -> Geom, n: nat, k: nat)
    requires k < n <= |loops| && !intersect(loops[k], m).OtherResult?
    ensures RegionParts(loops, m, intersect, n)[k] == PartsOf(intersect(loops[k], m))
  {
    if k < n - 1 {
      RegionPartsAt(loops, m, intersect, n - 1, k);
    }
  }

  /** The last pass of a region loop that ends without error. */
  lemma EmitRegionsLast(st: RunState, loops: seq<Ring>, m: Multi, rec: Option<Record>, idx: nat, ops: Ops, n: nat)
    requires 0 < n <= |loops| && EmitRegions(st, loops, m, rec, idx, ops, n).err.None?
    ensures EmitRegions(st, loops, m, rec, idx, ops, n - 1).err.None?
    ensures rec.Some? && idx < |rec.value| && !ops.intersect(loops[n - 1], m).OtherResult?
    ensures var prev := EmitRegions(st, loops, m, rec, idx, ops, n - 1);
      var r := EmitRegions(st, loops, m, rec, idx, ops, n);
      r.parts == prev.parts + [PartsOf(ops.intersect(loops[n - 1], m))] &&
      r.records == prev.records + [SubRecord(rec.value, idx, n - 1)] &&
      r.last == Some(SubRecord(rec.value, idx, n - 1))
  {
    EmitRegionStep(EmitRegions(st, loops, m, rec, idx, ops, n - 1), loops[n - 1], n - 1, m, rec, idx, ops);
  }

  /** A region loop that runs to the end without error appends one sub-shape per region. */
  lemma {:induction false} EmitRegionsGrows(st: RunState, loops: seq<Ring>, m: Multi, rec: Option<Record>, idx: nat, ops: Ops, n: nat)
    requires n <= |loops| && EmitRegions(st, loops, m, rec, idx, ops, n).err.None?
    ensures st.err.None? && (n > 0 ==> rec.Some? && idx < |rec.value|)
    ensures var r := EmitRegions(st, loops, m, rec, idx, ops, n);
      |r.parts| == |st.parts| + n && |r.records| == |st.records| + n &&
      r.parts == st.parts + RegionParts(loops, m, ops.intersect, n) &&
      (n > 0 ==> r.records == st.records + RegionRecords(rec.value, idx, n) &&
                 r.last == Some(SubRecord(rec.value, idx, n - 1)))
  {
    if n > 0 {
      var r := EmitRegions(st, loops, m, rec, idx, ops, n);
      EmitRegionsLast(st, loops, m, rec, idx, ops, n);
      EmitRegionsGrows(st, loops, m, rec, idx, ops, n - 1);
      var p := PartsOf(ops.intersect(loops[n - 1], m));
      var x := SubRecord(rec.value, idx, n - 1);
      assert RegionParts(loops, m, ops.intersect, n) == RegionParts(loops, m, ops.intersect, n - 1) + [p];
      assert r.parts == st.parts + RegionParts(loops, m, ops.intersect, n) by {
        AppendAssoc(st.parts, RegionParts(loops, m, ops.intersect, n - 1), [p]);
      }
      if n == 1 {
        assert r.records == st.records + RegionRecords(rec.value, idx, n);
      } else {
        AppendAssoc(st.records, RegionRecords(rec.value, idx, n - 1), [x]);
      }
    }
  }

  /** Every region of a loop that runs to the end without error has a supported intersection. */
  lemma {:induction false} EmitRegionsSupported(st: RunState, loops: seq<Ring>, m: Multi, rec: Option<Record>, idx: nat, ops: Ops, n: nat, k: nat)
    requires k < n <= |loops| && EmitRegions(st, loops, m, rec, idx, ops, n).err.None?
    ensures !ops.intersect(loops[k], m).OtherResult?
  {
    EmitRegionsLast(st, loops, m, rec, idx, ops, n);
    if k < n - 1 {
      EmitRegionsSupported(st, loops, m, rec, idx, ops, n - 1, k);
    }
  }

  /** Sub-shape `k` has the rings of region `k`'s intersection and the record renamed with index `k`. */
  lemma EmitRegionsWrites(st: RunState, loops: seq<Ring>, m: Multi, rec: Option<Record>, idx: nat, ops: Ops, n: nat, k: nat)
    requires k < n <= |loops| && EmitRegions(st, loops, m, rec, idx, ops, n).err.None?
    ensures rec.Some? && idx < |rec.value| && !ops.intersect(loops[k], m).OtherResult?
    ensures |st.parts| + k < |EmitRegions(st, loops, m, rec, idx, ops, n).parts|
    ensures |st.records| + k < |EmitRegions(st, loops, m, rec, idx, ops, n).records|
    ensures EmitRegions(st, loops, m, rec, idx, ops, n).parts[|st.parts| + k] == PartsOf(ops.intersect(loops[k], m))
    ensures EmitRegions(st, loops, m, rec, idx, ops, n).records[|st.records| + k] == SubRecord(rec.value, idx, k)
  {
    EmitRegionsGrows(st, loops, m, rec, idx, ops, n);
    EmitRegionsSupported(st, loops, m, rec, idx, ops, n, k);
    RegionPartsAt(loops, m, ops.intersect, n, k);
    RegionRecordsAt(rec.value, idx, n, k);
  }

  /** The sub-shapes written for one shape have pairwise distinct names. */
  lemma SubNamesDistinct(rec: Record, idx: nat, i: nat, j: nat)
    requires idx < |rec| && i != j
    ensures SubRecord(rec, idx, i)[idx] != SubRecord(rec, idx, j)[idx]
  {
    if SubRecord(rec, idx, i)[idx] == SubRecord(rec, idx, j)[idx] {
      SubNameDistinct(rec[idx], i, j);
    }
  }

  lemma {:induction false} EmitCentresFrozen(st: RunState, centres: seq<Point>, n: nat)
    requires n <= |centres| && st.err.Some?
    ensures EmitCentres(st, centres, n) == st
  {
    if n > 0 {
      EmitCentresFrozen(st, centres, n - 1);
    }
  }

  /** Every centre point is written with the same record: the last sub-shape record written before it. */
  lemma {:induction false} EmitCentresWrites(st: RunState, centres: seq<Point>, n: nat)
    requires n <= |centres| && st.err.None? && st.last.Some?
    ensures var r := EmitCentres(st, centres, n);
      r.err.None? && r.parts == st.parts && r.records == st.records && r.last == st.last &&
      r.centres == st.centres + centres[..n] &&
      r.centreRecords == st.centreRecords + seq(n, _ => st.last.value)
  {
    if n > 0 {
      EmitCentresWrites(st, centres, n - 1);
      assert centres[..n] == centres[..n - 1] + [centres[n - 1]];
      assert seq(n, _ => st.last.value) == seq(n - 1, _ => st.last.value) + [st.last.value];
    }
  }

  /** A shape that is still invalid after repair, or whose region count differs from its cluster count, writes nothing. */
  lemma ProcessShapeSkips(st: RunState, multi: Multi, rec: Option<Record>, idx: nat, ops: Ops, outCentres: bool)
    requires ValidOps(ops) && st.err.None?
    requires !ops.isValid(Repaired(multi, ops)) ||
      (ops.kmeans(InteriorPoints(multi, ops), NumBox(ops.areaKm2(multi))).Some? &&
       |Loops(ops.voronoi(ops.kmeans(InteriorPoints(multi, ops), NumBox(ops.areaKm2(multi))).value + ExtPts()))|
         != |ops.kmeans(InteriorPoints(multi, ops), NumBox(ops.areaKm2(multi))).value|)
    ensures ProcessShape(st, multi, rec, idx, ops, outCentres) == st
  {
  }

  /**
   * A shape that is processed without error writes one sub-shape per cluster
   * centre and, when centres are written, one centre point per cluster, all
   * carrying the record of its last sub-shape.
   */
  lemma ProcessShapeEmits(st: RunState, multi: Multi, rec: Option<Record>, idx: nat, ops: Ops, outCentres: bool, centres: seq<Point>)
    requires ValidOps(ops) && st.err.None?
    requires ops.isValid(Repaired(multi, ops))
    requires ops.kmeans(InteriorPoints(multi, ops), NumBox(ops.areaKm2(multi))) == Some(centres)
    requires |Loops(ops.voronoi(centres + ExtPts()))| == |centres| && |centres| > 0
    requires ProcessShape(st, multi, rec, idx, ops, outCentres).err.None?
    ensures rec.Some? && idx < |rec.value|
    ensures var r := ProcessShape(st, multi, rec, idx, ops, outCentres);
      |r.parts| == |st.parts| + |centres| && |r.records| == |st.records| + |centres| &&
      r.last == Some(SubRecord(rec.value, idx, |centres| - 1)) &&
      (outCentres ==> r.centres == st.centres + centres &&
                      r.centreRecords == st.centreRecords + seq(|centres|, _ => SubRecord(rec.value, idx, |centres| - 1))) &&
      (!outCentres ==> r.centres == st.centres)
  {
    var m := Repaired(multi, ops);
    var loops := Loops(ops.voronoi(centres + ExtPts()));
    var st2 := EmitRegions(st, loops, m, rec, idx, ops, |loops|);
    if st2.err.Some? {
      EmitCentresFrozen(st2, centres, |centres|);
    }
    EmitRegionsGrows(st, loops, m, rec, idx, ops, |loops|);
    EmitRegionsKeepsCentres(st, loops, m, rec, idx, ops, |loops|);
    if outCentres {
      EmitCentresWrites(st2, centres, |centres|);
      assert centres[..|centres|] == centres;
    }
  }

  lemma {:induction false} RunStays(multis: seq<Multi>, recs: seq<Record>, idx: nat, ops: Ops, outCentres: bool, k: nat, n: nat)
    requires ValidOps(ops) && k <= n <= |multis| && Run(multis, recs, idx, ops, outCentres, k).err.Some?
    ensures Run(multis, recs, idx, ops, outCentres, n) == Run(multis, recs, idx, ops, outCentres, k)
    decreases n
  {
    if k < n {
      RunStays(multis, recs, idx, ops, outCentres, k, n - 1);
    }
  }

  /** Without centre output, the centre writer stays empty. */
  lemma {:induction false} RunWithoutCentres(multis: seq<Multi>, recs: seq<Record>, idx: nat, ops: Ops, n: nat)
    requires ValidOps(ops) && n <= |multis|
    ensures Run(multis, recs, idx, ops, false, n).centres == [] && Run(multis, recs, idx, ops, false, n).centreRecords == []
  {
    if n > 0 {
      RunWithoutCentres(multis, recs, idx, ops, n - 1);
      var st := Run(multis, recs, idx, ops, false, n - 1);
      var multi := multis[n - 1];
      var km := ops.kmeans(InteriorPoints(multi, ops), NumBox(ops.areaKm2(multi)));
      if st.err.None? && ops.isValid(Repaired(multi, ops)) && km.Some? {
        var loops := Loops(ops.voronoi(km.value + ExtPts()));
        if |loops| == |km.value| {
          EmitRegionsKeepsCentres(st, loops, Repaired(multi, ops), RecordAt(recs, n - 1), idx, ops, |loops|);
        }
      }
    }
  }

  // ---------------------------------------------------------------------------
  // The writers and the procedure

  /** The polygon shapefile writer: shapes and records in the order written. */
  class ShapeWriter {
    const fields: seq<string>
    var parts: seq<seq<Ring>>
    var records: seq<Record>

    constructor (fields: seq<string>)
      ensures this.fields == fields && parts == [] && records == []
    {
      this.fields := fields;
      parts := [];
      records := [];
    }

    method Poly(p: seq<Ring>)
      modifies this
      ensures parts == old(parts) + [p] && records == old(records)
    {
      parts := parts + [p];
    }

    method AddRecord(r: Record)
      modifies this
      ensures records == old(records) + [r] && parts == old(parts)
    {
      records := records + [r];
    }
  }

  /** The centre-point shapefile writer. */
  class PointWriter {
    var points: seq<Point>
    var records: seq<Record>

    constructor ()
      ensures points == [] && records == []
    {
      points := [];
      records := [];
    }

    method AddPoint(p: Point)
      modifies this
      ensures points == old(points) + [p] && records == old(records)
    {
      points := points + [p];
    }

    method AddRecord(r: Record)
      modifies this
      ensures records == old(records) + [r] && points == old(points)
    {
      records := records + [r];
    }
  }

  /** The region loop for one shape. */
  method EmitSubShapes(w: ShapeWriter, loops: seq<Ring>, m: Multi, rec: Option<Record>, idx: nat, ops: Ops,
                       last: Option<Record>, ghost st: RunState)
    returns (last': Option<Record>, err: Option<SubdivideError>, ghost st': RunState)
    requires st.err.None? && st.last == last && w.parts == st.parts && w.records == st.records
    modifies w
    ensures st' == EmitRegions(st, loops, m, rec, idx, ops, |loops|)
    ensures w.parts == st'.parts && w.records == st'.records && last' == st'.last && err == st'.err
  {
    st', last', err := st, last, None;
    for k2 := 0 to |loops|
      invariant st' == EmitRegions(st, loops, m, rec, idx, ops, k2)
      invariant st'.err.None? && err.None? && w.parts == st'.parts && w.records == st'.records && last' == st'.last
    {
      ghost var next := EmitRegion(st', loops[k2], k2, m, rec, idx, ops);
      assert next == EmitRegions(st, loops, m, rec, idx, ops, k2 + 1);
      var reg := ops.intersect(loops[k2], m);
      if rec.None? {
        err := Some(RecordMissing);
        st' := next;
        EmitRegionsStays(st, loops, m, rec, idx, ops, k2 + 1, |loops|);
        return;
      }
      var newRecs := rec.value;
      if idx >= |newRecs| {
        err := Some(FieldMissing);
        st' := next;
        EmitRegionsStays(st, loops, m, rec, idx, ops, k2 + 1, |loops|);
        return;
      }
      var dotname := newRecs[idx];
      newRecs := newRecs[idx := SubName(dotname, k2)];
      assert newRecs == SubRecord(rec.value, idx, k2);
      last' := Some(newRecs);
      if reg.OtherResult? {
        err := Some(UnsupportedGeometry);
        st' := next;
        EmitRegionsStays(st, loops, m, rec, idx, ops, k2 + 1, |loops|);
        return;
      }
      var polyList := if reg.MultiResult? then reg.ps else [reg.p];
      w.Poly(PolygonsToParts(polyList));
      w.AddRecord(newRecs);
      EmitRegionStep(st', loops[k2], k2, m, rec, idx, ops);
      st' := next;
    }
  }

  /** The centre loop for one shape. */
  method WriteCentres(cw: PointWriter, centres: seq<Point>, last: Option<Record>, ghost st: RunState)
    returns (err: Option<SubdivideError>, ghost st': RunState)
    requires st.err.None? && st.last == last && cw.points == st.centres && cw.records == st.centreRecords
    modifies cw
    ensures st' == EmitCentres(st, centres, |centres|)
    ensures cw.points == st'.centres && cw.records == st'.centreRecords && err == st'.err
    ensures st'.parts == st.parts && st'.records == st.records && st'.last == st.last
  {
    st', err := st, None;
    for i := 0 to |centres|
      invariant st' == EmitCentres(st, centres, i)
      invariant st'.err.None? && cw.points == st'.centres && cw.records == st'.centreRecords
      invariant st'.parts == st.parts && st'.records == st.records && st'.last == st.last
    {
      if last.None? {
        err := Some(NoRecordForCentres);
        st' := EmitCentres(st, centres, i + 1);
        EmitCentresStays(st, centres, i + 1, |centres|);
        return;
      }
      cw.AddPoint(centres[i]);
      cw.AddRecord(last.value);
      st' := EmitCentres(st, centres, i + 1);
    }
  }

  lemma {:induction false} EmitCentresStays(st: RunState, centres: seq<Point>, k: nat, n: nat)
    requires k <= n <= |centres| && EmitCentres(st, centres, k).err.Some?
    ensures EmitCentres(st, centres, n) == EmitCentres(st, centres, k)
    decreases n
  {
    if k < n {
      EmitCentresStays(st, centres, k, n - 1);
    }
  }

  /** The body of the shape loop, one multipolygon. */
  method SubdivideShape(w: ShapeWriter, cw: PointWriter?, multi: Multi, rec: Option<Record>, idx: nat, ops: Ops,
                        outCentres: bool, last: Option<Record>, ghost st: RunState)
    returns (last': Option<Record>, err: Option<SubdivideError>, ghost st': RunState)
    requires ValidOps(ops) && (cw != null <==> outCentres)
    requires st.err.None? && st.last == last && w.parts == st.parts && w.records == st.records
    requires cw != null ==> cw.points == st.centres && cw.records == st.centreRecords
    modifies w, cw
    ensures st' == ProcessShape(st, multi, rec, idx, ops, outCentres)
    ensures w.parts == st'.parts && w.records == st'.records && last' == st'.last && err == st'.err
    ensures cw != null ==> cw.points == st'.centres && cw.records == st'.centreRecords
    ensures cw == null ==> st'.centres == st.centres && st'.centreRecords == st.centreRecords
  {
    st', last', err := st, last, None;
    var numBox := NumBox(ops.areaKm2(multi));
    var ptsDim := PtsDim(numBox);
    var m := multi;
    if !ops.isValid(m) {
      m := ops.buffer0(m);
    }
    if !ops.isValid(m) {
      return;
    }
    assert m == Repaired(multi, ops);
    var ptsVecIn := Filter(MeshPoints(m, ptsDim, ops), p => ops.contains(m, p));
    assert ptsVecIn == InteriorPoints(multi, ops);
    var fit := ops.kmeans(ptsVecIn, numBox);
    if fit.None? {
      err := Some(KMeansFailed);
      st' := st.(err := err);
      return;
    }
    var subNode := fit.value;
    var vorList := ExtractRegions(ops.voronoi(subNode + ExtPts()));
    if |vorList| != |subNode| {
      return;
    }
    ghost var st2;
    last', err, st2 := EmitSubShapes(w, vorList, m, rec, idx, ops, last, st);
    st' := st2;
    EmitRegionsKeepsCentres(st, vorList, m, rec, idx, ops, |vorList|);
    if err.Some? {
      if outCentres {
        EmitCentresFrozen(st2, subNode, |subNode|);
      }
      return;
    }
    if outCentres {
      err, st' := WriteCentres(cw, subNode, last', st2);
    }
  }

  /**
   * `shape_subdivide`: the writer field list, the name index, then the shape
   * loop over the first `top_n` multipolygons; an error ends the run with the
   * output written so far.
   */
  method ShapeSubdivide(multis: seq<Multi>, recs: seq<Record>, shapeAttr: string, inFields: seq<string>,
                        topN: Option<int>, ops: Ops, outCentres: bool)
    returns (w: ShapeWriter, cw: PointWriter?, err: Option<SubdivideError>)
    requires ValidOps(ops)
    ensures fresh(w) && (cw != null <==> outCentres) && (cw != null ==> fresh(cw))
    ensures var st := Subdivide(multis, recs, shapeAttr, inFields, topN, ops, outCentres);
      w.parts == st.parts && w.records == st.records && err == st.err &&
      (cw != null ==> cw.points == st.centres && cw.records == st.centreRecords)
  {
    w := new ShapeWriter(WriterFields(shapeAttr, inFields));
    if outCentres {
      cw := new PointWriter();
    } else {
      cw := null;
    }
    var dotnameIndex := IndexOf(w.fields, shapeAttr);
    var count := Count(topN, |multis|);
    err := ShapeLoop(w, cw, multis, recs, dotnameIndex, count, ops, outCentres);
  }

  /** The shape loop over the first `count` multipolygons, writing into `w` and `cw`. */
  method ShapeLoop(w: ShapeWriter, cw: PointWriter?, multis: seq<Multi>, recs: seq<Record>, idx: nat, count: nat,
                   ops: Ops, outCentres: bool)
    returns (err: Option<SubdivideError>)
    requires ValidOps(ops) && count <= |multis| && (cw != null <==> outCentres)
    requires w.parts == [] && w.records == [] && (cw != null ==> cw.points == [] && cw.records == [])
    modifies w, cw
    ensures var st := Run(multis, recs, idx, ops, outCentres, count);
      w.parts == st.parts && w.records == st.records && err == st.err &&
      (cw != null ==> cw.points == st.centres && cw.records == st.centreRecords)
  {
    var last: Option<Record> := None;
    err := None;
    ghost var st := Run(multis, recs, idx, ops, outCentres, 0);
    for k1 := 0 to count
      invariant st == Run(multis, recs, idx, ops, outCentres, k1)
      invariant st.err.None? && err.None? && st.last == last && w.parts == st.parts && w.records == st.records
      invariant cw != null ==> cw.points == st.centres && cw.records == st.centreRecords
    {
      var rec := if k1 < |recs| then Some(recs[k1]) else None;
      last, err, st := SubdivideShape(w, cw, multis[k1], rec, idx, ops, outCentres, last, st);
      if err.Some? {
        RunStays(multis, recs, idx, ops, outCentres, k1 + 1, count);
        return;
      }
    }
  }
}

=== FILE: text.dfy ===
/** String helpers for the Python string operations the model needs. */
module Text {

  /** `str.startswith`. */
  predicate StartsWith(s: string, prefix: string)
  {
    |prefix| <= |s| && s[..|prefix|] == prefix
  }

  /** `str.endswith`. */
  predicate EndsWith(s: string, suffix: string)
  {
    |suffix| <= |s| && s[|s| - |suffix|..] == suffix
  }

  function LowerChar(c: char): char
  {
    if 'A' <= c <= 'Z' then (c as int + 32) as char else c
  }

  /** `str.lower` on ASCII letters; every other character is kept. */
  function Lower(s: string): (r: string)
    ensures |r| == |s|
    ensures forall i :: 0 <= i < |s| ==> r[i] == LowerChar(s[i])
  {
    seq(|s|, i requires 0 <= i < |s| => LowerChar(s[i]))
  }

  lemma LowerIdempotent(s: string)
    ensures Lower(Lower(s)) == Lower(s)
  {
  }

  /** Lowering keeps the dots of a file name where they are. */
  lemma LowerKeepsDots(s: string)
    ensures forall i :: 0 <= i < |s| ==> (Lower(s)[i] == '.' <==> s[i] == '.')
  {
  }

  predicate IsDigit(c: char)
  {
    '0' <= c <= '9'
  }

  function DigitChar(d: nat): (c: char)
    requires d < 10
    ensures IsDigit(c)
  {
    ('0' as int + d) as char
  }

  function DigitValue(c: char): (d: nat)
    requires IsDigit(c)
    ensures d < 10 && DigitChar(d) == c
  {
    c as int - '0' as int
  }

  predicate AllDigits(s: string)
  {
    forall i :: 0 <= i < |s| ==> IsDigit(s[i])
  }

  /** The shortest decimal representation of `n` (`str(n)`). */
  function Decimal(n: nat): (s: string)
    ensures 1 <= |s| && AllDigits(s)
  {
    if n < 10 then [DigitChar(n)] else Decimal(n / 10) + [DigitChar(n % 10)]
  }

  /** The value of a string of decimal digits; leading zeros are allowed. */
  function ParseDecimal(s: string): nat
    requires AllDigits(s)
  {
    if s == [] then 0 else ParseDecimal(s[..|s| - 1]) * 10 + DigitValue(s[|s| - 1])
  }

  lemma {:induction false} ParseDecimalOfDecimal(n: nat)
    ensures ParseDecimal(Decimal(n)) == n
  {
    if n >= 10 {
      var s := Decimal(n);
      assert s[..|s| - 1] == Decimal(n / 10);
      ParseDecimalOfDecimal(n / 10);
    }
  }

  function Zeros(k: nat): (z: string)
    ensures |z| == k && AllDigits(z)
    ensures forall i :: 0 <= i < k ==> z[i] == '0'
  {
    seq(k, _ => '0')
  }

  lemma {:induction false} ParseZeros(k: nat)
    ensures ParseDecimal(Zeros(k)) == 0
  {
    if k > 0 {
      assert Zeros(k)[..k - 1] == Zeros(k - 1);
      ParseZeros(k - 1);
    }
  }

  lemma {:induction false} ParseLeadingZeros(k: nat, s: string)
    requires AllDigits(s)
    ensures ParseDecimal(Zeros(k) + s) == ParseDecimal(s)
  {
    if s == [] {
      assert Zeros(k) + s == Zeros(k);
      ParseZeros(k);
    } else {
      var t := Zeros(k) + s;
      assert t[..|t| - 1] == Zeros(k) + s[..|s| - 1];
      ParseLeadingZeros(k, s[..|s| - 1]);
    }
  }

  /** `format(n, '04d')`: `n` in decimal, left-padded with zeros to at least four characters. */
  function Format04(n: nat): (s: string)
    ensures |s| == if |Decimal(n)| < 4 then 4 else |Decimal(n)|
    ensures AllDigits(s) && EndsWith(s, Decimal(n))
    ensures ParseDecimal(s) == n
  {
    var d := Decimal(n);
    var z := if |d| < 4 then 4 - |d| else 0;
    ParseLeadingZeros(z, d);
    ParseDecimalOfDecimal(n);
    assert (Zeros(z) + d)[|Zeros(z) + d| - |d|..] == d;
    Zeros(z) + d
  }

  /** Distinct indices give distinct padded strings. */
  lemma Format04Injective(i: nat, j: nat)
    requires Format04(i) == Format04(j)
    ensures i == j
  {
    assert ParseDecimal(Format04(i)) == i;
  }
}

=== FILE: wrappers.dfy ===
/** Failure-compatible wrappers shared by every module of the model. */
module Wrappers {

  /** A value that may be absent (Python's `None`). */
  datatype Option<+T> = None | Some(value: T)

  /** The result of an operation that may raise: `Failure` carries the reason. */
  datatype Result<+R, +E> = Success(value: R) | Failure(error: E)
}
